=== FILE: README.md ===
# DocSearch in Dafny

This project models DocSearch, a retrieval-augmented question-answering service. A client uploads a PDF, Markdown or
text file. The service:

- extracts and cleans the text;
- cuts it into chunks of about 500 characters, snapping each cut to a nearby sentence end;
- embeds every chunk as a 384-dimensional vector;
- stores the vectors with their payloads in a Qdrant collection;
- records the document in a PostgreSQL table with status "processing", then "completed" or "failed".

A question is answered in three steps:

1. Retrieval: a vector search is enriched with each document's metadata. When the search finds nothing, or fails,
   retrieval falls back to keyword matching over the stored chunks of one document, or to a filename search.
2. Context: the retrieved chunks are numbered into a context.
3. Answer: the context goes to the LLM service, which returns an answer, the cited sources and the token usage.

The HTTP layer defines these endpoints:

- upload, list, get, chunks, delete, search, filename search and statistics for documents;
- ask, summarize, document context and health for answers.

The application (app/main.py:55) mounts only the document router, so the answer endpoints of app/api/answer.py are defined but not served as shipped. `GET /health` is app/main.py:75-81, which always answers "healthy". The model covers the answer endpoints as they are written.

Each source file is one module:

| module (file) | source |
|---|---|
| `Parse` (parse.dfy) | app/services/parse.py |
| `Embedding` (embedding.dfy) | app/services/embedding.py |
| `VectorStore` (qdrant.dfy) | app/db/qdrant.py |
| `MetadataStore` (postgres.dfy) | app/db/postgres.py |
| `Retrieval` (retrieval.dfy) | app/services/retrieval.py |
| `Llm` (llm.dfy) | app/services/llm.py |
| `DocumentApi` (document_api.dfy) | app/api/document.py |
| `AnswerApi` (answer_api.dfy) | app/api/answer.py |
| `Requests` (requests.dfy) | app/models/answer.py |

Shared pieces sit in three further files:

- common.dfy holds `Wrappers`, `Errors` and `Settings`.
- text.dfy holds `Text`, Python's string operations: `\s`, `strip`, `lower`, `split()`, `in` and `join`.
- sorting.dfy holds `Sorting`, Python's stable `list.sort` as an insertion sort, with its stability proved.

State the source changes in place is modelled with classes:

- `VectorStore.QdrantManager` holds the collection as a map from point id to point.
- `MetadataStore.DocumentRepository` holds the table as a sequence of rows in insertion order, plus the next id.

Their methods are proved against specification functions such as `Upserted`, `BuildPoints` and `WithStatus`.

The world outside is passed in as parameters:

- the embedding model (`model` for batches, `encode` for single texts), either of which may raise;
- the LLM completion (`respond`);
- the nearest-neighbour answer of Qdrant (`found`), or the error of embedding the query or searching;
- the batch on which Qdrant's `upsert` raises, if any (`rejected`);
- the scroll answer (`scrolled`);
- the file readers (`read`), and whether opening or writing the uploaded file fails (`openFails`, `writeFails`);
- `uuid4` (`uuid`), the clock (`now`) and date formatting (`isoformat`);
- whether each database is reachable.

Retrieval reads the table and the chunks through an `Env` snapshot: the rows, whether the database is up, and the
chunks of each document.

Some behaviour of the code is surprising; the model follows the code:

- `split_into_chunks` computes `start = end - chunk_overlap` and then resets `start = end`. Its guard
  `end - chunk_overlap <= start` always holds at that point (app/services/parse.py:130-134). Consecutive chunks
  therefore never overlap: `Parse.RawWindowsPartition` proves the windows partition the text.
- With the fallback disabled, a failing vector search makes `retrieve_context` return an empty list rather than
  raise (app/services/retrieval.py:61-78). `Retrieval.RetrieveContext` states this.
- The filename fallback passes the whole question to `search_documents`. Only documents whose filename contains
  the entire question (case-insensitive) are found (app/services/retrieval.py:175).
- `delete_document` deletes the row even when the vector delete failed. `QdrantManager.delete_document` only logs
  the failure and returns `False` (app/api/document.py:253-273, app/db/qdrant.py:158-183).

## Model

| member | source | states |
|---|---|---|
| `Text.Strip` | app/services/parse.py:125 | the result has no surrounding whitespace, is empty iff the input is all whitespace, and is the slice of the input that starts after its leading whitespace and is followed by exactly the trailing whitespace of the rest |
| `Text.StripTail` | app/services/parse.py:125 | everything after the stripped text in the input is whitespace |
| `Text.StrippedIsFixpoint` | app/services/parse.py:125 | stripping a stripped string changes nothing |
| `Text.Lower` | app/services/retrieval.py:149 | the result has the input's length and is lowered character by character |
| `Text.WordsShape` | app/services/retrieval.py:154 | `str.split()` (`Text.Words`): every word is non-empty and free of whitespace |
| `Text.WordsEmpty` | app/services/retrieval.py:154 | there are no words exactly when the text is all whitespace |
| `Text.WordsOfSpaces` | app/services/retrieval.py:154 | all-whitespace text has no words |
| `Text.WordsOfWord` | app/services/retrieval.py:154 | a run of non-whitespace is one word |
| `Text.WordsAppend` | app/services/retrieval.py:154 | splitting two texts that meet at whitespace gives the words of the first followed by those of the second |
| `Text.WordsOfStrip` | app/services/retrieval.py:154 | stripping does not change the words |
| `Text.JoinLayout` | app/services/retrieval.py:262 | the joined text is the parts at their offsets with the separator between consecutive parts, and no longer |
| `Text.JoinContains` | app/services/retrieval.py:262 | every joined part is a substring of the joined text |
| `Text.NatToString` | app/api/document.py:266 | the decimal rendering of a natural number is non-empty, all digits, and one digit long iff the number is below 10 |
| `Text.IntToString` | app/api/document.py:266 | the rendering of an integer starts with '-' iff it is negative, followed by the digits of its magnitude |
| `Text.NatToStringRoundTrip` | app/services/llm.py:111-113 | reading back the decimal digits gives the number |
| `Text.SubstringTrans` | app/services/llm.py:105-115 | a substring of a substring is a substring |
| `Sorting.InsertPermutation` | app/db/qdrant.py:219 | inserting one element adds exactly that element |
| `Sorting.InsertSorted` | app/db/qdrant.py:219 | inserting into an ordered sequence keeps it ordered by the key |
| `Sorting.SortBy` | app/db/qdrant.py:219 | sorting keeps the length and is a permutation |
| `Sorting.SortBySorted` | app/db/qdrant.py:219 | the sort result is ordered by the key |
| `Sorting.SortByStable` | app/services/retrieval.py:170-171 | elements with equal keys keep their relative order, as Python's sort promises |
| `Sorting.SortedUnique` | app/db/qdrant.py:219 | a key-ordered permutation of a sequence whose keys strictly increase is that sequence, so sorting by a distinct key restores the order |
| `Sorting.DistinctCount` | app/db/qdrant.py:219 | each element occurs once in a sequence without repeats |
| `Sorting.DistinctSameElements` | app/db/qdrant.py:219 | two repeat-free sequences with the same members are permutations of each other |
| `Parse.CollapseSpaces` | app/services/parse.py:69 | the result has only plain spaces and no two in a row, is empty iff the input is, and starts and ends with a space exactly when the input does; its words are the input's (`CollapseSpacesKeepsWords`) |
| `Parse.CleanText` | app/services/parse.py:66-74 | cleaned text has the input's words, in order, with single plain spaces only between them, no newline and no surrounding whitespace |
| `Parse.CollapseSpacesKeepsWords` | app/services/parse.py:69 | collapsing whitespace after any prefix leaves the words of the whole unchanged |
| `Parse.CleanTextIsJoinedWords` | app/services/parse.py:66-74 | cleaned text is exactly the input's words joined by single spaces |
| `Parse.CleanTextIdempotent` | app/services/parse.py:66-74 | cleaning cleaned text changes nothing |
| `Parse.CollapseSpacesFixpoint` | app/services/parse.py:69 | text without whitespace runs is left unchanged by the collapse |
| `Parse.GetPreview` | app/services/parse.py:139-143 | text up to the limit is returned whole; longer text is cut at the limit and "..." is appended |
| `Parse.RemoveDots` | app/services/parse.py:54 | no dot remains and every other character occurs as often as before |
| `Parse.RemoveDotsAppend` | app/services/parse.py:54 | removing dots works piece by piece, so the other characters keep their order |
| `Parse.RemoveDotsOfPlain` | app/services/parse.py:54 | text without dots is unchanged |
| `Parse.FormatOf` | app/services/parse.py:54-63 | a type is parsable iff it is txt, md or pdf once lowered and undotted; anything else is a ValueError |
| `Parse.ParseDocument` | app/services/parse.py:43-63 | an unsupported type fails with ValueError; a supported one yields its reader's result |
| `Parse.SentenceEnds` | app/services/parse.py:113-116 | one end per match of `[.!?\n]\s+`, shifted by the window start, inside the window and in increasing order |
| `Parse.SentenceEndsExact` | app/services/parse.py:113-116 | a position is listed iff it is the end of a match of `[.!?\n]\s+` in the window, shifted by its start |
| `Parse.ClosestIndex` | app/services/parse.py:121 | the chosen candidate is nearest to the target, and no earlier candidate is as near |
| `Parse.FirstClosestIsEarliest` | app/services/parse.py:121 | among equally near candidates the earliest wins |
| `Parse.WindowEnd` | app/services/parse.py:105-123 | a window ends after its start and before start + size + 100, never past the text, and exactly at start + size at the text's end |
| `Parse.Snap` | app/services/parse.py:119-123 | the cut is the target or a candidate less than 100 characters away |
| `Parse.SnapRule` | app/services/parse.py:108-123 | the cut moves to the nearest (earliest on ties) sentence end when one lies within 100 characters, otherwise it stays at start + size |
| `Parse.SnapChoice` | app/services/parse.py:119-123 | over increasing candidates the cut is the target or a candidate within 100 characters, is a candidate whenever one lies that close, and is then the nearest candidate, the earliest on a tie |
| `Parse.KeepStripped` | app/services/parse.py:125-127 | only non-empty stripped chunks are kept |
| `Parse.NextChunkEnd` | app/services/parse.py:105-123 | the loop's cut equals `WindowEnd` |
| `Parse.SplitIntoChunks` | app/services/parse.py:77-136 | the loop produces exactly `Chunks(text, size)`, and nothing for empty text |
| `Parse.RawWindowsPartition` | app/services/parse.py:104-134 | the windows concatenate back to the text, so no text is lost or repeated |
| `Parse.RawWindowsBounded` | app/services/parse.py:104-134 | every window is non-empty and shorter than size + 100 |
| `Parse.ChunksShape` | app/services/parse.py:104-134 | every chunk is non-empty, stripped, shorter than size + 100, and a substring of the text |
| `Parse.StrippedSliceOccurs` | app/services/parse.py:125 | a stripped slice of the text occurs in the text and is no longer than the slice |
| `Parse.ProcessDocument` | app/services/parse.py:152-179 | a parse failure propagates; otherwise the full text is the cleaned text, the chunks are its chunks, and the preview is its 500-character preview |
| `Embedding.ZeroVector` | app/services/embedding.py:35-37 | the zero vector has 384 entries, all zero |
| `Embedding.EncodeText` | app/services/embedding.py:25-49 | missing or blank text encodes as the zero vector; other text is encoded by the model, and the result is an error exactly when the model raises on it |
| `Embedding.NonBlank` | app/services/embedding.py:60-66 | the non-blank texts are no more than the texts; which text sits at each position is `NonBlankAtRank` |
| `Embedding.RankBound` | app/services/embedding.py:84-97 | a text's rank among the non-blank texts is within range |
| `Embedding.NonBlankAtRank` | app/services/embedding.py:84-97 | a non-blank text sits in the filtered list at its rank |
| `Embedding.FilterBlank` | app/services/embedding.py:60-66 | the filter loop keeps exactly the non-blank texts and records exactly their indices |
| `Embedding.Reassemble` | app/services/embedding.py:84-97 | the output has one vector per input: zero for blank texts, and the embedding at its rank for the others |
| `Embedding.EncodeBatch` | app/services/embedding.py:51-100 | fails iff some text is non-blank and the model raises, with the model's error; otherwise blank texts get the zero vector and the others the model's vector at their rank; the model is called once, on the non-blank texts, and not at all when there are none |
| `Embedding.EmbedChunks` | app/services/embedding.py:131-141 | the batch encoder's outcome for the chunks: the model's error, or one vector per chunk as for a batch |
| `Embedding.EmbedQuery` | app/services/embedding.py:143-153 | a blank query embeds as zero, any other by the model, whose error it passes on |
| `VectorStore.ChunkPayload` | app/db/qdrant.py:74-83 | the payload holds the four reserved fields with their values, and the caller's metadata overrides any shared key |
| `VectorStore.BatchesCover` | app/db/qdrant.py:94-100 | the upload batches are non-empty, hold at most 100 points, and concatenate to the points in order |
| `VectorStore.UpsertedAppend` | app/db/qdrant.py:94-100 | upserting in two batches equals upserting all at once |
| `VectorStore.UpsertedValid` | app/db/qdrant.py:94-100 | upserting typed points keeps every stored point under its id with a typed payload |
| `VectorStore.UpsertedContents` | app/db/qdrant.py:94-100 | upserting points with distinct ids adds exactly them and leaves every other point unchanged |
| `VectorStore.SearchFilter` | app/db/qdrant.py:123-132 | the document filter is applied iff the document id is given and non-zero |
| `VectorStore.HitKeepsPayload` | app/db/qdrant.py:142-154 | a search hit loses no payload entry, and its metadata holds none of the named fields |
| `VectorStore.Records` | app/db/qdrant.py:209-217 | one chunk record per scrolled point |
| `VectorStore.Hits` | app/db/qdrant.py:142-154 | one hit per found point, in order, each reshaped from its point with text, document id and chunk index present |
| `VectorStore.QdrantManager.constructor` | app/db/qdrant.py:18-24 | a new manager has an empty collection |
| `VectorStore.QdrantManager.AddDocuments` | app/db/qdrant.py:49-102 | a length mismatch raises ValueError and changes nothing; otherwise the points are upserted in batches of 100 and the chunk count is returned; when the client raises on a batch, the batches before it stay stored, no later batch is sent, and the error propagates |
| `VectorStore.QdrantManager.SendBatches` | app/db/qdrant.py:93-102 | one upsert per slice of 100 points in order; all of them stored and the point count returned, or, when the client raises on a batch, exactly the batches before it stored and the error propagated |
| `VectorStore.QdrantManager.SearchSimilar` | app/db/qdrant.py:104-156 | the hits are the client's answer reshaped one by one (`Hits`), at most `limit` of them, each scoring at least the threshold and, with a truthy document id, from that document |
| `VectorStore.QdrantManager.DeleteDocument` | app/db/qdrant.py:158-183 | on success exactly the document's points are removed; on a client error nothing changes and False is returned |
| `VectorStore.QdrantManager.GetDocumentChunks` | app/db/qdrant.py:185-220 | the scrolled records sorted by chunk index: ordered, a permutation, at most 1000 |
| `VectorStore.AddedRecords` | app/db/qdrant.py:74-83 | the points built for a document carry each chunk's text under its own index |
| `VectorStore.AddedDocIds` | app/db/qdrant.py:49-102 | after adding a new document its stored points are exactly the added ones |
| `VectorStore.ScrolledAreAdded` | app/db/qdrant.py:196-217 | a full scroll returns exactly the records of the added points |
| `VectorStore.SortRestoresOrder` | app/db/qdrant.py:219 | sorting any permutation of records indexed 0..n-1 restores index order |
| `VectorStore.RecordsDistinct` | app/db/qdrant.py:209-217 | records of points with distinct ids have no repeats |
| `VectorStore.AddThenReadBack` | app/db/qdrant.py:49-220 | adding a document's chunks and reading them back returns every chunk, in order, with its index and id |
| `VectorStore.ScrolledAfterAdd` | app/db/qdrant.py:49-220 | the records scrolled back after an add are, as a multiset, the records of the points just built |
| `VectorStore.AddedRecordsInOrder` | app/db/qdrant.py:72-95 | the points built for a document are well typed, and the i-th carries the i-th chunk, index i and the i-th id |
| `MetadataStore.ToDict` | app/db/postgres.py:26-38 | the dictionary carries every column, with the upload date present |
| `MetadataStore.ToDictInjective` | app/db/postgres.py:26-38 | two rows with the same dictionary are the same row |
| `MetadataStore.NewestFirst` | app/db/postgres.py:112 | the rows are a permutation ordered newest first |
| `MetadataStore.NewestFirstKeepsTies` | app/db/postgres.py:112 | rows with the same date keep their table order |
| `MetadataStore.Page` | app/db/postgres.py:113-114 | offset and limit select the right number of rows, starting at the offset |
| `MetadataStore.Matching` | app/db/postgres.py:147 | exactly the rows whose filename contains the query, ignoring case |
| `MetadataStore.Find` | app/db/postgres.py:97-102 | the position of the row with the id, or none when no row has it |
| `MetadataStore.Lookup` | app/db/postgres.py:97-102 | the row with the id, or none when no row has it |
| `MetadataStore.SearchRows` | app/db/postgres.py:143-150 | the matching rows, newest first, each at most once |
| `MetadataStore.WithStatus` | app/db/postgres.py:118-132 | the status is set, the chunk count is set only when given, and nothing else changes |
| `MetadataStore.FindUnique` | app/db/postgres.py:97-102 | the lookup finds the unique row with the id |
| `MetadataStore.RemoveAt` | app/db/postgres.py:134-141 | removing a row keeps the others, in increasing id order |
| `MetadataStore.DocumentRepository.constructor` | app/db/postgres.py:73-74 | a new repository has no rows and next id 1 |
| `MetadataStore.DocumentRepository.GetDocument` | app/db/postgres.py:97-102 | the stored row with the id, or none |
| `MetadataStore.DocumentRepository.CreateDocument` | app/db/postgres.py:76-95 | a fresh row with the next id, zero chunks and status "processing" is appended and can be read back |
| `MetadataStore.DocumentRepository.UpdateDocumentStatus` | app/db/postgres.py:118-132 | a missing id changes nothing and returns none; otherwise that row alone gets the status (and count when given) |
| `MetadataStore.DocumentRepository.SetContentPreview` | app/api/document.py:122-124 | only the row with the id gets the preview |
| `MetadataStore.DocumentRepository.DeleteDocument` | app/db/postgres.py:134-141 | True iff the row existed; afterwards exactly that row is gone |
| `MetadataStore.DocumentRepository.GetAllDocuments` | app/db/postgres.py:104-116 | the page `Page(NewestFirst(rows), skip, limit)`: the stored rows newest first, `skip` of them dropped and at most `limit` kept |
| `MetadataStore.DocumentRepository.SearchDocuments` | app/db/postgres.py:143-150 | exactly the rows whose filename contains the query, newest first |
| `Retrieval.Take` | app/services/retrieval.py:151 | Python's `s[:k]` for any `k`, negative included |
| `Retrieval.EnrichOne` | app/services/retrieval.py:216-233 | a hit keeps its text, score and index, and gets its document's filename, type and date, or "Unknown" when the row is missing |
| `Retrieval.EnrichSpec` | app/services/retrieval.py:198-235 | no hits give no results without touching the database; otherwise a database failure fails, and success enriches every hit in order |
| `Retrieval.Enrich` | app/services/retrieval.py:198-235 | the enrichment loop computes `EnrichSpec` |
| `Retrieval.VectorSpec` | app/services/retrieval.py:80-116 | an embedding or search failure propagates; success enriches the hits of the client's answer in order (`EnrichSpec`), at most `top_k` of them, each scoring at least the threshold and, with a document filter, from that document |
| `Retrieval.VectorSearch` | app/services/retrieval.py:80-116 | the vector branch computes `VectorSpec` |
| `Retrieval.MatchCount` | app/services/retrieval.py:154-155 | at most one count per question word, positive iff some question word longer than two characters occurs in the chunk |
| `Retrieval.MatchCountIsPositions` | app/services/retrieval.py:154-155 | the count is the number of question positions holding a word longer than two characters that occurs in the chunk, repeats counted |
| `Retrieval.Fraction` | app/services/retrieval.py:160 | the score is `n / m` as a true division and lies in (0, 1] |
| `Retrieval.ScoreOne` | app/services/retrieval.py:157-167 | a matching chunk keeps its text and index, names its document, and scores its matching words over all question words |
| `Retrieval.ScoreChunks` | app/services/retrieval.py:151-167 | at most one entry per chunk, each naming the document and scoring its matching words over all question words |
| `Retrieval.ScoreChunksSound` | app/services/retrieval.py:151-167 | every entry comes from a chunk that matches the question |
| `Retrieval.ScoreChunksComplete` | app/services/retrieval.py:151-167 | every matching chunk yields an entry |
| `Retrieval.ScoreChunksAppend` | app/services/retrieval.py:151-167 | scoring distributes over concatenation, so the entries follow the order of their chunks |
| `Retrieval.ByDocumentSpec` | app/services/retrieval.py:140-171 | fails iff the database is down or the document's chunks cannot be read; an unknown document gives no results |
| `Retrieval.FirstChunks` | app/services/retrieval.py:178-194 | fails iff some document's chunks cannot be read; otherwise at most one first chunk per document, scored 0.5 at index 0 |
| `Retrieval.FirstChunksMembers` | app/services/retrieval.py:178-194 | exactly the documents with chunks contribute, each with its first chunk |
| `Retrieval.FilenameSpec` | app/services/retrieval.py:173-196 | a database failure fails; `FilenameResults` states the success value |
| `Retrieval.MatchChunks` | app/services/retrieval.py:151-167 | the scoring loop computes `ScoreChunks` |
| `Retrieval.CollectFirstChunks` | app/services/retrieval.py:178-194 | the filename loop computes `FirstChunks` |
| `Retrieval.PostgresFallback` | app/services/retrieval.py:118-196 | the fallback computes `FallbackSpec`: by document when the id is truthy, else by filename |
| `Retrieval.RetrieveContext` | app/services/retrieval.py:15-78 | the method computes `RetrieveSpec`: non-empty vector results are returned as is; no fallback returns them or []; an empty vector result runs the fallback, and a failure there runs it again in the handler; a vector failure runs it once in the handler; a failing handler fallback gives [] |
| `Retrieval.RankedPrefix` | app/services/retrieval.py:170-171 | the best `top_k` of the matches: `min(top_k, |matches|)` entries for a non-negative `top_k`, by descending score, drawn from the matches, none left out scoring higher than one kept, and equal scores in their original order |
| `Retrieval.ByDocumentResults` | app/services/retrieval.py:140-171 | for a known document the result is the best `top_k` of the scored chunks among its first `top_k` stored chunks; each names the document, scores its matching words over all question words, and comes from a chunk where a question word occurs |
| `Retrieval.FirstChunksAppend` | app/services/retrieval.py:178-194 | collecting over two lists gives the first list's entries before the second's, and fails if either fails |
| `Retrieval.FilenameResults` | app/services/retrieval.py:173-196 | the result is the first chunks of the first `top_k` matching documents in newest-first order: at most `top_k`, scored 0.5 at index 0, one for each of those documents that has chunks and nothing else |
| `Retrieval.RetrieveBounded` | app/services/retrieval.py:80-196 | with the client answering the search for `limit=top_k`, both the vector and the fallback results have at most `top_k` entries |
| `Retrieval.RetrieveContextBounded` | app/services/retrieval.py:15-78 | retrieval returns at most `top_k` chunks |
| `Retrieval.Texts` | app/services/retrieval.py:262 | the chunk texts, in order |
| `Retrieval.FullDocumentContext` | app/services/retrieval.py:237-275 | fails iff the database is down or the chunks cannot be read; none iff the document is missing; otherwise the document's fields, all its chunks, their count, and the full text, which is their texts joined by a blank line |
| `Retrieval.FullTextHasEveryChunk` | app/services/retrieval.py:262 | every chunk's text occurs in the full text |
| `Llm.ContextPart` | app/services/llm.py:105-113 | a numbered context part contains the chunk's text |
| `Llm.Parts` | app/services/llm.py:105-113 | one part per chunk, numbered from 1 |
| `Llm.BuildContext` | app/services/llm.py:92-115 | the loop builds `Context`: the fixed no-context text for no chunks, else the numbered parts joined by newlines |
| `Llm.ContextHasEveryChunk` | app/services/llm.py:92-115 | every chunk's part and text occur in the context |
| `Llm.PartNumbering` | app/services/llm.py:111 | part k starts with the source label and the decimal number k + 1 |
| `Llm.CitedIds` | app/services/llm.py:168-182 | exactly the non-zero document ids of the chunks |
| `Llm.ExtractSources` | app/services/llm.py:157-184 | the loop computes `Sources`, whose order is stated by `SourcesInFirstAppearanceOrder` |
| `Llm.SourcesAreDistinct` | app/services/llm.py:157-184 | the sources name every cited document exactly once and nothing else |
| `Llm.SourcesFromFirstChunk` | app/services/llm.py:168-182 | each source is taken from the first chunk of its document |
| `Llm.SourcesInFirstAppearanceOrder` | app/services/llm.py:168-182 | the sources come in the order in which their documents first appear among the chunks |
| `Llm.EffectiveMaxTokens` | app/services/llm.py:66 | an absent or zero `max_tokens` falls back to 1000 |
| `Llm.SummaryBudget` | app/services/llm.py:213 | the summary token budget is half the maximum length, rounded down |
| `Llm.LLMService.constructor` | app/services/llm.py:12-27 | the service is ready iff an API key is set, and uses the configured model |
| `Llm.LLMService.GenerateAnswer` | app/services/llm.py:29-90 | no client raises ValueError without a request; otherwise one answer request is sent, its error propagates, and its completion becomes the answer with the chunks' sources and the token usage |
| `Llm.LLMService.GenerateSummary` | app/services/llm.py:186-221 | no client raises ValueError; otherwise one summary request with half the length as its budget is sent, and its content or error is returned |
| `DocumentApi.LastIndex` | app/api/document.py:43 | the last position of the character, or none when it does not occur |
| `DocumentApi.BaseName` | app/api/document.py:43 | `PurePosixPath.name`: the last component once trailing `/` and `.` components are dropped; it has no slash, is never `.`, and is no longer than the path |
| `DocumentApi.BaseNameTrailing` | app/api/document.py:43 | a trailing `/` or `/.` does not change the name |
| `DocumentApi.BaseNameOfJoin` | app/api/document.py:43 | a component that is neither empty nor `.` is the name of any path it ends |
| `DocumentApi.Suffix` | app/api/document.py:43 | `PurePath.suffix`: empty iff the name ends in a dot or has no dot after its first character; otherwise the name's tail from its last dot, at least two characters long, with no further dot or slash |
| `DocumentApi.UploadCheck` | app/api/document.py:43-74 | an upload passes iff its lowered suffix is allowed, a truthy declared size and the read size are within the limit, and the file opens and is written; the suffix and size checks answer 400, the file system 500, in the code's order: a failing open is 500 even with too much content, and too much content is 400 even when the write would fail |
| `DocumentApi.TrailingSlashUpload` | app/api/document.py:43-74 | a filename ending in `/` gets the verdict of the name without it |
| `DocumentApi.AcceptedTypeIsParsable` | app/api/document.py:43-74 | every accepted file type is one the parser handles |
| `DocumentApi.AllowedExtensionType` | app/api/document.py:43-74 | removing the dots from an allowed extension leaves "pdf", "md" or "txt", a format the parser accepts |
| `DocumentApi.UploadMetadata` | app/api/document.py:107-111 | the upload metadata is typed and overrides no reserved payload field |
| `DocumentApi.Ids` | app/db/qdrant.py:73 | one point id per chunk |
| `DocumentApi.UploadDocument` | app/api/document.py:23-147 | a rejected upload answers its check's error and changes nothing; an accepted one appends a "processing" row with the file's name, path, size, type and date, then processes it as `ProcessUpload` states |
| `DocumentApi.ProcessUpload` | app/api/document.py:85-139 | a processing failure or no chunks sets status "failed" and answers 500 with the vector store untouched; otherwise as `StoreChunks` states |
| `DocumentApi.StoreChunks` | app/api/document.py:99-139 | a raising embedding sets "failed", answers 500 and leaves the vector store untouched; otherwise the vectors are the embedding's; a raising upsert sets "failed" and answers 500 with the batches before it stored; else every point is upserted and the row is completed with its count and preview |
| `DocumentApi.StoreVectors` | app/api/document.py:102-139 | once the chunks have their vectors: a raising upsert sets "failed" and answers 500 with the batches before it stored; else every point is upserted with the filename, type and upload date as metadata, and the row is completed with its chunk count and preview |
| `DocumentApi.UpdateNewest` | app/api/document.py:115-119 | only the new row's status and count change |
| `DocumentApi.PreviewNewest` | app/api/document.py:122-124 | only the new row's preview changes |
| `DocumentApi.GetDocumentEndpoint` | app/api/document.py:171-194 | a 404 iff the id is unknown; otherwise the stored row's dictionary |
| `DocumentApi.ListDocuments` | app/api/document.py:150-168 | the dictionaries of the page `Page(NewestFirst(rows), skip, limit)`, at most `limit`, newest first |
| `DocumentApi.SearchByFilename` | app/api/document.py:338-354 | the dictionaries of `SearchRows`: one per row whose filename contains the query, every such row, newest first |
| `DocumentApi.DocumentChunksEndpoint` | app/api/document.py:197-227 | an unknown document is a 404 without reading the store; otherwise its chunks in index order and their count |
| `DocumentApi.DeleteDocumentEndpoint` | app/api/document.py:230-273 | an unknown id is a 404 that changes nothing; otherwise vectors, then the file, then the row are deleted in that order, and a failing file removal stops before the row with a 500 |
| `DocumentApi.EnrichHit` | app/api/document.py:310-323 | a search result keeps the hit's fields and gets its document's filename and type, or "Unknown" |
| `DocumentApi.SearchDocumentsEndpoint` | app/api/document.py:276-335 | an embedding or search failure is a 500; otherwise every hit of the client's answer for `limit` and threshold 0.3 is enriched in order and counted: at most `limit`, each scoring at least 0.3 and, with a document filter, from that document |
| `DocumentApi.Bump` | app/api/document.py:376-377 | `d.get(k, 0) + 1` adds one under the key and leaves the others |
| `DocumentApi.CountBy` | app/api/document.py:372-377 | every count is positive; each count is the number of occurrences by `CountByOccurrences` |
| `DocumentApi.CountByOccurrences` | app/api/document.py:368-377 | a key is counted iff some row has it, and its count is the number of such rows |
| `DocumentApi.CountByKeys` | app/api/document.py:368-377 | the counted keys are exactly the rows' keys |
| `DocumentApi.SumOverRemove` | app/api/document.py:368-377 | a total over keys splits off one key |
| `DocumentApi.SumOverSame` | app/api/document.py:368-377 | totals agree when the counts agree on the keys |
| `DocumentApi.BumpSum` | app/api/document.py:376-377 | counting one more row adds one to the total |
| `DocumentApi.CountBySum` | app/api/document.py:368-377 | the counts add up to the number of rows |
| `DocumentApi.GetStatistics` | app/api/document.py:357-389 | totals of documents, sizes and chunks over the first 10000 rows, and the per-type and per-status counts, each adding up to the document total |
| `Requests.ParseQuestion` | app/models/answer.py:6-46 | a question body is accepted iff every field is within bounds, with the documented defaults; otherwise a 422 |
| `Requests.QuestionRoundTrip` | app/models/answer.py:6-46 | a request sent with every field is accepted unchanged iff it is valid |
| `Requests.QuestionDefaults` | app/models/answer.py:19-46 | a bare question gets top_k 5, threshold 0.3, fallback on and temperature 0.7 |
| `Requests.EmptyQuestionRefused` | app/models/answer.py:9-14 | an empty question is a 422 |
| `Requests.ParseSummary` | app/models/answer.py:100-109 | the summary length defaults to 200 and is accepted iff within [50, 1000]; otherwise a 422 |
| `Requests.SummaryRoundTrip` | app/models/answer.py:100-109 | a summary request is accepted unchanged iff it is valid |
| `AnswerApi.ToHttp` | app/api/answer.py:106-120 | HTTP errors pass through, ValueError becomes 503 and any other error 500 |
| `AnswerApi.RetrievalMethod` | app/api/answer.py:67-71 | "hybrid" iff the first chunk scores below 0.5, else "vector_search" |
| `AnswerApi.FilenameFallbackLabel` | app/api/answer.py:67-71 | filename-fallback answers, scored 0.5, are labelled "vector_search" |
| `AnswerApi.AskQuestion` | app/api/answer.py:25-120 | with the context `RetrieveSpec` gives for the request's `top_k` and threshold: no context is a 404 and no LLM a 503, neither sending a request; otherwise one answer request is sent over the context; its error maps through `ToHttp`, and its completion becomes the response with the sources, the chunks and the retrieval label |
| `AnswerApi.SummarizeDocument` | app/api/answer.py:123-182 | a context failure maps through `ToHttp`; a missing document is a 404 and no LLM a 503; otherwise one summary request over the chunk texts joined by blank lines, answered with zero token usage |
| `AnswerApi.DocumentContextEndpoint` | app/api/answer.py:230-256 | succeeds iff the context exists, and then returns exactly it: the chunks and their joined full text; a 404 iff the database is up and the document is missing |
| `AnswerApi.OverallStatus` | app/api/answer.py:215-220 | healthy iff the LLM and some database are up; degraded iff PostgreSQL is up and the LLM is down; otherwise unhealthy |
| `AnswerApi.OverallStatusMonotone` | app/api/answer.py:215-220 | more components up never worsens the status |
| `AnswerApi.VectorProbeAsWritten` | app/api/answer.py:197-203 | as written, the vector database always reports available |
| `AnswerApi.PostgresProbeAsWritten` | app/api/answer.py:206-212 | as written, PostgreSQL always reports unavailable |
| `AnswerApi.HealthCheckAsWritten` | app/api/answer.py:185-227 | as written, the status is healthy iff the LLM is up, otherwise unhealthy |
| `AnswerApi.HealthAsWrittenMisreports` | app/api/answer.py:185-227 | two concrete inputs on which the code as written and the intended check disagree |
| `AnswerApi.HealthCheck` | app/api/answer.py:185-227 | the health report with real probes: each flag reflects its component and the status follows the rule of `OverallStatus` |
| `AnswerApi.HealthCheckAgreement` | app/api/answer.py:185-227 | the code as written and the intended check agree exactly when Qdrant is up and PostgreSQL is down |

## Left out

- File I/O is not modelled: saving the upload under a timestamped name, reading it back, text and PDF extraction. The readers are the `read` parameter, and the file system's verdict on opening and writing the file is the `openFails` and `writeFails` parameters (a filename ending in `/` names a directory, so opening it fails). The empty file left on disk when the content is too large is not modelled.
- `Text.Lower` lowers only A-Z; `str.lower` on other letters is not modelled. Whitespace is the full `str.isspace` set, which `\s`, `strip` and `split()` share.
- Nearest-neighbour search is an oracle. `SearchAnswer` states what Qdrant's answer is assumed to satisfy (size limit, threshold, filter, typed payloads); the ranking itself is not modelled. The scroll is the `ScrollAnswer` oracle.
- Scores and temperatures are exact reals, not floating point.
- `compute_similarity` (cosine similarity over floats) is not modelled; nothing in the core calls it.
- `get_collection_info` is not modelled, and neither is the `vector_store` field of the statistics, which only forwards it. `init_collection`, `init_db`, session handling and logging are left out too.
- SQL `ILIKE` wildcards (`%` and `_` inside the query) are not modelled. Filename search is plain case-insensitive substring search.
- Rows with equal upload dates are ordered as in the table. SQL leaves their order open.
- Failures of either store inside the document endpoints are not modelled: the PostgreSQL repository always answers, and so does the Qdrant scroll that `GET /{id}/chunks` reads. Database failure is modelled where the code handles it, in retrieval and the answer endpoints.
- `uuid4`, the clock and `isoformat` are parameters. `processing_time_ms` and the wording of the system prompt are not modelled.
- `Parse.SplitIntoChunks` requires a positive chunk size. For a size of zero or less, the loop of the code may not terminate: it stops advancing once no sentence end lies in reach, and a negative size can move it backwards. The only caller passes `CHUNK_SIZE`.
- The "Unknown" defaults of `_extract_sources` and the filename default of `_build_context` are not modelled. Every retrieved chunk carries a document filename and type, so they cannot trigger.
- Concurrency and async scheduling are not modelled.
- VectorStore.QdrantManager.GetDocumentChunks: a scroll that raises (app/db/qdrant.py:196-207) is not modelled; the `scrolled` answer is always given.
- DocumentApi.DocumentChunksEndpoint: the 500 that a raising scroll becomes is not modelled, for the same reason.
- VectorStore.QdrantManager.SearchSimilar: states what the code does with Qdrant's answer, not that the answer holds the nearest points.
- VectorStore.QdrantManager.AddDocuments: a batch on which `upsert` raises is taken as not stored at all; a batch the server applies only in part is not modelled.
- DocumentApi.UploadCheck: opening and writing the file are the `openFails` and `writeFails` parameters, so the 500 that a filename ending in `/` meets in the source appears only when the caller passes `openFails`; `TrailingSlashUpload` shows the suffix check itself lets such a name through.
- Text.Words: carries no ensures of its own; that the words are non-empty and free of whitespace is `WordsShape`, when there are none is `WordsEmpty`, and which they are is `WordsOfWord`, `WordsOfSpaces`, `WordsAppend` and `WordsOfStrip`.
- Parse.CollapseSpaces: its own ensures give the shape of the result; that the words are kept, in order, is `CollapseSpacesKeepsWords`.
- Parse.RemoveDots: its own ensures keep the characters as a multiset; their order is `RemoveDotsAppend`.
- Parse.SentenceEnds: its own ensures give the number, range and order of the ends; which positions they are is `SentenceEndsExact`.
- Retrieval.MatchCount: its own ensures give the bound and when the count is positive; its value is `MatchCountIsPositions`.
- Retrieval.FilenameSpec: its own ensures state only the database failure; the success value is `FilenameResults`.
- Llm.ExtractSources: the loop is tied to `Sources`; the order of the sources is `SourcesInFirstAppearanceOrder` and their contents `SourcesAreDistinct` and `SourcesFromFirstChunk`.

## Findings

| source | as written | input that shows it | evidently intended | confidence | as-written member | corrected member |
|---|---|---|---|---|---|---|
| app/api/answer.py:197-212 | the Qdrant probe calls `get_collection_info`, which catches every exception and returns `{}`, so the vector database always reports available; the PostgreSQL probe calls `get_document_stats`, which the repository does not define, so PostgreSQL always reports unavailable | LLM down, Qdrant down, PostgreSQL up: reported "unhealthy" instead of "degraded"; LLM up, both databases down: reported "healthy" instead of "unhealthy" | each flag reflects whether its component answers, and the status follows the rule at lines 215-220 (as shipped, app/main.py:55 does not mount this router, so the check cannot be reached) | not executed | `AnswerApi.HealthCheckAsWritten`, `AnswerApi.HealthAsWrittenMisreports` | `AnswerApi.HealthCheck` |

=== FILE: answer_api.dfy ===
/**
 * The answer endpoints (app/api/answer.py): ask a question, summarise a
 * document, inspect a document's context, and the health check.  The
 * elapsed-time field of the answer is left out (it reads the clock).
 */
module AnswerApi {
  import opened Wrappers
  import opened Errors
  import opened Text
  import opened VectorStore
  import opened MetadataStore
  import opened Retrieval
  import opened Llm
  import opened Requests

  const VECTOR_SEARCH: string := "vector_search"
  const HYBRID: string := "hybrid"
  /** A first score below this labels the retrieval "hybrid". */
  const HYBRID_BELOW: real := 0.5

  const HEALTHY: string := "healthy"
  const DEGRADED: string := "degraded"
  const UNHEALTHY: string := "unhealthy"

  // ---------------------------------------------------------------------
  // Exception handling shared by the endpoints
  // ---------------------------------------------------------------------

  /**
   * The `except` clauses of `ask_question` and `summarize_document`: an
   * HTTP error passes through, a ValueError (unconfigured LLM client) is a
   * 503, anything else a 500.
   */
  function ToHttp(e: Error): (h: Error)
    ensures h.HttpException?
    ensures e.HttpException? ==> h == e
    ensures e == ValueError ==> h.status == HTTP_503_SERVICE_UNAVAILABLE
    ensures !e.HttpException? && e != ValueError ==> h.status == HTTP_500_INTERNAL_SERVER_ERROR
  {
    match e
    case HttpException(_) => e
    case ValueError => HttpException(HTTP_503_SERVICE_UNAVAILABLE)
    case _ => HttpException(HTTP_500_INTERNAL_SERVER_ERROR)
  }

  // ---------------------------------------------------------------------
  // ask_question
  // ---------------------------------------------------------------------

  /** The label of the retrieval: "hybrid" iff the first chunk scores below 0.5. */
  function RetrievalMethod(chunks: seq<Retrieved>): (m: string)
    ensures m == HYBRID <==> chunks != [] && chunks[0].score < HYBRID_BELOW
    ensures m == VECTOR_SEARCH <==> !(chunks != [] && chunks[0].score < HYBRID_BELOW)
  {
    if chunks != [] && chunks[0].score < HYBRID_BELOW then HYBRID else VECTOR_SEARCH
  }

  /**
   * The filename fallback scores its chunks 0.5, so an answer built from
   * it is labelled "vector_search", not "hybrid".
   */
  lemma FilenameFallbackLabel(question: string, topK: int, env: Env)
    requires FilenameSpec(question, topK, env).Success?
    requires FilenameSpec(question, topK, env).value != []
    ensures RetrievalMethod(FilenameSpec(question, topK, env).value) == VECTOR_SEARCH
  {
    var r := FilenameSpec(question, topK, env).value;
    FilenameResults(question, topK, env);
    assert r[0] in r;
  }

  datatype AnswerResponse = AnswerResponse(
    question: string,
    answer: string,
    sources: seq<Source>,
    chunksUsed: seq<Retrieved>,
    model: string,
    tokensUsed: TokenUsage,
    retrievalMethod: string)

  /**
   * The outcome of `ask_question` once the context `ctx` is retrieved: no
   * context is a 404 without any LLM request; otherwise the LLM is asked
   * once (an unconfigured client is a 503 without any request), and its
   * errors are handled as `ToHttp` says.  `sent` are the LLM requests.
   */
  ghost predicate Answered(req: QuestionRequest, llm: LLMService, ctx: seq<Retrieved>,
                           respond: Request -> Result<Completion, Error>,
                           r: Result<AnswerResponse, Error>, sent: seq<Request>)
    reads llm
  {
    if ctx == [] then r == Failure(HttpException(HTTP_404_NOT_FOUND)) && sent == []
    else if !llm.ready then r == Failure(HttpException(HTTP_503_SERVICE_UNAVAILABLE)) && sent == []
    else
      && sent == [llm.AnswerRequest(req.question, ctx, req.maxTokens, req.temperature)]
      && (respond(sent[0]).Failure? ==> r == Failure(ToHttp(respond(sent[0]).error)))
      && (respond(sent[0]).Success? ==>
            var c := respond(sent[0]).value;
            r == Success(AnswerResponse(req.question, c.content, Sources(ctx), ctx, llm.model,
                                        TokenUsage(c.promptTokens, c.completionTokens, c.totalTokens),
                                        RetrievalMethod(ctx))))
  }

  /**
   * `ask_question`.  `found` is the outcome of embedding the question and
   * asking the vector store's client for at most `top_k` points scoring at
   * least the request's threshold; `inTry`, `inExcept` are the
   * collaborators' states as `retrieve_context` sees them; `respond` is
   * the LLM API.
   */
  method AskQuestion(req: QuestionRequest, llm: LLMService, qdrant: QdrantManager,
                     found: Result<seq<ScoredPoint>, Error>, inTry: Env, inExcept: Env,
                     respond: Request -> Result<Completion, Error>)
    returns (r: Result<AnswerResponse, Error>, ghost sent: seq<Request>)
    requires found.Success? ==> SearchAnswer(found.value, req.topK, SearchFilter(req.documentId), req.scoreThreshold)
    ensures Answered(req, llm, RetrieveSpec(req.question, req.topK, req.scoreThreshold, req.documentId, req.useFallback,
                                            found, inTry, inExcept),
                     respond, r, sent)
  {
    ghost var fallbacks;
    var contextChunks;
    contextChunks, fallbacks := RetrieveContext(qdrant, req.question, req.topK, req.scoreThreshold, req.documentId,
                                                req.useFallback, found, inTry, inExcept);
    if contextChunks == [] {
      return Failure(HttpException(HTTP_404_NOT_FOUND)), [];
    }
    var retrievalMethod := RetrievalMethod(contextChunks);
    var llmResponse;
    llmResponse, sent := llm.GenerateAnswer(req.question, contextChunks, req.maxTokens, req.temperature, respond);
    if llmResponse.Failure? {
      return Failure(ToHttp(llmResponse.error)), sent;
    }
    var a := llmResponse.value;
    r := Success(AnswerResponse(req.question, a.answer, a.sources, contextChunks, a.model, a.tokensUsed,
                                retrievalMethod));
  }

  // ---------------------------------------------------------------------
  // summarize_document and get_document_context
  // ---------------------------------------------------------------------

  datatype SummaryResponse = SummaryResponse(
    documentId: int,
    filename: string,
    summary: string,
    model: string,
    tokensUsed: TokenUsage)

  /**
   * `summarize_document`: an unknown document is a 404 without any LLM
   * request; otherwise the LLM is asked once, on the document's chunk
   * texts joined by blank lines; a summary reports zero token usage.
   */
  method SummarizeDocument(req: DocumentSummaryRequest, llm: LLMService, env: Env,
                           respond: Request -> Result<Completion, Error>)
    returns (r: Result<SummaryResponse, Error>, ghost sent: seq<Request>)
    ensures var ctx := FullDocumentContext(req.documentId, env);
      ctx.Failure? ==> r == Failure(ToHttp(ctx.error)) && sent == []
    ensures var ctx := FullDocumentContext(req.documentId, env);
      ctx == Success(None) ==> r == Failure(HttpException(HTTP_404_NOT_FOUND)) && sent == []
    ensures var ctx := FullDocumentContext(req.documentId, env);
      ctx.Success? && ctx.value.Some? && !llm.ready ==>
        r == Failure(HttpException(HTTP_503_SERVICE_UNAVAILABLE)) && sent == []
    ensures var ctx := FullDocumentContext(req.documentId, env);
      ctx.Success? && ctx.value.Some? && llm.ready ==>
        && sent == [llm.SummaryRequest(ctx.value.value.fullText, req.maxLength)]
        && sent[0] == llm.SummaryRequest(Join(Texts(env.chunksOf(req.documentId).value), CHUNK_SEPARATOR), req.maxLength)
        && (respond(sent[0]).Failure? ==> r == Failure(ToHttp(respond(sent[0]).error)))
        && (respond(sent[0]).Success? ==>
              r == Success(SummaryResponse(req.documentId, ctx.value.value.filename, respond(sent[0]).value.content,
                                           llm.model, TokenUsage(0, 0, 0))))
  {
    sent := [];
    var documentContext := FullDocumentContext(req.documentId, env);
    if documentContext.Failure? {
      return Failure(ToHttp(documentContext.error)), sent;
    }
    if documentContext.value.None? {
      return Failure(HttpException(HTTP_404_NOT_FOUND)), sent;
    }
    var c := documentContext.value.value;
    var summary;
    summary, sent := llm.GenerateSummary(c.fullText, req.maxLength, respond);
    if summary.Failure? {
      return Failure(ToHttp(summary.error)), sent;
    }
    r := Success(SummaryResponse(req.documentId, c.filename, summary.value, llm.model, TokenUsage(0, 0, 0)));
  }

  /**
   * `get_document_context`: the full context, a 404 for an unknown
   * document; a failing collaborator's error is not handled here.
   */
  function DocumentContextEndpoint(documentId: int, env: Env): (r: Result<FullContext, Error>)
    ensures r.Success? <==> FullDocumentContext(documentId, env).Success? && FullDocumentContext(documentId, env).value.Some?
    ensures r.Success? ==> r.value == FullDocumentContext(documentId, env).value.value
    ensures r.Success? ==> r.value.documentId == documentId && r.value.chunks == env.chunksOf(documentId).value
    ensures r.Success? ==> r.value.fullText == Join(Texts(r.value.chunks), CHUNK_SEPARATOR)
    ensures r == Failure(HttpException(HTTP_404_NOT_FOUND)) <==> env.dbUp && Lookup(env.rows, documentId).None?
  {
    match FullDocumentContext(documentId, env)
    case Failure(e) => Failure(e)
    case Success(None) => Failure(HttpException(HTTP_404_NOT_FOUND))
    case Success(Some(c)) => Success(c)
  }

  // ---------------------------------------------------------------------
  // health_check
  // ---------------------------------------------------------------------

  datatype HealthReport = HealthReport(status: string, llmAvailable: bool, vectorDbAvailable: bool,
                                       postgresAvailable: bool)

  /**
   * The overall status: healthy when the LLM and at least one store are
   * up; degraded when only the fallback store can serve; else unhealthy.
   */
  function OverallStatus(llm: bool, vectorDb: bool, postgres: bool): (s: string)
    ensures s == HEALTHY <==> llm && (vectorDb || postgres)
    ensures s == DEGRADED <==> postgres && !llm
    ensures s == UNHEALTHY <==> !postgres && !(llm && vectorDb)
  {
    if llm && (vectorDb || postgres) then HEALTHY
    else if postgres then DEGRADED
    else UNHEALTHY
  }

  function Severity(s: string): nat {
    if s == HEALTHY then 0 else if s == DEGRADED then 1 else 2
  }

  /** More components up never makes the overall status worse. */
  lemma OverallStatusMonotone(l: bool, v: bool, p: bool, l': bool, v': bool, p': bool)
    requires (l ==> l') && (v ==> v') && (p ==> p')
    ensures Severity(OverallStatus(l', v', p')) <= Severity(OverallStatus(l, v, p))
  {
  }

  /**
   * The vector probe as written: the collection-info call catches every
   * error itself and returns an empty dictionary, so the probe never
   * sees an exception.
   */
  function VectorProbeAsWritten(qdrantUp: bool): (available: bool)
    ensures available
  {
    true
  }

  /**
   * The Postgres probe as written: it calls a repository method that the
   * repository does not define, so it always raises.
   */
  function PostgresProbeAsWritten(dbUp: bool): (available: bool)
    ensures !available
  {
    false
  }

  /** `health_check` as written. */
  function HealthCheckAsWritten(llmReady: bool, qdrantUp: bool, dbUp: bool): (h: HealthReport)
    ensures h.vectorDbAvailable && !h.postgresAvailable && h.llmAvailable == llmReady
    ensures h.status == if llmReady then HEALTHY else UNHEALTHY
  {
    var vectorDb := VectorProbeAsWritten(qdrantUp);
    var postgres := PostgresProbeAsWritten(dbUp);
    HealthReport(OverallStatus(llmReady, vectorDb, postgres), llmReady, vectorDb, postgres)
  }

  /** As written the check never reports "degraded", and misreports a down vector store. */
  lemma HealthAsWrittenMisreports()
    ensures HealthCheckAsWritten(false, false, true).status == UNHEALTHY
    ensures HealthCheck(false, false, true).status == DEGRADED
    ensures HealthCheckAsWritten(true, false, false).status == HEALTHY
    ensures HealthCheck(true, false, false).status == UNHEALTHY
  {
  }

  /** `health_check` with probes that report the components' actual state. */
  function HealthCheck(llmReady: bool, qdrantUp: bool, dbUp: bool): (h: HealthReport)
    ensures h.llmAvailable == llmReady && h.vectorDbAvailable == qdrantUp && h.postgresAvailable == dbUp
    ensures h.status == HEALTHY <==> llmReady && (qdrantUp || dbUp)
    ensures h.status == DEGRADED <==> dbUp && !llmReady
    ensures h.status == UNHEALTHY <==> !dbUp && !(llmReady && qdrantUp)
  {
    HealthReport(OverallStatus(llmReady, qdrantUp, dbUp), llmReady, qdrantUp, dbUp)
  }

  /** The corrected check agrees with the one as written exactly when its probes' fixed answers happen to be right. */
  lemma HealthCheckAgreement(llmReady: bool, qdrantUp: bool, dbUp: bool)
    ensures HealthCheck(llmReady, qdrantUp, dbUp) == HealthCheckAsWritten(llmReady, qdrantUp, dbUp) <==> qdrantUp && !dbUp
  {
  }
}

=== FILE: common.dfy ===
/** Failure-compatible wrappers shared by every module of the model. */
module Wrappers {
  datatype Option<+T> = None | Some(value: T)

  datatype Result<+T, +E> = Success(value: T) | Failure(error: E)
}

/** The exceptions the service raises or catches, reduced to their kinds. */
module Errors {
  datatype Error =
    | ValueError              // Python ValueError: bad argument, unconfigured LLM client
    | UpstreamError           // a collaborator (database, vector index, model, LLM API, disk) raised
    | HttpException(status: int)

  const HTTP_400_BAD_REQUEST := 400
  const HTTP_404_NOT_FOUND := 404
  const HTTP_500_INTERNAL_SERVER_ERROR := 500
  const HTTP_503_SERVICE_UNAVAILABLE := 503
}

/** The configuration values of app/core/settings.py, as constants. */
module Settings {
  const CHUNK_SIZE: int := 500
  const CHUNK_OVERLAP: int := 50
  const EMBEDDING_DIMENSION: nat := 384
  const LLM_MODEL: string := "gpt-4o-mini"
  const LLM_MAX_TOKENS: int := 1000
  const MAX_FILE_SIZE: int := 10 * 1024 * 1024
  const ALLOWED_EXTENSIONS: seq<string> := [".pdf", ".md", ".txt"]
}

=== FILE: document_api.dfy ===
/**
 * The document endpoints (app/api/document.py): upload validation and the
 * status flow of a new document, the not-found handling of the per-document
 * endpoints, the order of the deletion steps, the enrichment of semantic
 * search hits and the statistics.
 *
 * HTTP errors are `HttpException(status)`.  The upload's bytes are
 * represented by their length and a reader for the saved file; the clock,
 * the uuid generator, the sentence-transformer and the file system are
 * parameters.
 */
module DocumentApi {
  import opened Wrappers
  import opened Errors
  import opened Text
  import opened Settings
  import opened Sorting
  import opened Parse
  import opened Embedding
  import opened VectorStore
  import opened MetadataStore

  /** The threshold `search_documents` passes to the vector search. */
  const SEARCH_SCORE_THRESHOLD: real := 0.3
  /** The page size `get_statistics` reads. */
  const STATS_LIMIT: nat := 10000

  // ---------------------------------------------------------------------
  // Upload validation
  // ---------------------------------------------------------------------

  /** The position of the last `c` in `s`, like `str.rfind`. */
  function LastIndex(s: string, c: char): (r: Option<nat>)
    ensures r.Some? ==> r.value < |s| && s[r.value] == c && forall j :: r.value < j < |s| ==> s[j] != c
    ensures r.None? ==> forall j :: 0 <= j < |s| ==> s[j] != c
  {
    if s == [] then None
    else if s[|s| - 1] == c then Some(|s| - 1)
    else LastIndex(s[..|s| - 1], c)
  }

  /**
   * `PurePosixPath(path).name`: the last component of the path once empty
   * and `.` components are dropped, or "" when none is left.
   */
  function BaseName(path: string): (name: string)
    ensures |name| <= |path|
    ensures forall j :: 0 <= j < |name| ==> name[j] != '/'
    ensures name != "."
    decreases |path|
  {
    match LastIndex(path, '/')
    case None => if path == "." then [] else path
    case Some(i) =>
      var last := path[i + 1..];
      if last == [] || last == "." then BaseName(path[..i]) else last
  }

  /** A trailing `/` or `/.` does not change the final component. */
  lemma BaseNameTrailing(path: string)
    ensures BaseName(path + "/") == BaseName(path)
    ensures BaseName(path + "/.") == BaseName(path)
  {
    var p1 := path + "/";
    assert LastIndex(p1, '/') == Some(|path|);
    assert p1[..|path|] == path && p1[|path| + 1..] == [];
    var p2 := path + "/.";
    assert p2[..|p2| - 1] == p1;
    assert LastIndex(p2, '/') == Some(|path|);
    assert p2[..|path|] == path && p2[|path| + 1..] == ".";
  }

  /** A component that is neither empty nor `.` is the name of any path it ends. */
  lemma BaseNameOfJoin(dir: string, name: string)
    requires name != [] && name != "."
    requires forall j :: 0 <= j < |name| ==> name[j] != '/'
    ensures BaseName(dir + "/" + name) == name
  {
    var p := dir + "/" + name;
    assert p[..|dir| + 1] == dir + "/";
    assert LastIndex(p, '/') == Some(|dir|) by {
      LastIndexPast(dir + "/", name, '/');
    }
    assert p[|dir| + 1..] == name;
  }

  /** `rfind` past a tail without the character finds it in the head. */
  lemma {:induction false} LastIndexPast(head: string, tail: string, c: char)
    requires forall j :: 0 <= j < |tail| ==> tail[j] != c
    ensures LastIndex(head + tail, c) == LastIndex(head, c)
    decreases |tail|
  {
    if tail == [] {
      assert head + tail == head;
    } else {
      var s := head + tail;
      assert s[..|s| - 1] == head + tail[..|tail| - 1];
      LastIndexPast(head, tail[..|tail| - 1], c);
    }
  }

  /**
   * `PurePath.suffix`: from the last dot of the final component, unless
   * there is none or it is the component's first or last character.
   */
  function Suffix(path: string): (ext: string)
    ensures var name := BaseName(path);
      ext == [] <==> (name != [] && name[|name| - 1] == '.') || forall j :: 0 < j < |name| - 1 ==> name[j] != '.'
    ensures var name := BaseName(path);
      ext != [] ==> 2 <= |ext| < |name| && ext == name[|name| - |ext|..] && ext[0] == '.'
    ensures forall j :: 0 < j < |ext| ==> ext[j] != '.' && ext[j] != '/'
  {
    var name := BaseName(path);
    match LastIndex(name, '.')
    case None => []
    case Some(i) => if 0 < i < |name| - 1 then name[i..] else []
  }

  /**
   * The checks of `upload_document` before the row is created, in their
   * order: the lowercased suffix must be allowed (400); a declared size,
   * when truthy, must not exceed the maximum (400); opening the target
   * file must succeed (500); the content must not exceed the maximum
   * (400); writing it must succeed (500).  Success gives the `file_type`
   * column.  `openFails` and `writeFails` stand for the file system.
   */
  function UploadCheck(filename: string, declaredSize: Option<int>, contentLength: int,
                       openFails: bool, writeFails: bool): (r: Result<string, Error>)
    ensures r.Success? <==>
      && Lower(Suffix(filename)) in ALLOWED_EXTENSIONS
      && !(declaredSize.Some? && declaredSize.value > MAX_FILE_SIZE)
      && !openFails && contentLength <= MAX_FILE_SIZE && !writeFails
    ensures r.Failure? && (Lower(Suffix(filename)) !in ALLOWED_EXTENSIONS
                           || (declaredSize.Some? && declaredSize.value > MAX_FILE_SIZE)) ==>
      r.error == HttpException(HTTP_400_BAD_REQUEST)
    ensures r.Failure? ==> r.error == HttpException(HTTP_400_BAD_REQUEST) || r.error == HttpException(HTTP_500_INTERNAL_SERVER_ERROR)
    ensures r.Failure? && r.error == HttpException(HTTP_500_INTERNAL_SERVER_ERROR) ==> openFails || writeFails
    // The checks run in order: an opened file whose content is too large is a 400 before any write,
    // and a failing open is a 500 before the content is read.
    ensures !openFails && contentLength > MAX_FILE_SIZE ==> r == Failure(HttpException(HTTP_400_BAD_REQUEST))
    ensures && Lower(Suffix(filename)) in ALLOWED_EXTENSIONS
            && !(declaredSize.Some? && declaredSize.value > MAX_FILE_SIZE)
            && openFails
            ==> r == Failure(HttpException(HTTP_500_INTERNAL_SERVER_ERROR))
  {
    var fileExt := Lower(Suffix(filename));
    if fileExt !in ALLOWED_EXTENSIONS then Failure(HttpException(HTTP_400_BAD_REQUEST))
    else if declaredSize.Some? && declaredSize.value != 0 && declaredSize.value > MAX_FILE_SIZE then
      Failure(HttpException(HTTP_400_BAD_REQUEST))
    else if openFails then Failure(HttpException(HTTP_500_INTERNAL_SERVER_ERROR))
    else if contentLength > MAX_FILE_SIZE then Failure(HttpException(HTTP_400_BAD_REQUEST))
    else if writeFails then Failure(HttpException(HTTP_500_INTERNAL_SERVER_ERROR))
    else Success(RemoveDots(fileExt))
  }

  /**
   * A filename ending in `/` gets the verdict of the name without it: the
   * extension check sees through the slash, so an allowed extension is
   * refused only by the file system, with a 500.
   */
  lemma TrailingSlashUpload(filename: string, declaredSize: Option<int>, contentLength: int,
                            openFails: bool, writeFails: bool)
    ensures UploadCheck(filename + "/", declaredSize, contentLength, openFails, writeFails)
         == UploadCheck(filename, declaredSize, contentLength, openFails, writeFails)
  {
    BaseNameTrailing(filename);
  }

  /** An accepted upload always has a type the parser dispatches on. */
  lemma AcceptedTypeIsParsable(filename: string, declaredSize: Option<int>, contentLength: int,
                               openFails: bool, writeFails: bool)
    requires UploadCheck(filename, declaredSize, contentLength, openFails, writeFails).Success?
    ensures var t := UploadCheck(filename, declaredSize, contentLength, openFails, writeFails).value;
      t in {"pdf", "md", "txt"} && FormatOf(t).Success?
  {
    AllowedExtensionType(Lower(Suffix(filename)));
  }

  /** The type recorded for an allowed extension is one the parser dispatches on. */
  lemma AllowedExtensionType(fileExt: string)
    requires fileExt in ALLOWED_EXTENSIONS
    ensures RemoveDots(fileExt) in {"pdf", "md", "txt"} && FormatOf(RemoveDots(fileExt)).Success?
  {
    ExtensionParts(fileExt);
    LeadingDotDropped(fileExt);
    TypeIsParsable(fileExt[1..]);
  }

  lemma LeadingDotDropped(e: string)
    requires |e| > 0 && e[0] == '.'
    ensures RemoveDots(e) == RemoveDots(e[1..])
  {
    assert RemoveDots(e) == [] + RemoveDots(e[1..]);
  }

  /** The three file types pass through the type normalisation unchanged. */
  lemma TypeIsParsable(t: string)
    requires t in {"pdf", "md", "txt"}
    ensures RemoveDots(t) == t && FormatOf(t).Success?
  {
    PlainTypeLetters(t);
    RemoveDotsOfPlain(t);
    LowerOfLowercase(t);
  }

  /** Each allowed extension is a dot followed by one of the three file types. */
  lemma ExtensionParts(e: string)
    requires e in ALLOWED_EXTENSIONS
    ensures |e| > 0 && e[0] == '.' && e[1..] in {"pdf", "md", "txt"}
  {
    if e == ".pdf" {
      assert e[1..] == "pdf";
    } else if e == ".md" {
      assert e[1..] == "md";
    } else {
      assert e[1..] == "txt";
    }
  }

  /** The three file types are spelled in lower-case letters, without dots. */
  lemma PlainTypeLetters(t: string)
    requires t in {"pdf", "md", "txt"}
    ensures forall i :: 0 <= i < |t| ==> 'a' <= t[i] <= 'z'
  {
    if t == "pdf" {
      assert t == ['p', 'd', 'f'];
    } else if t == "md" {
      assert t == ['m', 'd'];
    } else {
      assert t == ['t', 'x', 't'];
    }
  }

  // ---------------------------------------------------------------------
  // Upload status flow
  // ---------------------------------------------------------------------

  datatype UploadResult = UploadResult(document: DocumentDict, chunksCreated: nat)

  /** The metadata `upload_document` attaches to every chunk. */
  function UploadMetadata(filename: string, fileType: string, uploadDate: string): (m: Payload)
    ensures MetadataTyped(m)
    ensures !Overrides(Some(m), "document_id") && !Overrides(Some(m), "chunk_index") && !Overrides(Some(m), "text")
  {
    map["filename" := StrV(filename), "file_type" := StrV(fileType), "upload_date" := StrV(uploadDate)]
  }

  /** Whenever the embedding model does not raise, it returns one vector for each text it is given. */
  ghost predicate OneVectorPerText(model: seq<string> -> Result<seq<Vector>, Error>) {
    forall texts: seq<string> :: model(texts).Success? ==> |model(texts).value| == |texts|
  }

  function Ids(n: nat, uuid: nat -> string): (ids: seq<string>)
    ensures |ids| == n
  {
    seq(n, i requires 0 <= i < n => uuid(i))
  }

  /** The processing outcome that makes the upload fail after the row exists. */
  predicate ProcessingFails(outcome: Result<Processed, Error>) {
    outcome.Failure? || outcome.value.chunks == []
  }

  /** The embedding of the chunks raises. */
  predicate EmbedFails(chunks: seq<string>, model: seq<string> -> Result<seq<Vector>, Error>) {
    NonBlank(chunks) != [] && model(NonBlank(chunks)).Failure?
  }

  /** The new row once the upload has failed after creating it. */
  predicate FailedRow(last: Document) {
    last.status == STATUS_FAILED && last.numChunks == 0 && last.contentPreview.None?
  }

  /**
   * `upload_document`.  Validation failures change nothing.  Otherwise one
   * row is created with status "processing" and then processed as
   * `ProcessUpload` states.  `statusLog` lists the status updates in order;
   * `vectors` are the embeddings sent; `rejected` is the batch the vector
   * store's client refuses, if any.
   */
  method UploadDocument(repo: DocumentRepository, store: QdrantManager,
                        filename: string, declaredSize: Option<int>, contentLength: nat, filePath: string,
                        openFails: bool, writeFails: bool,
                        now: int, isoformat: int -> string, read: Format -> Result<string, Error>,
                        model: seq<string> -> Result<seq<Vector>, Error>, rejected: Option<nat>, uuid: nat -> string)
    returns (r: Result<UploadResult, Error>, ghost statusLog: seq<string>, ghost vectors: seq<Vector>)
    requires repo.Valid() && store.Valid()
    requires OneVectorPerText(model)
    modifies repo, store
    ensures repo.Valid() && store.Valid()
    ensures var check := UploadCheck(filename, declaredSize, contentLength, openFails, writeFails);
      check.Failure? ==>
        && r == Failure(check.error) && statusLog == []
        && repo.rows == old(repo.rows) && repo.nextId == old(repo.nextId) && store.points == old(store.points)
    ensures var check := UploadCheck(filename, declaredSize, contentLength, openFails, writeFails);
      check.Success? ==>
        && repo.nextId == old(repo.nextId) + 1
        && |repo.rows| == |old(repo.rows)| + 1
        && repo.rows[..|old(repo.rows)|] == old(repo.rows)
        && var last := repo.rows[|old(repo.rows)|];
           last.id == old(repo.nextId) && last.filename == filename && last.filePath == filePath
           && last.fileSize == contentLength && last.uploadDate == now
           && last.fileType == check.value
    ensures var check := UploadCheck(filename, declaredSize, contentLength, openFails, writeFails);
      check.Success? ==>
        Processed(old(store.points), repo.rows[|old(repo.rows)|], store.points, r, statusLog, vectors,
                  filename, check.value, isoformat(now), ProcessedText(check.value, read), model, rejected, uuid)
  {
    statusLog := [];
    vectors := [];
    var check := UploadCheck(filename, declaredSize, contentLength, openFails, writeFails);
    if check.Failure? {
      return Failure(check.error), statusLog, vectors;
    }
    var fileType := check.value;
    var before := repo.rows;
    var document := repo.CreateDocument(filename, filePath, contentLength, fileType, None, now);
    assert repo.rows == before + [document];
    var processed := ProcessDocument(fileType, read);
    ghost var points0 := store.points;
    r, statusLog, vectors := ProcessUpload(repo, store, document, processed, filename, fileType, isoformat,
                                           model, rejected, uuid);
    ghost var last := repo.rows[|repo.rows| - 1];
    assert Processed(points0, last, store.points, r, statusLog, vectors,
                     filename, fileType, isoformat(document.uploadDate), processed, model, rejected, uuid);
    assert last == repo.rows[|before|];
    assert repo.rows[..|before|] == before;
  }

  /**
   * The outcome of processing an uploaded row `last`.  A processing
   * failure or an empty chunk list ends with status "failed" and a 500
   * (the 400 for no chunks is caught by the surrounding handler, which
   * marks the row failed a second time) and leaves the vector store alone.
   * So does an embedding that raises.  An upsert that raises ends the
   * same way, except that the batches before it stay in the vector store.
   * Success ends with status "completed", the chunk count and the preview,
   * and the chunks' points upserted into the vector store.  In the last
   * two cases the vectors are the ones `Embeds` describes.
   */
  ghost predicate Processed(store0: map<string, PointStruct>, last: Document, store1: map<string, PointStruct>,
                            r: Result<UploadResult, Error>, statusLog: seq<string>, vectors: seq<Vector>,
                            filename: string, fileType: string, uploadDate: string,
                            outcome: Result<Processed, Error>, model: seq<string> -> Result<seq<Vector>, Error>,
                            rejected: Option<nat>, uuid: nat -> string)
  {
    if ProcessingFails(outcome) then
      && r == Failure(HttpException(HTTP_500_INTERNAL_SERVER_ERROR))
      && FailedRow(last) && store1 == store0
      && statusLog == if outcome.Failure? then [STATUS_FAILED] else [STATUS_FAILED, STATUS_FAILED]
    else
      var p := outcome.value;
      if EmbedFails(p.chunks, model) then
        && r == Failure(HttpException(HTTP_500_INTERNAL_SERVER_ERROR))
        && FailedRow(last) && store1 == store0 && statusLog == [STATUS_FAILED]
      else
        && Embeds(p.chunks, model, vectors)
        && Stored(store0, last, store1, r, statusLog, p, vectors, filename, fileType, uploadDate, rejected, uuid)
  }

  /**
   * The outcome once the chunks of `p` have their `vectors`: an upsert that
   * raises leaves the batches before it stored, marks the row failed and
   * ends with a 500; otherwise every point is stored and the row is
   * completed with the chunk count and the preview.
   */
  ghost predicate Stored(store0: map<string, PointStruct>, last: Document, store1: map<string, PointStruct>,
                         r: Result<UploadResult, Error>, statusLog: seq<string>, p: Processed, vectors: seq<Vector>,
                         filename: string, fileType: string, uploadDate: string, rejected: Option<nat>, uuid: nat -> string)
  {
    && |vectors| == |p.chunks|
    && var pts := BuildPoints(last.id, p.chunks, vectors, Some(UploadMetadata(filename, fileType, uploadDate)),
                              Ids(|p.chunks|, uuid));
       if Rejects(rejected, |p.chunks|) then
         && r == Failure(HttpException(HTTP_500_INTERNAL_SERVER_ERROR))
         && FailedRow(last) && statusLog == [STATUS_FAILED]
         && store1 == Upserted(store0, pts[..rejected.value * BATCH_SIZE])
       else
         && r == Success(UploadResult(ToDict(last), |p.chunks|))
         && last.status == STATUS_COMPLETED && last.numChunks == |p.chunks| && last.contentPreview == Some(p.preview)
         && statusLog == [STATUS_COMPLETED]
         && store1 == Upserted(store0, pts)
  }

  /**
   * The `try` block of `upload_document`, run on the row just created once
   * `process_document` has returned `processed`.
   */
  method ProcessUpload(repo: DocumentRepository, store: QdrantManager, document: Document, processed: Result<Processed, Error>,
                       filename: string, fileType: string, isoformat: int -> string,
                       model: seq<string> -> Result<seq<Vector>, Error>, rejected: Option<nat>, uuid: nat -> string)
    returns (r: Result<UploadResult, Error>, ghost statusLog: seq<string>, ghost vectors: seq<Vector>)
    requires repo.Valid() && store.Valid()
    requires |repo.rows| > 0 && repo.rows[|repo.rows| - 1] == document
    requires document.numChunks == 0 && document.contentPreview.None?
    requires OneVectorPerText(model)
    modifies repo, store
    ensures repo.Valid() && store.Valid() && repo.nextId == old(repo.nextId) && |repo.rows| == |old(repo.rows)|
    ensures repo.rows[..|repo.rows| - 1] == old(repo.rows)[..|repo.rows| - 1]
    ensures var last := repo.rows[|repo.rows| - 1];
      && last.(status := document.status, numChunks := document.numChunks, contentPreview := document.contentPreview) == document
      && Processed(old(store.points), last, store.points, r, statusLog, vectors,
                   filename, fileType, isoformat(document.uploadDate), processed, model, rejected, uuid)
  {
    statusLog := [];
    vectors := [];
    if processed.Failure? || processed.value.chunks == [] {
      if processed.Success? {
        UpdateNewest(repo, document.id, STATUS_FAILED, None);
        statusLog := statusLog + [STATUS_FAILED];
      }
      UpdateNewest(repo, document.id, STATUS_FAILED, None);
      statusLog := statusLog + [STATUS_FAILED];
      return Failure(HttpException(HTTP_500_INTERNAL_SERVER_ERROR)), statusLog, vectors;
    }
    r, statusLog, vectors := StoreChunks(repo, store, document, processed.value, filename, fileType,
                                         isoformat(document.uploadDate), model, rejected, uuid);
  }

  /**
   * The rest of the upload once there are chunks: embed them, upsert their
   * points, mark the row completed with its chunk count and set the
   * preview; a raising embedding or upsert marks the row failed instead.
   */
  method StoreChunks(repo: DocumentRepository, store: QdrantManager, document: Document, p: Processed,
                     filename: string, fileType: string, uploadDate: string,
                     model: seq<string> -> Result<seq<Vector>, Error>, rejected: Option<nat>, uuid: nat -> string)
    returns (r: Result<UploadResult, Error>, ghost statusLog: seq<string>, ghost vectors: seq<Vector>)
    requires repo.Valid() && store.Valid()
    requires |repo.rows| > 0 && repo.rows[|repo.rows| - 1] == document
    requires document.numChunks == 0 && document.contentPreview.None?
    requires p.chunks != []
    requires OneVectorPerText(model)
    modifies repo, store
    ensures repo.Valid() && store.Valid() && repo.nextId == old(repo.nextId) && |repo.rows| == |old(repo.rows)|
    ensures repo.rows[..|repo.rows| - 1] == old(repo.rows)[..|repo.rows| - 1]
    ensures var last := repo.rows[|repo.rows| - 1];
      && last.(status := document.status, numChunks := document.numChunks, contentPreview := document.contentPreview) == document
      && Processed(old(store.points), last, store.points, r, statusLog, vectors,
                   filename, fileType, uploadDate, Success(p), model, rejected, uuid)
  {
    vectors := [];
    var embeddings := EmbedChunks(p.chunks, model);
    if embeddings.Failure? {
      UpdateNewest(repo, document.id, STATUS_FAILED, None);
      return Failure(HttpException(HTTP_500_INTERNAL_SERVER_ERROR)), [STATUS_FAILED], vectors;
    }
    vectors := embeddings.value;
    r, statusLog := StoreVectors(repo, store, document, p, embeddings.value, filename, fileType, uploadDate, rejected, uuid);
  }

  /** The upsert of the embedded chunks and the final status update. */
  method StoreVectors(repo: DocumentRepository, store: QdrantManager, document: Document, p: Processed,
                      vectors: seq<Vector>, filename: string, fileType: string, uploadDate: string,
                      rejected: Option<nat>, uuid: nat -> string)
    returns (r: Result<UploadResult, Error>, ghost statusLog: seq<string>)
    requires repo.Valid() && store.Valid()
    requires |repo.rows| > 0 && repo.rows[|repo.rows| - 1] == document
    requires document.numChunks == 0 && document.contentPreview.None?
    requires |vectors| == |p.chunks|
    modifies repo, store
    ensures repo.Valid() && store.Valid() && repo.nextId == old(repo.nextId) && |repo.rows| == |old(repo.rows)|
    ensures repo.rows[..|repo.rows| - 1] == old(repo.rows)[..|repo.rows| - 1]
    ensures var last := repo.rows[|repo.rows| - 1];
      && last.(status := document.status, numChunks := document.numChunks, contentPreview := document.contentPreview) == document
      && Stored(old(store.points), last, store.points, r, statusLog, p, vectors, filename, fileType, uploadDate, rejected, uuid)
  {
    var metadata := UploadMetadata(filename, fileType, uploadDate);
    var numChunks := store.AddDocuments(document.id, p.chunks, vectors, Some(metadata), Ids(|p.chunks|, uuid),
                                        rejected);
    if numChunks.Failure? {
      UpdateNewest(repo, document.id, STATUS_FAILED, None);
      return Failure(HttpException(HTTP_500_INTERNAL_SERVER_ERROR)), [STATUS_FAILED];
    }
    UpdateNewest(repo, document.id, STATUS_COMPLETED, Some(numChunks.value));
    PreviewNewest(repo, document.id, p.preview);
    r := Success(UploadResult(ToDict(repo.rows[|repo.rows| - 1]), numChunks.value));
    statusLog := [STATUS_COMPLETED];
  }

  /** `update_document_status` addressed to the row the upload just created. */
  method UpdateNewest(repo: DocumentRepository, id: int, status: string, numChunks: Option<int>)
    requires repo.Valid() && |repo.rows| > 0 && repo.rows[|repo.rows| - 1].id == id
    modifies repo
    ensures repo.Valid() && repo.nextId == old(repo.nextId)
    ensures repo.rows == old(repo.rows)[..|old(repo.rows)| - 1]
                         + [WithStatus(old(repo.rows)[|old(repo.rows)| - 1], status, numChunks)]
  {
    var _ := repo.UpdateDocumentStatus(id, status, numChunks);
  }

  /** The preview update addressed to the row the upload just created. */
  method PreviewNewest(repo: DocumentRepository, id: int, preview: string)
    requires repo.Valid() && |repo.rows| > 0 && repo.rows[|repo.rows| - 1].id == id
    modifies repo
    ensures repo.Valid() && repo.nextId == old(repo.nextId)
    ensures repo.rows == old(repo.rows)[..|old(repo.rows)| - 1]
                         + [old(repo.rows)[|old(repo.rows)| - 1].(contentPreview := Some(preview))]
  {
    repo.SetContentPreview(id, preview);
  }

  // ---------------------------------------------------------------------
  // Per-document endpoints
  // ---------------------------------------------------------------------

  /** `get_document`: 404 for an unknown id. */
  function GetDocumentEndpoint(repo: DocumentRepository, documentId: int): (r: Result<DocumentDict, Error>)
    reads repo
    ensures r.Failure? <==> repo.GetDocument(documentId).None?
    ensures r.Failure? ==> r.error == HttpException(HTTP_404_NOT_FOUND)
    ensures r.Success? ==> r.value.id == documentId && exists d :: d in repo.rows && ToDict(d) == r.value
  {
    match repo.GetDocument(documentId)
    case None => Failure(HttpException(HTTP_404_NOT_FOUND))
    case Some(d) => Success(ToDict(d))
  }

  /** `list_documents`: the page of rows, newest first, as dictionaries. */
  function ListDocuments(repo: DocumentRepository, skip: nat, limit: nat): (r: seq<DocumentDict>)
    reads repo
    ensures r == Dicts(Page(NewestFirst(repo.rows), skip, limit))
    ensures |r| <= limit
    ensures forall i :: 0 <= i < |r| ==> r[i].uploadDate.Some? && exists d :: d in repo.rows && ToDict(d) == r[i]
    ensures forall i, j :: 0 <= i < j < |r| ==> r[i].uploadDate.value >= r[j].uploadDate.value
  {
    var docs := repo.GetAllDocuments(skip, limit);
    var r := Dicts(docs);
    assert forall i :: 0 <= i < |r| ==> docs[i] in repo.rows && ToDict(docs[i]) == r[i];
    r
  }

  /**
   * `search_by_filename`: one dictionary per row whose filename contains
   * the query, newest first.
   */
  function SearchByFilename(repo: DocumentRepository, query: string): (r: seq<DocumentDict>)
    reads repo
    ensures r == Dicts(SearchRows(repo.rows, query))
    ensures |r| == |Matching(repo.rows, query)|
    ensures forall x :: x in r ==> exists d :: d in repo.rows && MatchesFilename(query, d.filename) && ToDict(d) == x
    ensures forall d :: d in repo.rows && MatchesFilename(query, d.filename) ==> ToDict(d) in r
    ensures forall i, j :: 0 <= i < j < |r| ==> r[i].uploadDate.value >= r[j].uploadDate.value
  {
    var docs := repo.SearchDocuments(query);
    DictsOfMatches(repo.rows, docs, query);
    Dicts(docs)
  }

  /** Each row turned into its dictionary, in order. */
  function Dicts(docs: seq<Document>): (r: seq<DocumentDict>)
    ensures |r| == |docs| && forall i :: 0 <= i < |r| ==> r[i] == ToDict(docs[i])
  {
    seq(|docs|, i requires 0 <= i < |docs| => ToDict(docs[i]))
  }

  /** The dictionaries of exactly the matching rows are the dictionaries of the matching rows. */
  lemma DictsOfMatches(rows: seq<Document>, docs: seq<Document>, query: string)
    requires forall d :: d in docs <==> d in rows && MatchesFilename(query, d.filename)
    ensures forall x :: x in Dicts(docs) ==> exists d :: d in rows && MatchesFilename(query, d.filename) && ToDict(d) == x
    ensures forall d :: d in rows && MatchesFilename(query, d.filename) ==> ToDict(d) in Dicts(docs)
  {
    var r := Dicts(docs);
    forall x | x in r ensures exists d :: d in rows && MatchesFilename(query, d.filename) && ToDict(d) == x {
      var i :| 0 <= i < |r| && r[i] == x;
      assert docs[i] in docs;
    }
    forall d | d in rows && MatchesFilename(query, d.filename) ensures ToDict(d) in r {
      var i :| 0 <= i < |docs| && docs[i] == d;
      assert r[i] == ToDict(d);
    }
  }

  datatype ChunksView = ChunksView(documentId: int, filename: string, chunks: seq<ChunkRecord>, totalChunks: nat)

  /** `get_document_chunks` (endpoint): 404 for an unknown id, before the vector store is read. */
  method DocumentChunksEndpoint(repo: DocumentRepository, store: QdrantManager, documentId: int,
                                scrolled: seq<PointStruct>)
    returns (r: Result<ChunksView, Error>, ghost storeRead: bool)
    requires store.Valid()
    requires ScrollAnswer(store.points, documentId, scrolled)
    ensures repo.GetDocument(documentId).None? ==> r == Failure(HttpException(HTTP_404_NOT_FOUND)) && !storeRead
    ensures repo.GetDocument(documentId).Some? ==>
      && storeRead
      && r.Success? && r.value.documentId == documentId
      && r.value.filename == repo.GetDocument(documentId).value.filename
      && r.value.chunks == SortBy(Records(scrolled), ChunkKey)
      && r.value.totalChunks == |r.value.chunks| <= SCROLL_LIMIT
  {
    var document := repo.GetDocument(documentId);
    if document.None? {
      return Failure(HttpException(HTTP_404_NOT_FOUND)), false;
    }
    var chunks := store.GetDocumentChunks(documentId, scrolled);
    return Success(ChunksView(documentId, document.value.filename, chunks, |chunks|)), true;
  }

  /** The external steps of a deletion, in the order they happen. */
  datatype Effect = VectorDelete(documentId: int) | FileRemove(path: string) | RowDelete(documentId: int)

  /**
   * `delete_document` (endpoint): 404 with no effect for an unknown id;
   * otherwise the vector store, then the file (when it exists), then the
   * row.  A vector-store failure is reported by `delete_document` as
   * `False` and ignored; a failing file removal gives 500 after the chunks
   * are gone and keeps the row.
   */
  method DeleteDocumentEndpoint(repo: DocumentRepository, store: QdrantManager, documentId: int,
                                clientFails: bool, fileExists: bool, removeFails: bool)
    returns (r: Result<string, Error>, ghost effects: seq<Effect>)
    requires repo.Valid() && store.Valid()
    modifies repo, store
    ensures repo.Valid() && store.Valid() && store.upserts == old(store.upserts)
    ensures old(repo.GetDocument(documentId)).None? ==>
      && r == Failure(HttpException(HTTP_404_NOT_FOUND)) && effects == []
      && repo.rows == old(repo.rows) && store.points == old(store.points)
    ensures old(repo.GetDocument(documentId)).Some? ==>
      && |effects| > 0 && effects[0] == VectorDelete(documentId)
      && (clientFails ==> store.points == old(store.points))
      && (!clientFails ==> DocIds(store.points, documentId) == {} &&
                           forall id :: id in store.points <==> id in old(store.points) && !BelongsTo(old(store.points)[id], documentId))
    ensures old(repo.GetDocument(documentId)).Some? && fileExists && removeFails ==>
      && r == Failure(HttpException(HTTP_500_INTERNAL_SERVER_ERROR))
      && effects == [VectorDelete(documentId), FileRemove(old(repo.GetDocument(documentId)).value.filePath)]
      && repo.rows == old(repo.rows)
    ensures old(repo.GetDocument(documentId)).Some? && !(fileExists && removeFails) ==>
      && r == Success("Document " + IntToString(documentId) + " deleted successfully")
      && effects == [VectorDelete(documentId)]
                    + (if fileExists then [FileRemove(old(repo.GetDocument(documentId)).value.filePath)] else [])
                    + [RowDelete(documentId)]
      && repo.GetDocument(documentId).None?
      && forall d :: d in repo.rows <==> d in old(repo.rows) && d.id != documentId
  {
    var document := repo.GetDocument(documentId);
    if document.None? {
      return Failure(HttpException(HTTP_404_NOT_FOUND)), [];
    }
    var _ := store.DeleteDocument(documentId, clientFails);
    effects := [VectorDelete(documentId)];
    if fileExists {
      effects := effects + [FileRemove(document.value.filePath)];
      if removeFails {
        return Failure(HttpException(HTTP_500_INTERNAL_SERVER_ERROR)), effects;
      }
    }
    var _ := repo.DeleteDocument(documentId);
    effects := effects + [RowDelete(documentId)];
    r := Success("Document " + IntToString(documentId) + " deleted successfully");
  }

  // ---------------------------------------------------------------------
  // Semantic search endpoint
  // ---------------------------------------------------------------------

  datatype DocRef = DocRef(id: int, filename: string, fileType: string)
  datatype SearchResult = SearchResult(score: real, text: string, chunkIndex: int, document: DocRef)
  datatype SearchView = SearchView(query: string, results: seq<SearchResult>, totalResults: nat)

  /** One hit with its document's filename and type, "Unknown" when the row is missing. */
  function EnrichHit(h: SearchHit, repo: DocumentRepository): (x: SearchResult)
    requires TypedHit(h)
    reads repo
    ensures x.score == h.score && x.text == h.text.value.s && x.chunkIndex == h.chunkIndex.value.i
    ensures x.document.id == h.documentId.value.i
    ensures repo.GetDocument(x.document.id).None? ==> x.document.filename == UNKNOWN && x.document.fileType == UNKNOWN
    ensures repo.GetDocument(x.document.id).Some? ==>
      x.document.filename == repo.GetDocument(x.document.id).value.filename &&
      x.document.fileType == repo.GetDocument(x.document.id).value.fileType
  {
    var docId := h.documentId.value.i;
    var info := match repo.GetDocument(docId)
      case None => DocRef(docId, UNKNOWN, UNKNOWN)
      case Some(d) => DocRef(docId, d.filename, d.fileType);
    SearchResult(h.score, h.text.value.s, h.chunkIndex.value.i, info)
  }

  /**
   * `search_documents`: `found` is the outcome of embedding the query and
   * asking the client for at most `limit` points scoring at least 0.3,
   * filtered by `document_id` when it is truthy; any failure there becomes
   * a 500.  The hits keep their number and order.
   */
  method SearchDocumentsEndpoint(repo: DocumentRepository, qdrant: QdrantManager, query: string, limit: int,
                                 documentId: Option<int>, found: Result<seq<ScoredPoint>, Error>)
    returns (r: Result<SearchView, Error>)
    requires found.Success? ==> SearchAnswer(found.value, limit, SearchFilter(documentId), SEARCH_SCORE_THRESHOLD)
    ensures found.Failure? ==> r == Failure(HttpException(HTTP_500_INTERNAL_SERVER_ERROR))
    ensures found.Success? ==>
      && r.Success? && r.value.query == query
      && |r.value.results| == r.value.totalResults == |found.value| <= limit
      && forall i :: 0 <= i < |found.value| ==> r.value.results[i] == EnrichHit(Hits(found.value)[i], repo)
    ensures r.Success? ==> forall x :: x in r.value.results ==> x.score >= SEARCH_SCORE_THRESHOLD
    ensures r.Success? && SearchFilter(documentId).Some? ==>
      forall x :: x in r.value.results ==> x.document.id == documentId.value
  {
    if found.Failure? {
      return Failure(HttpException(HTTP_500_INTERNAL_SERVER_ERROR));
    }
    var results := qdrant.SearchSimilar(limit, documentId, SEARCH_SCORE_THRESHOLD, found.value);
    var enrichedResults: seq<SearchResult> := [];
    for i := 0 to |results|
      invariant |enrichedResults| == i
      invariant forall k :: 0 <= k < i ==> enrichedResults[k] == EnrichHit(results[k], repo)
    {
      enrichedResults := enrichedResults + [EnrichHit(results[i], repo)];
    }
    return Success(SearchView(query, enrichedResults, |enrichedResults|));
  }

  // ---------------------------------------------------------------------
  // Statistics
  // ---------------------------------------------------------------------

  datatype Stats = Stats(totalDocuments: nat, totalSizeBytes: int, totalChunks: int,
                         byFileType: map<string, nat>, byStatus: map<string, nat>)

  function SumSizes(docs: seq<Document>): int {
    if docs == [] then 0 else SumSizes(docs[..|docs| - 1]) + docs[|docs| - 1].fileSize
  }

  function SumChunks(docs: seq<Document>): int {
    if docs == [] then 0 else SumChunks(docs[..|docs| - 1]) + docs[|docs| - 1].numChunks
  }

  function FileTypeOf(d: Document): string { d.fileType }
  function StatusOf(d: Document): string { d.status }

  /** `counts[k] = counts.get(k, 0) + 1`. */
  function Bump(m: map<string, nat>, k: string): (m': map<string, nat>)
    ensures m'.Keys == m.Keys + {k}
    ensures m'[k] == (if k in m then m[k] else 0) + 1
    ensures forall j :: j in m && j != k ==> m'[j] == m[j]
  {
    m[k := (if k in m then m[k] else 0) + 1]
  }

  /**
   * The per-key counts built by one pass over the rows; each count is the
   * number of rows with that key (`CountByOccurrences`), the keys are exactly
   * those that occur (`CountByKeys`), and the counts add up to the rows (`CountBySum`).
   */
  function CountBy(docs: seq<Document>, key: Document -> string): (m: map<string, nat>)
    ensures forall k :: k in m ==> m[k] > 0
  {
    if docs == [] then map[]
    else Bump(CountBy(docs[..|docs| - 1], key), key(docs[|docs| - 1]))
  }

  /** Counting one more row bumps that row's key. */
  lemma CountByStep(docs: seq<Document>, i: nat, key: Document -> string)
    requires i < |docs|
    ensures CountBy(docs[..i + 1], key) == Bump(CountBy(docs[..i], key), key(docs[i]))
  {
    assert docs[..i + 1][..i] == docs[..i];
  }

  /** Reference definition: how many rows have `key` equal to `k`. */
  function Occurrences(docs: seq<Document>, key: Document -> string, k: string): nat {
    if docs == [] then 0
    else Occurrences(docs[..|docs| - 1], key, k) + (if key(docs[|docs| - 1]) == k then 1 else 0)
  }

  /** Every key of the count map is the count of its rows; absent keys have none. */
  lemma {:induction false} CountByOccurrences(docs: seq<Document>, key: Document -> string, k: string)
    ensures k in CountBy(docs, key) <==> Occurrences(docs, key, k) > 0
    ensures k in CountBy(docs, key) ==> CountBy(docs, key)[k] == Occurrences(docs, key, k)
  {
    if docs != [] {
      CountByOccurrences(docs[..|docs| - 1], key, k);
    }
  }

  /** The keys of the count map are exactly the keys of the rows. */
  lemma {:induction false} CountByKeys(docs: seq<Document>, key: Document -> string)
    ensures forall k :: k in CountBy(docs, key) <==> exists i :: 0 <= i < |docs| && key(docs[i]) == k
  {
    if docs != [] {
      var init := docs[..|docs| - 1];
      CountByKeys(init, key);
      assert forall i :: 0 <= i < |init| ==> init[i] == docs[i];
    }
  }

  /** The total of the counts over a set of keys. */
  ghost function SumOver(m: map<string, nat>, ks: set<string>): nat
    requires ks <= m.Keys
    decreases ks
  {
    if ks == {} then 0
    else
      var k :| k in ks;
      m[k] + SumOver(m, ks - {k})
  }

  lemma {:induction false} SumOverRemove(m: map<string, nat>, ks: set<string>, k: string)
    requires ks <= m.Keys && k in ks
    ensures SumOver(m, ks) == m[k] + SumOver(m, ks - {k})
    decreases ks
  {
    var j :| j in ks && SumOver(m, ks) == m[j] + SumOver(m, ks - {j});
    if j != k {
      SumOverRemove(m, ks - {j}, k);
      SumOverRemove(m, ks - {k}, j);
      assert ks - {j} - {k} == ks - {k} - {j};
    }
  }

  /** Keys the update leaves alone keep their total. */
  lemma {:induction false} SumOverSame(m: map<string, nat>, m': map<string, nat>, ks: set<string>)
    requires ks <= m.Keys && ks <= m'.Keys
    requires forall j :: j in ks ==> m[j] == m'[j]
    ensures SumOver(m, ks) == SumOver(m', ks)
    decreases ks
  {
    if ks != {} {
      var k :| k in ks;
      SumOverRemove(m, ks, k);
      SumOverRemove(m', ks, k);
      SumOverSame(m, m', ks - {k});
    }
  }

  /** The total of all counts in a map. */
  ghost function MapSum(m: map<string, nat>): nat {
    SumOver(m, m.Keys)
  }

  /** Counting one more row under a key adds one to the total. */
  lemma BumpSum(m: map<string, nat>, k: string)
    ensures MapSum(Bump(m, k)) == MapSum(m) + 1
  {
    var m' := Bump(m, k);
    SumOverRemove(m', m'.Keys, k);
    if k in m {
      SumOverRemove(m, m.Keys, k);
      assert m'.Keys - {k} == m.Keys - {k};
      SumOverSame(m, m', m.Keys - {k});
    } else {
      assert m'.Keys - {k} == m.Keys;
      SumOverSame(m, m', m.Keys);
    }
  }

  /** The counts by any key add up to the number of rows. */
  lemma {:induction false} CountBySum(docs: seq<Document>, key: Document -> string)
    ensures MapSum(CountBy(docs, key)) == |docs|
  {
    if docs != [] {
      CountBySum(docs[..|docs| - 1], key);
      BumpSum(CountBy(docs[..|docs| - 1], key), key(docs[|docs| - 1]));
    }
  }

  /**
   * `get_statistics`: totals and per-type / per-status counts over the
   * first 10000 rows, newest first.  The collection info of the vector
   * store is not part of this model.
   */
  method GetStatistics(repo: DocumentRepository) returns (s: Stats)
    ensures var docs := repo.GetAllDocuments(0, STATS_LIMIT);
      && s.totalDocuments == |docs| <= STATS_LIMIT
      && s.totalSizeBytes == SumSizes(docs) && s.totalChunks == SumChunks(docs)
      && s.byFileType == CountBy(docs, FileTypeOf) && s.byStatus == CountBy(docs, StatusOf)
    ensures MapSum(s.byFileType) == s.totalDocuments && MapSum(s.byStatus) == s.totalDocuments
  {
    var documents := repo.GetAllDocuments(0, STATS_LIMIT);
    var byType: map<string, nat> := map[];
    var byStatus: map<string, nat> := map[];
    for i := 0 to |documents|
      invariant byType == CountBy(documents[..i], FileTypeOf)
      invariant byStatus == CountBy(documents[..i], StatusOf)
    {
      var doc := documents[i];
      CountByStep(documents, i, FileTypeOf);
      CountByStep(documents, i, StatusOf);
      byType := Bump(byType, doc.fileType);
      byStatus := Bump(byStatus, doc.status);
    }
    assert documents[..|documents|] == documents;
    CountBySum(documents, FileTypeOf);
    CountBySum(documents, StatusOf);
    s := Stats(|documents|, SumSizes(documents), SumChunks(documents), byType, byStatus);
  }
}

=== FILE: embedding.dfy ===
/**
 * Blank handling and batch reassembly of the embedding service
 * (app/services/embedding.py).  The sentence-transformer is an
 * uninterpreted function from texts to vectors, or to the error it
 * raises; `encode_text` and `encode_batch` re-raise that error.
 */
module Embedding {
  import opened Wrappers
  import opened Errors
  import opened Text
  import Settings

  type Vector = seq<real>

  /** `[0.0] * EMBEDDING_DIMENSION`. */
  function ZeroVector(): (v: Vector)
    ensures |v| == Settings.EMBEDDING_DIMENSION
    ensures forall i :: 0 <= i < |v| ==> v[i] == 0.0
  {
    seq(Settings.EMBEDDING_DIMENSION, _ => 0.0)
  }

  /**
   * `encode_text`: blank or missing text gets the zero vector; the model
   * sees only the rest, and if it raises, `encode_text` re-raises.
   */
  function EncodeText(text: Option<string>, encode: string -> Result<Vector, Error>): (v: Result<Vector, Error>)
    ensures text.None? || AllSpace(text.value) ==> v == Success(ZeroVector())
    ensures text.Some? && !AllSpace(text.value) ==> v == encode(text.value)
    ensures v.Failure? <==> text.Some? && !AllSpace(text.value) && encode(text.value).Failure?
  {
    if text.None? || text.value == [] || Strip(text.value) == [] then Success(ZeroVector()) else encode(text.value)
  }

  /**
   * The texts passing `text and text.strip()`, in their original order;
   * which text sits at which position is `NonBlankAtRank`, with `RankBound`.
   */
  function NonBlank(texts: seq<string>): (r: seq<string>)
    ensures |r| <= |texts|
  {
    if texts == [] then []
    else
      var last := texts[|texts| - 1];
      NonBlank(texts[..|texts| - 1]) + (if AllSpace(last) then [] else [last])
  }

  /** How many non-blank texts come before position `i`. */
  function Rank(texts: seq<string>, i: nat): nat
    requires i <= |texts|
  {
    |NonBlank(texts[..i])|
  }

  /** The rank grows by one exactly at the non-blank positions. */
  lemma RankStep(texts: seq<string>, i: nat)
    requires i < |texts|
    ensures Rank(texts, i + 1) == Rank(texts, i) + (if AllSpace(texts[i]) then 0 else 1)
  {
    assert texts[..i + 1][..i] == texts[..i];
  }

  /** Ranks never exceed the number of non-blank texts, and are strictly below it at a non-blank position. */
  lemma {:induction false} RankBound(texts: seq<string>, i: nat)
    requires i <= |texts|
    ensures Rank(texts, i) <= |NonBlank(texts)|
    ensures i < |texts| && !AllSpace(texts[i]) ==> Rank(texts, i) < |NonBlank(texts)|
    decreases |texts| - i
  {
    if i < |texts| {
      RankStep(texts, i);
      RankBound(texts, i + 1);
    } else {
      assert texts[..i] == texts;
    }
  }

  /** The non-blank text at position `i` is the one the model sees at position `Rank(texts, i)`. */
  lemma {:induction false} NonBlankAtRank(texts: seq<string>, i: nat)
    requires i < |texts| && !AllSpace(texts[i])
    ensures Rank(texts, i) < |NonBlank(texts)|
    ensures NonBlank(texts)[Rank(texts, i)] == texts[i]
    decreases |texts|
  {
    RankBound(texts, i);
    var init := texts[..|texts| - 1];
    if i == |texts| - 1 {
      assert texts[..i] == init;
    } else {
      assert init[..i] == texts[..i];
      NonBlankAtRank(init, i);
    }
  }

  /** The filtering loop of `encode_batch`: the non-blank texts and their positions. */
  method FilterBlank(texts: seq<string>) returns (validTexts: seq<string>, validIndices: seq<nat>)
    ensures validTexts == NonBlank(texts)
    ensures forall j: nat :: j in validIndices <==> j < |texts| && !AllSpace(texts[j])
  {
    validTexts := [];
    validIndices := [];
    for idx := 0 to |texts|
      invariant validTexts == NonBlank(texts[..idx])
      invariant forall j: nat :: j in validIndices <==> j < idx && !AllSpace(texts[j])
    {
      assert texts[..idx + 1][..idx] == texts[..idx];
      if texts[idx] != [] && Strip(texts[idx]) != [] {
        validTexts := validTexts + [texts[idx]];
        validIndices := validIndices + [idx];
      }
    }
    assert texts[..|texts|] == texts;
  }

  /** The reassembly loop of `encode_batch`: model outputs back at their positions, zeros elsewhere. */
  method Reassemble(texts: seq<string>, validIndices: seq<nat>, embeddings: seq<Vector>) returns (result: seq<Vector>)
    requires forall j: nat :: j in validIndices <==> j < |texts| && !AllSpace(texts[j])
    requires |embeddings| == |NonBlank(texts)|
    ensures |result| == |texts|
    ensures forall i :: 0 <= i < |texts| && AllSpace(texts[i]) ==> result[i] == ZeroVector()
    ensures forall i :: 0 <= i < |texts| && !AllSpace(texts[i]) ==>
              Rank(texts, i) < |embeddings| && result[i] == embeddings[Rank(texts, i)]
  {
    result := [];
    var validIdx := 0;
    var zeroVector := ZeroVector();
    for idx := 0 to |texts|
      invariant |result| == idx
      invariant validIdx == Rank(texts, idx)
      invariant Placed(texts, embeddings, result)
    {
      RankStep(texts, idx);
      RankBound(texts, idx);
      ghost var prev := result;
      if idx in validIndices {
        result := result + [embeddings[validIdx]];
        validIdx := validIdx + 1;
      } else {
        result := result + [zeroVector];
      }
      PlacedStep(texts, embeddings, prev, result[idx]);
    }
  }

  /** The first `|result|` vectors sit where `Reassemble` promises. */
  ghost predicate Placed(texts: seq<string>, embeddings: seq<Vector>, result: seq<Vector>) {
    && |result| <= |texts|
    && (forall i :: 0 <= i < |result| && AllSpace(texts[i]) ==> result[i] == ZeroVector())
    && (forall i :: 0 <= i < |result| && !AllSpace(texts[i]) ==>
          Rank(texts, i) < |embeddings| && result[i] == embeddings[Rank(texts, i)])
  }

  /** Appending the right vector for the next text keeps `Placed`. */
  lemma PlacedStep(texts: seq<string>, embeddings: seq<Vector>, result: seq<Vector>, v: Vector)
    requires Placed(texts, embeddings, result) && |result| < |texts|
    requires AllSpace(texts[|result|]) ==> v == ZeroVector()
    requires !AllSpace(texts[|result|]) ==> Rank(texts, |result|) < |embeddings| && v == embeddings[Rank(texts, |result|)]
    ensures Placed(texts, embeddings, result + [v])
  {
    var r := result + [v];
    assert forall i :: 0 <= i < |result| ==> r[i] == result[i];
  }

  /**
   * What `encode_batch` promises on success: one vector per text, the zero
   * vector for a blank text and, for the others, the model's output for
   * them in order.
   */
  predicate Embeds(texts: seq<string>, model: seq<string> -> Result<seq<Vector>, Error>, vectors: seq<Vector>) {
    && |vectors| == |texts|
    && (forall i :: 0 <= i < |texts| && AllSpace(texts[i]) ==> vectors[i] == ZeroVector())
    && (forall i :: 0 <= i < |texts| && !AllSpace(texts[i]) ==>
          && model(NonBlank(texts)).Success?
          && Rank(texts, i) < |model(NonBlank(texts)).value|
          && vectors[i] == model(NonBlank(texts)).value[Rank(texts, i)])
  }

  /** The model answers a batch with one vector per text whenever it does not raise. */
  predicate ModelShape(texts: seq<string>, model: seq<string> -> Result<seq<Vector>, Error>) {
    NonBlank(texts) != [] && model(NonBlank(texts)).Success? ==> |model(NonBlank(texts)).value| == |NonBlank(texts)|
  }

  /**
   * `encode_batch`: the model is called once, on the non-blank texts, and
   * not at all when there are none; if it raises, so does `encode_batch`,
   * with the same error; otherwise the result is as `Embeds` says.
   * `calls` records the model's inputs.
   */
  method EncodeBatch(texts: seq<string>, model: seq<string> -> Result<seq<Vector>, Error>)
      returns (r: Result<seq<Vector>, Error>, ghost calls: seq<seq<string>>)
    requires ModelShape(texts, model)
    ensures r.Failure? <==> NonBlank(texts) != [] && model(NonBlank(texts)).Failure?
    ensures r.Failure? ==> r.error == model(NonBlank(texts)).error
    ensures r.Success? ==> Embeds(texts, model, r.value)
    ensures calls == (if NonBlank(texts) == [] then [] else [NonBlank(texts)])
  {
    if |texts| == 0 {
      return Success([]), [];
    }
    var validTexts, validIndices := FilterBlank(texts);
    if validTexts == [] {
      forall i | 0 <= i < |texts|
        ensures AllSpace(texts[i])
      {
        RankBound(texts, i);
      }
      return Success(seq(|texts|, _ => ZeroVector())), [];
    }
    var embeddings := model(validTexts);
    calls := [validTexts];
    if embeddings.Failure? {
      return Failure(embeddings.error), calls;
    }
    var result := Reassemble(texts, validIndices, embeddings.value);
    r := Success(result);
  }

  /** `embed_chunks`: the batch encoder applied to the chunks; its errors propagate. */
  method EmbedChunks(chunks: seq<string>, model: seq<string> -> Result<seq<Vector>, Error>)
      returns (r: Result<seq<Vector>, Error>)
    requires ModelShape(chunks, model)
    ensures r.Failure? <==> NonBlank(chunks) != [] && model(NonBlank(chunks)).Failure?
    ensures r.Failure? ==> r.error == model(NonBlank(chunks)).error
    ensures r.Success? ==> Embeds(chunks, model, r.value)
  {
    ghost var calls;
    r, calls := EncodeBatch(chunks, model);
  }

  /** `embed_query`: the single-text encoder applied to the query; its errors propagate. */
  function EmbedQuery(query: string, encode: string -> Result<Vector, Error>): (v: Result<Vector, Error>)
    ensures AllSpace(query) ==> v == Success(ZeroVector())
    ensures !AllSpace(query) ==> v == encode(query)
    ensures v.Failure? ==> v.error == encode(query).error
  {
    EncodeText(Some(query), encode)
  }
}

=== FILE: llm.dfy ===
/**
 * `LLMService` (app/services/llm.py): formatting of the retrieved chunks
 * into a numbered context, deduplication of the cited documents, and the
 * requests sent to the chat-completion client.  The client is an oracle
 * `respond` from a request to its outcome; whether it was initialised
 * (an API key was configured) is fixed at construction.
 */
module Llm {
  import opened Wrappers
  import opened Errors
  import opened Text
  import opened Settings
  import opened Retrieval

  /** The prompt texts, as fixed strings. */
  const SYSTEM_PROMPT: string :=
    "\"K - ?@>D5AA8>=0;L=K9 0AA8AB5=B 4;O >B25B>2 =0 2>?@>AK ?> 4>:C<5=B0<.\n"
    + "\n"
    + "\"2>O 7040G0:\n"
    + "1. \U{12}=8<0B5;L=> ?@>0=0;878@>20BL ?@54>AB02;5==K9 :>=B5:AB 87 4>:C<5=B>2\n"
    + "2. \U{14}0BL <0:A8<0;L=> B>G=K9 8 @0725@=CBK9 >B25B =0 2>?@>A ?>;L7>20B5;O\n"
    + "3. \U{1E}A=>2K20BL >B25B \"\U{1E}\U{1B},\U{1A}\U{1E} =0 8=D>@<0F88 87 ?@54>AB02;5==KE 4>:C<5=B>2\n"
    + "4. \U{15}A;8 2 4>:C<5=B0E =5B 8=D>@<0F88 4;O >B25B0, G5AB=> A:070BL >1 MB><\n"
    + "5. &8B8@>20BL @5;520=B=K5 G0AB8 4>:C<5=B>2 ?@8 =5>1E>48<>AB8\n"
    + "6. !B@C:BC@8@>20BL >B25B ;>38G=> 8 ?>=OB=>\n"
    + "\n"
    + "\U{1F}@028;0:\n"
    + "- \U{1D}\U{15} 2K4C<K209 8=D>@<0F8N, :>B>@>9 =5B 2 4>:C<5=B0E\n"
    + "- \U{15}A;8 C25@5==>AB8 =5B - C:068 MB>\n"
    + "- \U{1E}B25G09 =0 B>< 65 O7K:5, GB> 8 2>?@>A\n"
    + "- \U{11}C4L :>=:@5B=K< 8 8=D>@<0B82=K<\n"
  const NO_CONTEXT: string := "\U{1A}>=B5:AB =5 =0945=."
  const SOURCE_LABEL: string := "[\U{18}AB>G=8: "
  const USER_PROMPT_HEAD: string := "\U{1A}>=B5:AB 87 4>:C<5=B>2:\n\n"
  const USER_PROMPT_MID: string := "\n\n---\n\n\U{12}>?@>A ?>;L7>20B5;O: "
  const USER_PROMPT_TAIL: string := "\n\n\U{1F}>60;C9AB0, 409 @0725@=CBK9 >B25B =0 >A=>25 ?@54>AB02;5==>3> :>=B5:AB0."
  const SUMMARY_PROMPT_HEAD: string := "!>7409 :@0B:>5 @57N<5 A;54CNI53> B5:AB0 (<0:A8<C< "
  const SUMMARY_PROMPT_TAIL: string := " A8<2>;>2)."

  const ANSWER_TOP_P: real := 0.9
  const SUMMARY_TEMPERATURE: real := 0.5

  // ---------------------------------------------------------------------
  // _build_context
  // ---------------------------------------------------------------------

  /** Part `i` (counting from 1) of the context: its number, filename and text. */
  function ContextPart(i: nat, x: Retrieved): (p: string)
    ensures IsSubstring(x.text, p)
  {
    var head := SOURCE_LABEL + NatToString(i) + ": " + x.document.filename + "]\n";
    var p := head + x.text + "\n";
    assert p[|head|..|head| + |x.text|] == x.text;
    assert OccursAt(x.text, p, |head|);
    p
  }

  function Parts(chunks: seq<Retrieved>): (ps: seq<string>)
    ensures |ps| == |chunks|
    ensures forall k :: 0 <= k < |chunks| ==> ps[k] == ContextPart(k + 1, chunks[k])
  {
    seq(|chunks|, k requires 0 <= k < |chunks| => ContextPart(k + 1, chunks[k]))
  }

  /** The context string: the placeholder for no chunks, otherwise the parts joined by newlines. */
  function Context(chunks: seq<Retrieved>): string {
    if chunks == [] then NO_CONTEXT else Join(Parts(chunks), "\n")
  }

  method BuildContext(chunks: seq<Retrieved>) returns (context: string)
    ensures context == Context(chunks)
  {
    if chunks == [] {
      return NO_CONTEXT;
    }
    var contextParts: seq<string> := [];
    for i := 0 to |chunks|
      invariant contextParts == Parts(chunks[..i])
    {
      var chunk := chunks[i];
      contextParts := contextParts + [ContextPart(i + 1, chunk)];
    }
    assert chunks[..|chunks|] == chunks;
    context := Join(contextParts, "\n");
  }

  /** Each chunk's numbered part, and so its text, appears in the context. */
  lemma ContextHasEveryChunk(chunks: seq<Retrieved>, k: nat)
    requires k < |chunks|
    ensures IsSubstring(ContextPart(k + 1, chunks[k]), Context(chunks))
    ensures IsSubstring(chunks[k].text, Context(chunks))
  {
    JoinContains(Parts(chunks), "\n", k);
    SubstringTrans(chunks[k].text, ContextPart(k + 1, chunks[k]), Context(chunks));
  }

  /** The part numbers read back as the 1-based positions of the chunks. */
  lemma PartNumbering(chunks: seq<Retrieved>, k: nat)
    requires k < |chunks|
    ensures var digits := NatToString(k + 1);
      Parts(chunks)[k][..|SOURCE_LABEL| + |digits|] == SOURCE_LABEL + digits && DigitsValue(digits) == k + 1
  {
    NatToStringRoundTrip(k + 1);
  }

  // ---------------------------------------------------------------------
  // _extract_sources
  // ---------------------------------------------------------------------

  datatype Source = Source(documentId: int, filename: string, fileType: string, relevanceScore: real)

  function ToSource(x: Retrieved): Source {
    Source(x.document.id, x.document.filename, x.document.fileType, x.score)
  }

  /** The truthy document ids among the chunks. */
  function CitedIds(chunks: seq<Retrieved>): (ids: set<int>)
    ensures forall id :: id in ids <==> id != 0 && exists k :: 0 <= k < |chunks| && chunks[k].document.id == id
  {
    set k | 0 <= k < |chunks| && chunks[k].document.id != 0 :: chunks[k].document.id
  }

  /** One source per truthy document id, at the first chunk of that document. */
  function Sources(chunks: seq<Retrieved>): (r: seq<Source>)
  {
    if chunks == [] then []
    else
      var init, x := chunks[..|chunks| - 1], chunks[|chunks| - 1];
      Sources(init) + (if x.document.id != 0 && x.document.id !in CitedIds(init) then [ToSource(x)] else [])
  }

  method ExtractSources(chunks: seq<Retrieved>) returns (sources: seq<Source>)
    ensures sources == Sources(chunks)
  {
    sources := [];
    var seenDocs: set<int> := {};
    for i := 0 to |chunks|
      invariant sources == Sources(chunks[..i])
      invariant seenDocs == CitedIds(chunks[..i])
    {
      var chunk := chunks[i];
      var docId := chunk.document.id;
      assert chunks[..i + 1][..i] == chunks[..i];
      assert CitedIds(chunks[..i + 1]) == CitedIds(chunks[..i]) + (if docId != 0 then {docId} else {});
      if docId != 0 && docId !in seenDocs {
        seenDocs := seenDocs + {docId};
        sources := sources + [ToSource(chunk)];
      }
    }
    assert chunks[..|chunks|] == chunks;
  }

  /** The sources name each truthy document id exactly once, and nothing else. */
  lemma {:induction false} SourcesAreDistinct(chunks: seq<Retrieved>)
    ensures var r := Sources(chunks);
      && |r| <= |chunks|
      && (forall i :: 0 <= i < |r| ==> r[i].documentId in CitedIds(chunks))
      && (forall i, j :: 0 <= i < j < |r| ==> r[i].documentId != r[j].documentId)
      && (forall id :: id in CitedIds(chunks) ==> exists i :: 0 <= i < |r| && r[i].documentId == id)
  {
    if chunks != [] {
      var init, x := chunks[..|chunks| - 1], chunks[|chunks| - 1];
      SourcesAreDistinct(init);
      assert CitedIds(chunks) == CitedIds(init) + (if x.document.id != 0 then {x.document.id} else {});
      var r := Sources(chunks);
      var ri := Sources(init);
      assert r[..|ri|] == ri;
      forall id | id in CitedIds(chunks) ensures exists i :: 0 <= i < |r| && r[i].documentId == id {
        if id in CitedIds(init) {
          var i :| 0 <= i < |ri| && ri[i].documentId == id;
          assert r[i] == ri[i];
        } else {
          assert r[|r| - 1].documentId == id;
        }
      }
    }
  }

  /** No earlier chunk belongs to the same document as chunk `k`. */
  predicate FirstOfDocument(chunks: seq<Retrieved>, k: nat)
    requires k < |chunks|
  {
    forall j :: 0 <= j < k ==> chunks[j].document.id != chunks[k].document.id
  }

  /** Each source carries the filename, type and score of the first chunk of its document. */
  lemma {:induction false} SourcesFromFirstChunk(chunks: seq<Retrieved>, i: nat)
    requires i < |Sources(chunks)|
    ensures exists k :: 0 <= k < |chunks| && Sources(chunks)[i] == ToSource(chunks[k]) && FirstOfDocument(chunks, k)
  {
    var init, x := chunks[..|chunks| - 1], chunks[|chunks| - 1];
    var ri := Sources(init);
    var r := Sources(chunks);
    assert r[..|ri|] == ri;
    if i < |ri| {
      SourcesFromFirstChunk(init, i);
      var k :| 0 <= k < |init| && ri[i] == ToSource(init[k]) && FirstOfDocument(init, k);
      assert r[i] == ri[i];
      forall j | 0 <= j < k ensures chunks[j].document.id != chunks[k].document.id {
        assert init[j] == chunks[j] && init[k] == chunks[k];
      }
      assert FirstOfDocument(chunks, k);
    } else {
      var k := |chunks| - 1;
      assert x.document.id !in CitedIds(init);
      forall j | 0 <= j < k ensures chunks[j].document.id != chunks[k].document.id {
        assert init[j] == chunks[j];
      }
      assert r[i] == ToSource(chunks[k]);
    }
  }


  /**
   * The sources come in the order in which their documents first appear
   * among the chunks.
   */
  lemma {:induction false} SourcesInFirstAppearanceOrder(chunks: seq<Retrieved>, i: nat, j: nat, ki: nat, kj: nat)
    requires i < j < |Sources(chunks)|
    requires ki < |chunks| && Sources(chunks)[i].documentId == chunks[ki].document.id && FirstOfDocument(chunks, ki)
    requires kj < |chunks| && Sources(chunks)[j].documentId == chunks[kj].document.id && FirstOfDocument(chunks, kj)
    ensures ki < kj
  {
    var n := |chunks| - 1;
    var init, x := chunks[..n], chunks[n];
    var ri := Sources(init);
    var r := Sources(chunks);
    assert r[..|ri|] == ri;
    SourcesAreDistinct(init);
    SourcesAreDistinct(chunks);
    assert r[i].documentId in CitedIds(chunks);
    if j < |ri| {
      assert r[i] == ri[i] && r[j] == ri[j];
      NotLastChunk(chunks, ri[i].documentId, ki);
      NotLastChunk(chunks, ri[j].documentId, kj);
      assert FirstOfDocument(init, ki) && FirstOfDocument(init, kj) by {
        assert forall k :: 0 <= k < n ==> init[k] == chunks[k];
      }
      SourcesInFirstAppearanceOrder(init, i, j, ki, kj);
    } else {
      assert r[j] == ToSource(x);
      assert x.document.id !in CitedIds(init);
      assert kj == n;
      assert r[i] == ri[i];
      assert ki != n;
    }
  }

  /** A document already cited by the earlier chunks does not first appear at the last chunk. */
  lemma NotLastChunk(chunks: seq<Retrieved>, id: int, k: nat)
    requires k < |chunks| && chunks[k].document.id == id && FirstOfDocument(chunks, k)
    requires id in CitedIds(chunks[..|chunks| - 1])
    ensures k < |chunks| - 1
  {
    var init := chunks[..|chunks| - 1];
    var m :| 0 <= m < |init| && init[m].document.id == id;
    assert chunks[m].document.id == id;
  }

  // ---------------------------------------------------------------------
  // The client and its requests
  // ---------------------------------------------------------------------

  datatype Request = Request(model: string, system: string, user: string, maxTokens: int,
                             temperature: real, topP: Option<real>)

  datatype Completion = Completion(content: string, promptTokens: int, completionTokens: int, totalTokens: int)

  datatype TokenUsage = TokenUsage(prompt: int, completion: int, total: int)

  datatype Answer = Answer(answer: string, sources: seq<Source>, model: string, tokensUsed: TokenUsage)

  /** `max_tokens or LLM_MAX_TOKENS`: both `None` and 0 select the default. */
  function EffectiveMaxTokens(maxTokens: Option<int>): (n: int)
    ensures maxTokens.Some? && maxTokens.value != 0 ==> n == maxTokens.value
    ensures maxTokens.None? || maxTokens.value == 0 ==> n == LLM_MAX_TOKENS
  {
    if maxTokens.Some? && maxTokens.value != 0 then maxTokens.value else LLM_MAX_TOKENS
  }

  function UserPrompt(question: string, context: string): string {
    USER_PROMPT_HEAD + context + USER_PROMPT_MID + question + USER_PROMPT_TAIL
  }

  /** The summary's token budget `max_length // 2`: Dafny's division agrees with floor division for a positive divisor. */
  function SummaryBudget(maxLength: int): (t: int)
    ensures 2 * t <= maxLength < 2 * t + 2
  {
    maxLength / 2
  }

  class LLMService {
    /** Whether a client was created, i.e. an API key was configured. */
    const ready: bool
    const model: string

    constructor(apiKey: string)
      ensures ready == (apiKey != "") && model == LLM_MODEL
    {
      ready := apiKey != "";
      model := LLM_MODEL;
    }

    /** The request `generate_answer` sends for a question and its chunks. */
    function AnswerRequest(question: string, chunks: seq<Retrieved>, maxTokens: Option<int>, temperature: real): Request
      reads this
    {
      Request(model, SYSTEM_PROMPT, UserPrompt(question, Context(chunks)), EffectiveMaxTokens(maxTokens),
              temperature, Some(ANSWER_TOP_P))
    }

    /**
     * `generate_answer`: an uninitialised client fails with ValueError
     * before any request; a failing request propagates its error.
     */
    method GenerateAnswer(question: string, contextChunks: seq<Retrieved>, maxTokens: Option<int>, temperature: real,
                          respond: Request -> Result<Completion, Error>)
      returns (r: Result<Answer, Error>, ghost sent: seq<Request>)
      ensures !ready ==> r == Failure(ValueError) && sent == []
      ensures ready ==> sent == [AnswerRequest(question, contextChunks, maxTokens, temperature)]
      ensures ready && respond(sent[0]).Failure? ==> r == Failure(respond(sent[0]).error)
      ensures ready && respond(sent[0]).Success? ==>
        var c := respond(sent[0]).value;
        r == Success(Answer(c.content, Sources(contextChunks), model,
                            TokenUsage(c.promptTokens, c.completionTokens, c.totalTokens)))
    {
      if !ready {
        return Failure(ValueError), [];
      }
      var contextText := BuildContext(contextChunks);
      var request := Request(model, SYSTEM_PROMPT, UserPrompt(question, contextText), EffectiveMaxTokens(maxTokens),
                             temperature, Some(ANSWER_TOP_P));
      sent := [request];
      var response := respond(request);
      if response.Failure? {
        return Failure(response.error), sent;
      }
      var sources := ExtractSources(contextChunks);
      var c := response.value;
      r := Success(Answer(c.content, sources, model, TokenUsage(c.promptTokens, c.completionTokens, c.totalTokens)));
    }

    /** The request `generate_summary` sends. */
    function SummaryRequest(text: string, maxLength: int): Request
      reads this
    {
      Request(model, SUMMARY_PROMPT_HEAD + IntToString(maxLength) + SUMMARY_PROMPT_TAIL, text,
              SummaryBudget(maxLength), SUMMARY_TEMPERATURE, None)
    }

    /** `generate_summary`: the same guard, then one request with half the length as token budget. */
    method GenerateSummary(text: string, maxLength: int, respond: Request -> Result<Completion, Error>)
      returns (r: Result<string, Error>, ghost sent: seq<Request>)
      ensures !ready ==> r == Failure(ValueError) && sent == []
      ensures ready ==> sent == [SummaryRequest(text, maxLength)]
      ensures ready ==> 2 * sent[0].maxTokens <= maxLength < 2 * sent[0].maxTokens + 2
      ensures ready ==> r == (match respond(sent[0])
                              case Failure(e) => Failure(e)
                              case Success(c) => Success(c.content))
    {
      if !ready {
        return Failure(ValueError), [];
      }
      var request := SummaryRequest(text, maxLength);
      sent := [request];
      var response := respond(request);
      if response.Failure? {
        return Failure(response.error), sent;
      }
      r := Success(response.value.content);
    }
  }
}

=== FILE: parse.dfy ===
/**
 * Text cleaning, previews, file-type dispatch and the sentence-aware chunker
 * of the document parser (app/services/parse.py).
 */
module Parse {
  import opened Wrappers
  import opened Errors
  import opened Text
  import Settings

  /** Half-width of the neighbourhood searched for a sentence boundary. */
  const SEARCH_RADIUS: int := 100
  const PREVIEW_LENGTH: nat := 500

  // ---------------------------------------------------------------------
  // clean_text
  // ---------------------------------------------------------------------

  /** Index just past the run of whitespace that starts at `j`. */
  function SpaceRunEnd(s: string, j: nat): (e: nat)
    requires j <= |s|
    ensures j <= e <= |s|
    ensures forall k :: j <= k < e ==> IsSpace(s[k])
    ensures e < |s| ==> !IsSpace(s[e])
    decreases |s| - j
  {
    if j < |s| && IsSpace(s[j]) then SpaceRunEnd(s, j + 1) else j
  }

  /** Every whitespace character is a plain space. */
  predicate OnlyPlainSpaces(s: string) {
    forall i :: 0 <= i < |s| && IsSpace(s[i]) ==> s[i] == ' '
  }

  /** No two neighbouring characters are both whitespace. */
  predicate NoSpaceRuns(s: string) {
    forall i :: 0 <= i < |s| - 1 ==> !(IsSpace(s[i]) && IsSpace(s[i + 1]))
  }

  /**
   * `re.sub(r'\s+', ' ', s)`: every run of whitespace becomes one plain
   * space.  The words stay as they are (`CollapseSpacesKeepsWords`), and
   * the result starts and ends with a space exactly when `s` does.
   */
  function CollapseSpaces(s: string): (r: string)
    ensures OnlyPlainSpaces(r)
    ensures NoSpaceRuns(r)
    ensures r != [] <==> s != []
    ensures r != [] ==> (IsSpace(r[0]) <==> IsSpace(s[0]))
    ensures r != [] ==> (IsSpace(r[|r| - 1]) <==> IsSpace(s[|s| - 1]))
    decreases |s|
  {
    if s == [] then []
    else if IsSpace(s[0]) then
      var rest := s[SpaceRunEnd(s, 0)..];
      var t := CollapseSpaces(rest);
      assert t != [] ==> !IsSpace(t[0]);
      assert rest != [] ==> rest[|rest| - 1] == s[|s| - 1];
      [' '] + t
    else
      var t := CollapseSpaces(s[1..]);
      assert s[1..] != [] ==> s[1..][|s| - 2] == s[|s| - 1];
      [s[0]] + t
  }

  /** A non-empty run of whitespace between two strings separates their words. */
  lemma WordsAroundSpaces(p: string, sp: string, x: string)
    requires sp != [] && AllSpace(sp)
    ensures Words(p + sp + x) == Words(p) + Words(x)
  {
    WordsAppend(p + sp, x);
    WordsAppend(p, sp);
    WordsOfSpaces(sp);
    assert Words(p) + [] == Words(p);
  }

  /** Collapsing the whitespace after any prefix keeps the words. */
  lemma {:induction false} CollapseSpacesKeepsWords(p: string, t: string)
    ensures Words(p + CollapseSpaces(t)) == Words(p + t)
    decreases |t|
  {
    if t == [] {
    } else if IsSpace(t[0]) {
      var e := SpaceRunEnd(t, 0);
      var rest := t[e..];
      CollapseSpacesKeepsWords([], rest);
      assert [] + rest == rest && [] + CollapseSpaces(rest) == CollapseSpaces(rest);
      CollapseRunHead(p, t, e);
      SpaceRunSplit(p, t, e);
      WordsAroundSpaces(p, [' '], CollapseSpaces(rest));
      WordsAroundSpaces(p, t[..e], rest);
    } else {
      CollapseSpacesKeepsWords(p + [t[0]], t[1..]);
      CollapseCharSplits(p, t);
    }
  }

  /** A leading run of whitespace collapses to one space in front of the rest. */
  lemma CollapseRunHead(p: string, t: string, e: nat)
    requires t != [] && IsSpace(t[0]) && e == SpaceRunEnd(t, 0)
    ensures p + CollapseSpaces(t) == p + [' '] + CollapseSpaces(t[e..])
  {
    var x := CollapseSpaces(t[e..]);
    assert CollapseSpaces(t) == [' '] + x;
    AppendAssoc(p, [' '], x);
  }

  /** `t` is its leading run of whitespace followed by the rest. */
  lemma SpaceRunSplit(p: string, t: string, e: nat)
    requires t != [] && IsSpace(t[0]) && e == SpaceRunEnd(t, 0)
    ensures p + t == p + t[..e] + t[e..]
    ensures t[..e] != [] && AllSpace(t[..e])
  {
    assert t == t[..e] + t[e..];
    AppendAssoc(p, t[..e], t[e..]);
  }

  /** How `p + t` and `p + CollapseSpaces(t)` split after a leading non-whitespace character of `t`. */
  lemma CollapseCharSplits(p: string, t: string)
    requires t != [] && !IsSpace(t[0])
    ensures p + CollapseSpaces(t) == (p + [t[0]]) + CollapseSpaces(t[1..])
    ensures p + t == (p + [t[0]]) + t[1..]
  {
    var x := CollapseSpaces(t[1..]);
    assert CollapseSpaces(t) == [t[0]] + x;
    AppendAssoc(p, [t[0]], x);
    AppendAssoc(p, [t[0]], t[1..]);
    assert t == [t[0]] + t[1..];
  }

  /** Last index `p` in `[lo, hi)` with `s[p] == '\n'`. */
  function LastNewline(s: string, lo: nat, hi: nat): (p: Option<nat>)
    requires lo <= hi <= |s|
    ensures p.Some? ==> lo <= p.value < hi && s[p.value] == '\n'
    ensures p.None? ==> forall k :: lo <= k < hi ==> s[k] != '\n'
    decreases hi - lo
  {
    if lo == hi then None
    else if s[hi - 1] == '\n' then Some(hi - 1)
    else LastNewline(s, lo, hi - 1)
  }

  /**
   * `re.sub(r'\n\s*\n', '\n\n', s)`: the greedy `\s*` backs off to the last
   * newline of the whitespace run that follows a newline.
   */
  function CollapseBlankLines(s: string): string
    decreases |s|
  {
    if s == [] then []
    else if s[0] == '\n' then
      var e := SpaceRunEnd(s, 1);
      var p := LastNewline(s, 1, e);
      if p.Some? then "\n\n" + CollapseBlankLines(s[p.value + 1..])
      else [s[0]] + CollapseBlankLines(s[1..])
    else [s[0]] + CollapseBlankLines(s[1..])
  }

  /** The blank-line rule needs a newline to fire. */
  lemma {:induction false} CollapseBlankLinesNoNewline(s: string)
    requires forall i :: 0 <= i < |s| ==> s[i] != '\n'
    ensures CollapseBlankLines(s) == s
  {
    if s != [] {
      CollapseBlankLinesNoNewline(s[1..]);
    }
  }

  /** A slice of a string keeps both shape properties. */
  lemma SliceKeepsShape(s: string, a: nat, b: nat)
    requires a <= b <= |s|
    requires OnlyPlainSpaces(s) && NoSpaceRuns(s)
    ensures OnlyPlainSpaces(s[a..b]) && NoSpaceRuns(s[a..b])
  {
    assert forall i :: 0 <= i < b - a ==> s[a..b][i] == s[a + i];
  }

  /** Stripping keeps both shape properties, so the result has no newline. */
  lemma StripKeepsShape(s: string)
    requires OnlyPlainSpaces(s) && NoSpaceRuns(s)
    ensures OnlyPlainSpaces(Strip(s)) && NoSpaceRuns(Strip(s))
    ensures forall i :: 0 <= i < |Strip(s)| ==> Strip(s)[i] != '\n'
  {
    var r := Strip(s);
    SliceKeepsShape(s, LeadingSpaces(s), LeadingSpaces(s) + |r|);
    assert forall i :: 0 <= i < |r| ==> r[i] != '\n' by {
      forall i | 0 <= i < |r|
        ensures r[i] != '\n'
      {
        assert IsSpace('\n');
      }
    }
  }

  /**
   * `clean_text`: collapse whitespace, collapse blank lines, strip.  The
   * words are kept; the result is they joined by single spaces
   * (`CleanTextIsJoinedWords`).
   */
  function CleanText(s: string): (r: string)
    ensures Words(r) == Words(s)
    ensures OnlyPlainSpaces(r)
    ensures NoSpaceRuns(r)
    ensures forall i :: 0 <= i < |r| ==> r[i] != '\n'
    ensures IsStripped(r)
  {
    var collapsed := CollapseSpaces(s);
    CollapseBlankLinesNoNewline(collapsed);
    StripKeepsShape(collapsed);
    CollapseSpacesKeepsWords([], s);
    assert [] + collapsed == collapsed && [] + s == s;
    WordsOfStrip(collapsed);
    Strip(CollapseBlankLines(collapsed))
  }

  /** `w + sep + rest` for a non-empty rest. */
  lemma JoinCons(w: string, ws: seq<string>, sep: string)
    requires ws != []
    ensures Join([w] + ws, sep) == w + sep + Join(ws, sep)
  {
    assert ([w] + ws)[1..] == ws;
  }

  /** Words separated by single plain spaces, without outer spaces, are their own join. */
  lemma {:induction false} JoinWordsOfNormal(r: string)
    requires OnlyPlainSpaces(r) && NoSpaceRuns(r) && IsStripped(r)
    ensures Join(Words(r), " ") == r
    decreases |r|
  {
    if r != [] {
      var n := WordLength(r);
      if n == |r| {
        FirstWord(r);
        WordsOfSpaces(r[n..]);
        assert r[..n] == r;
      } else {
        assert r[n] == ' ' && n + 1 < |r|;
        SliceKeepsShape(r, n + 1, |r|);
        assert r[n + 1..|r|] == r[n + 1..];
        JoinWordsOfNormal(r[n + 1..]);
        JoinWordsStep(r, n);
      }
    }
  }

  /** The step of `JoinWordsOfNormal`: the first word, a space, and the rest. */
  lemma JoinWordsStep(r: string, n: nat)
    requires r != [] && !IsSpace(r[0]) && n == WordLength(r) && n + 1 < |r| && r[n] == ' '
    requires !IsSpace(r[n + 1])
    requires Join(Words(r[n + 1..]), " ") == r[n + 1..]
    ensures Join(Words(r), " ") == r
  {
    var r' := r[n + 1..];
    FirstWord(r);
    SpaceSplits(r, n);
    WordsAfterSpaces([r[n]], r');
    FirstWord(r');
    JoinCons(r[..n], Words(r'), " ");
  }

  /** A string around its space at `n`. */
  lemma SpaceSplits(r: string, n: nat)
    requires n < |r| && r[n] == ' '
    ensures r[n..] == [r[n]] + r[n + 1..] && r == r[..n] + " " + r[n + 1..]
  {
  }

  /** The cleaned text is the words of the input joined by single spaces. */
  lemma CleanTextIsJoinedWords(s: string)
    ensures CleanText(s) == Join(Words(s), " ")
  {
    JoinWordsOfNormal(CleanText(s));
  }

  /** Text with single plain spaces between words is its own collapse. */
  lemma {:induction false} CollapseSpacesFixpoint(s: string)
    requires OnlyPlainSpaces(s) && NoSpaceRuns(s)
    ensures CollapseSpaces(s) == s
  {
    if s != [] {
      SliceKeepsShape(s, 1, |s|);
      CollapseSpacesFixpoint(s[1..]);
      if IsSpace(s[0]) {
        assert SpaceRunEnd(s, 0) == 1 by {
          assert |s| > 1 ==> !IsSpace(s[1]);
        }
      }
    }
  }

  /** Cleaning is idempotent. */
  lemma CleanTextIdempotent(s: string)
    ensures CleanText(CleanText(s)) == CleanText(s)
  {
    var t := CleanText(s);
    CollapseSpacesFixpoint(t);
    CollapseBlankLinesNoNewline(t);
    StrippedIsFixpoint(t);
  }

  // ---------------------------------------------------------------------
  // get_preview and parse_document
  // ---------------------------------------------------------------------

  /** `get_preview`: the text itself when short enough, else its head and "...". */
  function GetPreview(text: string, maxLength: nat): (r: string)
    ensures |text| <= maxLength ==> r == text
    ensures |text| > maxLength ==> |r| == maxLength + 3
    ensures |text| > maxLength ==> r[..maxLength] == text[..maxLength] && r[maxLength..] == "..."
  {
    if |text| <= maxLength then text else text[..maxLength] + "..."
  }

  /**
   * Remove every '.' (`str.replace(".", "")`): the other characters are
   * kept, as many of each as before, in their order (`RemoveDotsAppend`).
   */
  function RemoveDots(s: string): (r: string)
    ensures forall i :: 0 <= i < |r| ==> r[i] != '.'
    ensures |r| <= |s|
    ensures multiset(r) == multiset(s)['.' := 0]
  {
    if s == [] then []
    else
      assert s == [s[0]] + s[1..];
      (if s[0] == '.' then [] else [s[0]]) + RemoveDots(s[1..])
  }

  /** Removing the dots works piece by piece, so the kept characters stay in order. */
  lemma {:induction false} RemoveDotsAppend(a: string, b: string)
    ensures RemoveDots(a + b) == RemoveDots(a) + RemoveDots(b)
  {
    if a != [] {
      var head := if a[0] == '.' then [] else [a[0]];
      assert (a + b)[0] == a[0] && (a + b)[1..] == a[1..] + b;
      RemoveDotsAppend(a[1..], b);
      AppendAssoc(head, RemoveDots(a[1..]), RemoveDots(b));
    } else {
      assert a + b == b;
    }
  }

  /** A string without dots is left as it is. */
  lemma {:induction false} RemoveDotsOfPlain(s: string)
    requires forall i :: 0 <= i < |s| ==> s[i] != '.'
    ensures RemoveDots(s) == s
  {
    if s != [] {
      RemoveDotsOfPlain(s[1..]);
      assert s == [s[0]] + s[1..];
    }
  }

  /** How a supported file type is read: md files go through the txt reader. */
  datatype Format = PlainText | Pdf

  /** The type normalisation and dispatch of `parse_document`. */
  function FormatOf(fileType: string): (r: Result<Format, Error>)
    ensures r.Success? <==> RemoveDots(Lower(fileType)) in {"txt", "md", "pdf"}
    ensures r.Success? ==> (r.value == Pdf <==> RemoveDots(Lower(fileType)) == "pdf")
    ensures r.Failure? ==> r.error == ValueError
  {
    var t := RemoveDots(Lower(fileType));
    if t == "txt" then Success(PlainText)
    else if t == "md" then Success(PlainText)
    else if t == "pdf" then Success(Pdf)
    else Failure(ValueError)
  }

  /**
   * `parse_document`: the reader for the normalised type is the only source
   * of text; an unsupported type fails before anything is read.
   */
  function ParseDocument(fileType: string, read: Format -> Result<string, Error>): (r: Result<string, Error>)
    ensures FormatOf(fileType).Failure? ==> r == Failure(ValueError)
    ensures FormatOf(fileType).Success? ==> r == read(FormatOf(fileType).value)
  {
    match FormatOf(fileType)
    case Failure(e) => Failure(e)
    case Success(f) => read(f)
  }

  // ---------------------------------------------------------------------
  // split_into_chunks
  // ---------------------------------------------------------------------

  function Max(a: int, b: int): int { if a >= b then a else b }
  function Min(a: int, b: int): int { if a <= b then a else b }
  function Dist(x: int, y: int): nat { if x >= y then x - y else y - x }

  predicate IsTerminator(c: char) {
    c == '.' || c == '!' || c == '?' || c == '\n'
  }

  /**
   * `m.end()` for every match of `[.!?\n]\s+` that `re.finditer` reports
   * in `s` when scanning from `i`; the `\s+` is greedy, and matching resumes
   * where the previous match ended.
   */
  function MatchEnds(s: string, i: nat): (ends: seq<int>)
    requires i <= |s|
    ensures forall k :: 0 <= k < |ends| ==> i + 2 <= ends[k] <= |s|
    ensures forall k, l :: 0 <= k < l < |ends| ==> ends[k] < ends[l]
    decreases |s| - i
  {
    if i + 1 >= |s| then []
    else if IsTerminator(s[i]) && IsSpace(s[i + 1]) then
      var e := SpaceRunEnd(s, i + 1);
      [e] + MatchEnds(s, e)
    else MatchEnds(s, i + 1)
  }

  /**
   * A match of `[.!?\n]\s+` starts at `p` and ends at `e`: a terminator,
   * then whitespace up to `e`, and no whitespace at `e`.
   */
  predicate EndsMatchAt(s: string, p: int, e: int) {
    && 0 <= p && p + 2 <= e <= |s|
    && IsTerminator(s[p]) && AllSpace(s[p + 1..e])
    && (e == |s| || !IsSpace(s[e]))
  }

  /**
   * The scan from `i` reports, each once and in increasing order, the end
   * of every match that starts at or after `i`.
   */
  lemma {:induction false} MatchEndsExact(s: string, i: nat)
    requires i <= |s|
    ensures forall e :: e in MatchEnds(s, i) <==> exists p :: i <= p && EndsMatchAt(s, p, e)
    decreases |s| - i
  {
    var ends := MatchEnds(s, i);
    if i + 1 >= |s| {
    } else if IsTerminator(s[i]) && IsSpace(s[i + 1]) {
      var end := SpaceRunEnd(s, i + 1);
      MatchEndsExact(s, end);
      assert EndsMatchAt(s, i, end);
      forall e, p | i <= p && EndsMatchAt(s, p, e)
        ensures e in ends
      {
        if p < end {
          MatchInsideRun(s, i, end, p, e);
        } else {
          assert e in MatchEnds(s, end);
        }
      }
    } else {
      MatchEndsExact(s, i + 1);
      forall e, p | i <= p && EndsMatchAt(s, p, e)
        ensures i + 1 <= p
      {
        // A match needs a terminator followed by whitespace where it starts, which `i` lacks.
        assert EndsMatchAt(s, p, e) ==> IsTerminator(s[p]) && IsSpace(s[p + 1]);
      }
    }
  }

  /** A match that starts inside the whitespace run after `i` ends where that run ends. */
  lemma MatchInsideRun(s: string, i: nat, end: nat, p: int, e: int)
    requires i + 1 < |s| && end == SpaceRunEnd(s, i + 1)
    requires i <= p < end && EndsMatchAt(s, p, e)
    ensures e == end
  {
    forall k | p + 1 <= k < e
      ensures IsSpace(s[k])
    {
      assert s[p + 1..e][k - (p + 1)] == s[k];
    }
  }

  /** The sentence ends in `searchText`, as positions of the whole text. */
  function SentenceEnds(searchText: string, searchStart: int): (ends: seq<int>)
    ensures |ends| == |MatchEnds(searchText, 0)|
    ensures forall k :: 0 <= k < |ends| ==> searchStart + 2 <= ends[k] <= searchStart + |searchText|
    ensures forall k, l :: 0 <= k < l < |ends| ==> ends[k] < ends[l]
  {
    var m := MatchEnds(searchText, 0);
    seq(|m|, k requires 0 <= k < |m| => m[k] + searchStart)
  }

  /** `e`, a position of the whole text, ends a match in the search text that starts at `start`. */
  ghost predicate IsSentenceEnd(searchText: string, start: int, e: int) {
    exists p :: EndsMatchShifted(searchText, start, p, e)
  }

  predicate EndsMatchShifted(searchText: string, start: int, p: int, e: int) {
    EndsMatchAt(searchText, p, e - start)
  }

  /**
   * The sentence ends are, in increasing order and each once, the ends of
   * all the matches in the search text, shifted to the whole text.
   */
  lemma SentenceEndsExact(searchText: string, searchStart: int)
    ensures var ends := SentenceEnds(searchText, searchStart);
      && (forall k, l :: 0 <= k < l < |ends| ==> ends[k] < ends[l])
      && (forall e :: e in ends <==> IsSentenceEnd(searchText, searchStart, e))
  {
    var ends := SentenceEnds(searchText, searchStart);
    var m := MatchEnds(searchText, 0);
    MatchEndsExact(searchText, 0);
    forall e | e in ends
      ensures IsSentenceEnd(searchText, searchStart, e)
    {
      var k :| 0 <= k < |ends| && ends[k] == e;
      assert m[k] in m;
      var p :| 0 <= p && EndsMatchAt(searchText, p, m[k]);
      assert EndsMatchShifted(searchText, searchStart, p, e);
    }
    forall e | IsSentenceEnd(searchText, searchStart, e)
      ensures e in ends
    {
      var p :| EndsMatchShifted(searchText, searchStart, p, e);
      assert 0 <= p && EndsMatchAt(searchText, p, e - searchStart);
      assert e - searchStart in m;
      var k :| 0 <= k < |m| && m[k] == e - searchStart;
      assert ends[k] == e;
    }
  }

  /** `min(xs, key=lambda x: abs(x - target))`: the first element of least distance. */
  function ClosestIndex(xs: seq<int>, target: int): (k: nat)
    requires |xs| > 0
    ensures k < |xs|
    ensures forall j :: 0 <= j < |xs| ==> Dist(xs[k], target) <= Dist(xs[j], target)
    ensures forall j :: 0 <= j < k ==> Dist(xs[j], target) > Dist(xs[k], target)
  {
    if |xs| == 1 then 0
    else
      var k := ClosestIndex(xs[1..], target) + 1;
      if Dist(xs[0], target) <= Dist(xs[k], target) then 0 else k
  }

  /** The sentence ends a non-final window starting at `start` may snap to. */
  function Candidates(text: string, start: int, end: int): (ends: seq<int>)
    requires 0 <= start < end < |text|
  {
    var searchStart := Max(start, end - SEARCH_RADIUS);
    SentenceEnds(text[searchStart..Min(end + SEARCH_RADIUS, |text|)], searchStart)
  }

  /** End of the window `[start, start + chunkSize)` after snapping to a sentence end. */
  function WindowEnd(text: string, start: int, chunkSize: int): (e: int)
    requires 0 <= start < |text| && chunkSize > 0
    ensures start < e < start + chunkSize + SEARCH_RADIUS
    ensures start + chunkSize < |text| ==> e <= |text|
    ensures start + chunkSize >= |text| ==> e == start + chunkSize
  {
    var end := start + chunkSize;
    if end < |text| then Snap(Candidates(text, start, end), end) else end
  }

  /** The target moved to the closest sentence end, when that one is near enough. */
  function Snap(ends: seq<int>, end: int): (e: int)
    ensures e == end || (e in ends && Dist(e, end) < SEARCH_RADIUS)
  {
    if ends == [] then end
    else
      var closest := ends[ClosestIndex(ends, end)];
      if Dist(closest, end) < SEARCH_RADIUS then closest else end
  }

  /** The raw windows, before stripping, from `start` to the end of `text`. */
  function RawWindows(text: string, start: int, chunkSize: int): seq<string>
    requires 0 <= start && chunkSize > 0
    decreases |text| - start
  {
    if start >= |text| then []
    else
      var e := WindowEnd(text, start, chunkSize);
      [text[start..Min(e, |text|)]] + RawWindows(text, e, chunkSize)
  }

  /** Strip every window and drop the ones that become empty. */
  function KeepStripped(ws: seq<string>): (cs: seq<string>)
    ensures |cs| <= |ws|
    ensures forall k :: 0 <= k < |cs| ==> cs[k] != [] && IsStripped(cs[k])
  {
    if ws == [] then []
    else
      var c := Strip(ws[0]);
      (if c != [] then [c] else []) + KeepStripped(ws[1..])
  }

  /** What `split_into_chunks` returns for a positive chunk size. */
  function Chunks(text: string, chunkSize: int): seq<string>
    requires chunkSize > 0
  {
    KeepStripped(RawWindows(text, 0, chunkSize))
  }

  /** One step of the chunking loop keeps "chunks so far + chunks of the rest" fixed. */
  lemma ChunkStep(text: string, start: int, chunkSize: int, chunks: seq<string>)
    requires 0 <= start < |text| && chunkSize > 0
    ensures var e := WindowEnd(text, start, chunkSize);
      var c := Strip(text[start..Min(e, |text|)]);
      (if c != [] then chunks + [c] else chunks) + KeepStripped(RawWindows(text, e, chunkSize))
        == chunks + KeepStripped(RawWindows(text, start, chunkSize))
  {
    var e := WindowEnd(text, start, chunkSize);
    var w := text[start..Min(e, |text|)];
    var rest := RawWindows(text, e, chunkSize);
    var c := Strip(w);
    var k := KeepStripped(rest);
    assert KeepStripped(RawWindows(text, start, chunkSize)) == (if c != [] then [c] else []) + k by {
      RawWindowsUnfold(text, start, chunkSize);
      KeepStrippedCons(w, rest);
    }
    KeepAppend(chunks, c, k);
  }

  /** Adding a kept chunk to the list so far, or nothing for an empty one. */
  lemma KeepAppend(chunks: seq<string>, c: string, k: seq<string>)
    ensures (if c != [] then chunks + [c] else chunks) + k == chunks + ((if c != [] then [c] else []) + k)
  {
    if c != [] {
      assert (chunks + [c]) + k == chunks + ([c] + k);
    } else {
      assert [] + k == k;
    }
  }

  /** `WindowEnd` spelled out; calling it keeps the loop body's proof small. */
  lemma WindowEndUnfold(text: string, start: int, chunkSize: int)
    requires 0 <= start < |text| && chunkSize > 0
    ensures WindowEnd(text, start, chunkSize)
         == if start + chunkSize < |text| then Snap(Candidates(text, start, start + chunkSize), start + chunkSize)
            else start + chunkSize
  {
  }

  /** `Snap` spelled out. */
  lemma SnapUnfold(ends: seq<int>, end: int)
    ensures Snap(ends, end)
         == if ends == [] then end
            else if Dist(ends[ClosestIndex(ends, end)], end) < SEARCH_RADIUS then ends[ClosestIndex(ends, end)]
            else end
  {
  }

  /** The end of the chunk starting at `start`, snapped to a nearby sentence end. */
  method NextChunkEnd(text: string, start: int, chunkSize: int) returns (end: int)
    requires 0 <= start < |text| && chunkSize > 0
    ensures end == WindowEnd(text, start, chunkSize)
  {
    end := start + chunkSize;
    if end < |text| {
      var searchStart := Max(start, end - SEARCH_RADIUS);
      var searchText := text[searchStart..Min(end + SEARCH_RADIUS, |text|)];
      var sentenceEnds := SentenceEnds(searchText, searchStart);
      assert sentenceEnds == Candidates(text, start, end);
      if sentenceEnds != [] {
        var closestEnd := sentenceEnds[ClosestIndex(sentenceEnds, end)];
        if Dist(closestEnd, end) < SEARCH_RADIUS {
          end := closestEnd;
        }
      }
      SnapUnfold(sentenceEnds, start + chunkSize);
    }
    WindowEndUnfold(text, start, chunkSize);
  }

  /**
   * `split_into_chunks`.  The overlap is subtracted and then immediately
   * undone by the guard, so the result does not depend on `chunkOverlap`.
   */
  method SplitIntoChunks(text: string, chunkSize: int, chunkOverlap: int) returns (chunks: seq<string>)
    requires chunkSize > 0
    ensures chunks == Chunks(text, chunkSize)
    ensures text == [] ==> chunks == []
  {
    if |text| == 0 {
      return [];
    }
    chunks := [];
    var start := 0;
    while start < |text|
      invariant 0 <= start
      invariant chunks + KeepStripped(RawWindows(text, start, chunkSize)) == Chunks(text, chunkSize)
      decreases |text| - start
    {
      var end := NextChunkEnd(text, start, chunkSize);
      var window := text[start..Min(end, |text|)];
      ChunkStep(text, start, chunkSize, chunks);
      var chunk := Strip(window);
      if chunk != [] {
        chunks := chunks + [chunk];
      }
      start := end - chunkOverlap;
      if end - chunkOverlap <= start {
        start := end;
      }
    }
  }

  function Concat(ws: seq<string>): string {
    if ws == [] then "" else ws[0] + Concat(ws[1..])
  }

  /** The raw windows tile the text: each starts where the previous one ended. */
  lemma {:induction false} RawWindowsPartition(text: string, start: int, chunkSize: int)
    requires 0 <= start <= |text| && chunkSize > 0
    ensures Concat(RawWindows(text, start, chunkSize)) == text[start..]
    decreases |text| - start
  {
    if start < |text| {
      var e := WindowEnd(text, start, chunkSize);
      var w, rest := text[start..Min(e, |text|)], RawWindows(text, e, chunkSize);
      RawWindowsUnfold(text, start, chunkSize);
      ConcatCons(w, rest);
      if e < |text| {
        RawWindowsPartition(text, e, chunkSize);
        assert text[start..] == text[start..e] + text[e..];
      } else {
        assert rest == [];
      }
    }
  }

  /** `KeepStripped` on a window followed by the rest. */
  lemma KeepStrippedCons(w: string, ws: seq<string>)
    ensures KeepStripped([w] + ws) == (if Strip(w) != [] then [Strip(w)] else []) + KeepStripped(ws)
  {
    assert ([w] + ws)[1..] == ws;
  }

  /** `RawWindows` spelled out for a start inside the text. */
  lemma RawWindowsUnfold(text: string, start: int, chunkSize: int)
    requires 0 <= start < |text| && chunkSize > 0
    ensures var e := WindowEnd(text, start, chunkSize);
      RawWindows(text, start, chunkSize) == [text[start..Min(e, |text|)]] + RawWindows(text, e, chunkSize)
  {
  }

  lemma ConcatCons(w: string, ws: seq<string>)
    ensures Concat([w] + ws) == w + Concat(ws)
  {
    assert ([w] + ws)[1..] == ws;
  }

  /** Every raw window is non-empty and shorter than `chunkSize + 100`. */
  lemma {:induction false} RawWindowsBounded(text: string, start: int, chunkSize: int)
    requires 0 <= start && chunkSize > 0
    ensures forall w :: w in RawWindows(text, start, chunkSize) ==> 0 < |w| < chunkSize + SEARCH_RADIUS
    decreases |text| - start
  {
    if start < |text| {
      RawWindowsBounded(text, WindowEnd(text, start, chunkSize), chunkSize);
    }
  }

  lemma SliceOfSlice(s: string, i: nat, j: nat, a: nat, b: nat)
    requires i <= j <= |s| && a <= b <= j - i
    ensures s[i..j][a..b] == s[i + a..i + b]
  {
    assert forall k :: 0 <= k < b - a ==> s[i..j][a..b][k] == s[i + a..i + b][k];
  }

  /** A stripped slice of the text occurs in the text and is no longer than the slice. */
  lemma StrippedSliceOccurs(text: string, i: nat, j: nat)
    requires i <= j <= |text|
    ensures IsSubstring(Strip(text[i..j]), text) && |Strip(text[i..j])| <= j - i
  {
    var w := text[i..j];
    var c := Strip(w);
    var a := LeadingSpaces(w);
    assert a + |c| <= |w| && c == w[a..a + |c|];
    SliceOfSlice(text, i, j, a, a + |c|);
    assert c == text[i + a..i + a + |c|];
    assert OccursAt(c, text, i + a);
  }

  /**
   * Every chunk is non-empty, has no surrounding whitespace, is shorter than
   * `chunkSize + 100` and occurs in the text.
   */
  lemma {:induction false} ChunksShape(text: string, start: int, chunkSize: int)
    requires 0 <= start && chunkSize > 0
    ensures forall c :: c in KeepStripped(RawWindows(text, start, chunkSize)) ==>
              c != [] && IsStripped(c) && |c| < chunkSize + SEARCH_RADIUS && IsSubstring(c, text)
    decreases |text| - start
  {
    if start < |text| {
      var e := WindowEnd(text, start, chunkSize);
      var c := Strip(text[start..Min(e, |text|)]);
      var rest := KeepStripped(RawWindows(text, e, chunkSize));
      ChunksShape(text, e, chunkSize);
      ChunkStep(text, start, chunkSize, []);
      StrippedSliceOccurs(text, start, Min(e, |text|));
      assert KeepStripped(RawWindows(text, start, chunkSize)) == (if c != [] then [c] else []) + rest;
    }
  }

  /** In an increasing sequence the first closest element beats or ties-and-precedes every other. */
  lemma FirstClosestIsEarliest(xs: seq<int>, target: int)
    requires |xs| > 0
    requires forall k, l :: 0 <= k < l < |xs| ==> xs[k] < xs[l]
    ensures var c := xs[ClosestIndex(xs, target)];
      forall x :: x in xs ==> Dist(c, target) < Dist(x, target) || (Dist(c, target) == Dist(x, target) && c <= x)
  {
    var k := ClosestIndex(xs, target);
    forall x | x in xs
      ensures Dist(xs[k], target) < Dist(x, target) || (Dist(xs[k], target) == Dist(x, target) && xs[k] <= x)
    {
      var j :| 0 <= j < |xs| && xs[j] == x;
      if j < k {
        assert Dist(xs[j], target) > Dist(xs[k], target);
      }
    }
  }

  /** When the closest element is 100 or more away, so is every element. */
  lemma NoneNear(xs: seq<int>, target: int)
    requires |xs| > 0 && Dist(xs[ClosestIndex(xs, target)], target) >= SEARCH_RADIUS
    ensures forall x :: x in xs ==> Dist(x, target) >= SEARCH_RADIUS
  {
    forall x | x in xs
      ensures Dist(x, target) >= SEARCH_RADIUS
    {
      var j :| 0 <= j < |xs| && xs[j] == x;
    }
  }

  /** `Snap` on increasing candidates: the nearest one within 100, the earliest on a tie, else the target. */
  lemma SnapChoice(ends: seq<int>, target: int)
    requires forall k, l :: 0 <= k < l < |ends| ==> ends[k] < ends[l]
    ensures Snap(ends, target) == target || (Snap(ends, target) in ends && Dist(Snap(ends, target), target) < SEARCH_RADIUS)
    ensures (exists x :: x in ends && Dist(x, target) < SEARCH_RADIUS) ==> Snap(ends, target) in ends
    ensures Snap(ends, target) in ends ==> forall x :: x in ends ==>
              Dist(Snap(ends, target), target) < Dist(x, target)
              || (Dist(Snap(ends, target), target) == Dist(x, target) && Snap(ends, target) <= x)
  {
    SnapUnfold(ends, target);
    if ends != [] {
      var k := ClosestIndex(ends, target);
      FirstClosestIsEarliest(ends, target);
      if Dist(ends[k], target) >= SEARCH_RADIUS {
        NoneNear(ends, target);
      }
    }
  }

  /**
   * The snapping rule: a window end moves only to a sentence end strictly
   * closer than 100 characters to the target; it moves whenever one exists,
   * to the nearest one, and to the earliest of two equally near ones.
   */
  lemma SnapRule(text: string, start: int, chunkSize: int)
    requires 0 <= start && chunkSize > 0 && start + chunkSize < |text|
    ensures var target, e, ends := start + chunkSize, WindowEnd(text, start, chunkSize), Candidates(text, start, start + chunkSize);
      && (e == target || (e in ends && Dist(e, target) < SEARCH_RADIUS))
      && ((exists x :: x in ends && Dist(x, target) < SEARCH_RADIUS) ==> e in ends)
      && (e in ends ==> forall x :: x in ends ==>
            Dist(e, target) < Dist(x, target) || (Dist(e, target) == Dist(x, target) && e <= x))
  {
    WindowEndUnfold(text, start, chunkSize);
    SnapChoice(Candidates(text, start, start + chunkSize), start + chunkSize);
  }

  // ---------------------------------------------------------------------
  // process_document
  // ---------------------------------------------------------------------

  datatype Processed = Processed(fullText: string, chunks: seq<string>, preview: string)

  /** What `process_document` produces for a file of the given type. */
  function ProcessedText(fileType: string, read: Format -> Result<string, Error>): Result<Processed, Error> {
    match ParseDocument(fileType, read)
    case Failure(e) => Failure(e)
    case Success(text) =>
      var clean := CleanText(text);
      Success(Processed(clean, Chunks(clean, Settings.CHUNK_SIZE), GetPreview(clean, PREVIEW_LENGTH)))
  }

  /** `process_document`: parse, clean, chunk with the configured sizes, preview. */
  method ProcessDocument(fileType: string, read: Format -> Result<string, Error>) returns (r: Result<Processed, Error>)
    ensures r == ProcessedText(fileType, read)
    ensures ParseDocument(fileType, read).Failure? ==> r == Failure(ParseDocument(fileType, read).error)
    ensures r.Success? ==> r.value.fullText == CleanText(ParseDocument(fileType, read).value)
    ensures r.Success? ==> r.value.chunks == Chunks(r.value.fullText, Settings.CHUNK_SIZE)
    ensures r.Success? ==> r.value.preview == GetPreview(r.value.fullText, PREVIEW_LENGTH)
  {
    var parsed := ParseDocument(fileType, read);
    if parsed.Failure? {
      return Failure(parsed.error);
    }
    var clean := CleanText(parsed.value);
    var chunks := SplitIntoChunks(clean, Settings.CHUNK_SIZE, Settings.CHUNK_OVERLAP);
    var preview := GetPreview(clean, PREVIEW_LENGTH);
    r := Success(Processed(clean, chunks, preview));
  }
}

=== FILE: postgres.dfy ===
/**
 * The document metadata table and its repository (app/db/postgres.py).
 * The table is a sequence of rows in id order; the database assigns ids
 * from a counter and timestamps come from the caller's clock.
 */
module MetadataStore {
  import opened Wrappers
  import opened Text
  import opened Sorting

  const STATUS_PROCESSING: string := "processing"
  const STATUS_COMPLETED: string := "completed"
  const STATUS_FAILED: string := "failed"
  /** What callers show for the filename and type of a document the table does not hold. */
  const UNKNOWN: string := "Unknown"

  /** One row of the `documents` table; `uploadDate` is a timestamp. */
  datatype Document = Document(
    id: int,
    filename: string,
    filePath: string,
    fileSize: int,
    fileType: string,
    uploadDate: int,
    numChunks: int,
    contentPreview: Option<string>,
    status: string)

  /** The dictionary `to_dict` builds; `uploadDate` is `None` for a missing date. */
  datatype DocumentDict = DocumentDict(
    id: int,
    filename: string,
    filePath: string,
    fileSize: int,
    fileType: string,
    uploadDate: Option<int>,
    numChunks: int,
    contentPreview: Option<string>,
    status: string)

  /** `to_dict`: every column copied; the upload date is always present in a stored row. */
  function ToDict(d: Document): (r: DocumentDict)
    ensures r.uploadDate == Some(d.uploadDate)
    ensures r.id == d.id && r.filename == d.filename && r.filePath == d.filePath && r.fileSize == d.fileSize
    ensures r.fileType == d.fileType && r.numChunks == d.numChunks
    ensures r.contentPreview == d.contentPreview && r.status == d.status
  {
    DocumentDict(d.id, d.filename, d.filePath, d.fileSize, d.fileType, Some(d.uploadDate),
                 d.numChunks, d.contentPreview, d.status)
  }

  /** The dictionary determines the row. */
  lemma ToDictInjective(a: Document, b: Document)
    requires ToDict(a) == ToDict(b)
    ensures a == b
  {
  }

  /** `ORDER BY upload_date DESC` as a key for the ascending stable sort. */
  function NewestKey(d: Document): real {
    -(d.uploadDate as real)
  }

  /** The rows newest first; rows with equal dates keep their table order. */
  function NewestFirst(docs: seq<Document>): (r: seq<Document>)
    ensures multiset(r) == multiset(docs)
    ensures forall i, j :: 0 <= i < j < |r| ==> r[i].uploadDate >= r[j].uploadDate
  {
    SortBySorted(docs, NewestKey);
    var r := SortBy(docs, NewestKey);
    assert forall i, j :: 0 <= i < j < |r| ==> NewestKey(r[i]) <= NewestKey(r[j]);
    r
  }

  /** Among rows with the same upload date (key `v`, the negated date), newest-first keeps the table order. */
  lemma NewestFirstKeepsTies(docs: seq<Document>, v: real)
    ensures WithKey(NewestFirst(docs), NewestKey, v) == WithKey(docs, NewestKey, v)
  {
    SortByStable(docs, NewestKey, v);
  }

  /** `OFFSET skip LIMIT limit`. */
  function Page(docs: seq<Document>, skip: nat, limit: nat): (r: seq<Document>)
    ensures |r| == if skip >= |docs| then 0 else if |docs| - skip <= limit then |docs| - skip else limit
    ensures forall i :: 0 <= i < |r| ==> r[i] == docs[skip + i]
  {
    if skip >= |docs| then []
    else if |docs| - skip <= limit then docs[skip..]
    else docs[skip..skip + limit]
  }

  /** `filename ILIKE '%query%'`, read as a case-insensitive substring test. */
  predicate MatchesFilename(query: string, filename: string) {
    IsSubstring(Lower(query), Lower(filename))
  }

  function Matching(docs: seq<Document>, query: string): (r: seq<Document>)
    ensures forall d :: d in r <==> d in docs && MatchesFilename(query, d.filename)
    ensures multiset(r) <= multiset(docs)
  {
    if docs == [] then []
    else
      assert docs == [docs[0]] + docs[1..];
      (if MatchesFilename(query, docs[0].filename) then [docs[0]] else []) + Matching(docs[1..], query)
  }

  /** The row with the given id, if there is one. */
  function Find(docs: seq<Document>, id: int): (r: Option<nat>)
    ensures r.Some? ==> r.value < |docs| && docs[r.value].id == id
    ensures r.None? ==> forall i :: 0 <= i < |docs| ==> docs[i].id != id
  {
    if docs == [] then None
    else if docs[|docs| - 1].id == id then Some(|docs| - 1)
    else Find(docs[..|docs| - 1], id)
  }

  /** The row with the given id, as `get_document` returns it. */
  function Lookup(docs: seq<Document>, id: int): (r: Option<Document>)
    ensures r.Some? ==> r.value in docs && r.value.id == id
    ensures r.None? ==> forall d :: d in docs ==> d.id != id
  {
    match Find(docs, id)
    case None => None
    case Some(k) => Some(docs[k])
  }

  /** The rows whose filename contains the query, newest first. */
  function SearchRows(docs: seq<Document>, query: string): (r: seq<Document>)
    ensures multiset(r) == multiset(Matching(docs, query))
    ensures forall d :: d in r <==> d in docs && MatchesFilename(query, d.filename)
    ensures multiset(r) <= multiset(docs)
    ensures forall i, j :: 0 <= i < j < |r| ==> r[i].uploadDate >= r[j].uploadDate
  {
    var m := Matching(docs, query);
    var r := NewestFirst(m);
    assert forall d :: d in r <==> d in multiset(m);
    r
  }

  /** The row after `update_document_status`: status set, chunk count set only when given. */
  function WithStatus(d: Document, status: string, numChunks: Option<int>): (u: Document)
    ensures u.status == status
    ensures u.numChunks == if numChunks.Some? then numChunks.value else d.numChunks
    ensures u.(status := d.status, numChunks := d.numChunks) == d
  {
    d.(status := status, numChunks := if numChunks.Some? then numChunks.value else d.numChunks)
  }

  class DocumentRepository {
    var rows: seq<Document>
    /** The next value of the primary-key sequence. */
    var nextId: int

    ghost predicate Valid()
      reads this
    {
      && 0 < nextId
      && (forall i :: 0 <= i < |rows| ==> 0 < rows[i].id < nextId)
      && (forall i, j :: 0 <= i < j < |rows| ==> rows[i].id < rows[j].id)
    }

    constructor ()
      ensures Valid()
      ensures rows == [] && nextId == 1
    {
      rows := [];
      nextId := 1;
    }

    /** `get_document`. */
    function GetDocument(id: int): (r: Option<Document>)
      reads this
      ensures r.Some? ==> r.value in rows && r.value.id == id
      ensures r.None? ==> forall d :: d in rows ==> d.id != id
    {
      Lookup(rows, id)
    }

    /** `create_document`: a fresh id, the caller's timestamp, no chunks yet, status "processing". */
    method CreateDocument(filename: string, filePath: string, fileSize: int, fileType: string,
                          contentPreview: Option<string>, now: int) returns (doc: Document)
      requires Valid()
      modifies this
      ensures Valid()
      ensures doc == Document(old(nextId), filename, filePath, fileSize, fileType, now, 0, contentPreview, STATUS_PROCESSING)
      ensures rows == old(rows) + [doc] && nextId == old(nextId) + 1
      ensures GetDocument(doc.id) == Some(doc)
    {
      doc := Document(nextId, filename, filePath, fileSize, fileType, now, 0, contentPreview, STATUS_PROCESSING);
      rows := rows + [doc];
      nextId := nextId + 1;
      assert Find(rows, doc.id) == Some(|rows| - 1);
    }

    /**
     * `update_document_status`: an unknown id changes nothing; otherwise only
     * that row's status, and its chunk count when one is given, change.
     */
    method UpdateDocumentStatus(id: int, status: string, numChunks: Option<int>) returns (r: Option<Document>)
      requires Valid()
      modifies this
      ensures Valid() && nextId == old(nextId) && |rows| == |old(rows)|
      ensures old(GetDocument(id)).None? ==> r.None? && rows == old(rows)
      ensures old(GetDocument(id)).Some? ==>
                r == Some(WithStatus(old(GetDocument(id)).value, status, numChunks))
                && GetDocument(id) == r
      ensures forall i :: 0 <= i < |rows| ==>
                rows[i] == if old(rows)[i].id == id then WithStatus(old(rows)[i], status, numChunks) else old(rows)[i]
    {
      var k := Find(rows, id);
      if k.None? {
        return None;
      }
      var updated := WithStatus(rows[k.value], status, numChunks);
      rows := rows[k.value := updated];
      r := Some(updated);
      assert Find(rows, id) == Some(k.value) by {
        assert forall i :: 0 <= i < |rows| && i != k.value ==> rows[i].id != id;
        FindUnique(rows, id, k.value);
      }
    }

    /** Setting `content_preview` on a row and committing. */
    method SetContentPreview(id: int, preview: string)
      requires Valid()
      modifies this
      ensures Valid() && nextId == old(nextId) && |rows| == |old(rows)|
      ensures forall i :: 0 <= i < |rows| ==>
                rows[i] == if old(rows)[i].id == id then old(rows)[i].(contentPreview := Some(preview)) else old(rows)[i]
    {
      var k := Find(rows, id);
      if k.Some? {
        rows := rows[k.value := rows[k.value].(contentPreview := Some(preview))];
      }
    }

    /** `delete_document`: true iff the id existed; every other row stays. */
    method DeleteDocument(id: int) returns (ok: bool)
      requires Valid()
      modifies this
      ensures Valid() && nextId == old(nextId)
      ensures ok <==> old(GetDocument(id)).Some?
      ensures GetDocument(id).None?
      ensures forall d :: d in rows <==> d in old(rows) && d.id != id
    {
      var k := Find(rows, id);
      if k.None? {
        return false;
      }
      RemoveAt(rows, k.value);
      rows := rows[..k.value] + rows[k.value + 1..];
      return true;
    }

    /** `get_all_documents`: newest first, then `skip` rows dropped and at most `limit` kept. */
    function GetAllDocuments(skip: nat, limit: nat): (r: seq<Document>)
      reads this
      ensures r == Page(NewestFirst(rows), skip, limit)
      ensures |r| <= limit
      ensures forall d :: d in r ==> d in rows
      ensures forall i, j :: 0 <= i < j < |r| ==> r[i].uploadDate >= r[j].uploadDate
    {
      var all := NewestFirst(rows);
      var r := Page(all, skip, limit);
      assert forall d :: d in r ==> d in all by {
        forall d | d in r ensures d in all {
          var i :| 0 <= i < |r| && r[i] == d;
          assert all[skip + i] == d;
        }
      }
      assert forall d :: d in all ==> d in multiset(rows);
      r
    }

    /** `search_documents`: exactly the rows whose filename contains the query, newest first. */
    function SearchDocuments(query: string): (r: seq<Document>)
      reads this
      ensures forall d :: d in r <==> d in rows && MatchesFilename(query, d.filename)
      ensures multiset(r) <= multiset(rows)
      ensures forall i, j :: 0 <= i < j < |r| ==> r[i].uploadDate >= r[j].uploadDate
    {
      SearchRows(rows, query)
    }
  }

  /** With increasing ids, an index holding the id is the one `Find` returns. */
  lemma FindUnique(docs: seq<Document>, id: int, k: nat)
    requires k < |docs| && docs[k].id == id
    requires forall i :: 0 <= i < |docs| && i != k ==> docs[i].id != id
    ensures Find(docs, id) == Some(k)
  {
  }

  /** Removing the row at `k` keeps every other row and, ids being increasing, no row with its id. */
  lemma RemoveAt(docs: seq<Document>, k: nat)
    requires k < |docs|
    requires forall i, j :: 0 <= i < j < |docs| ==> docs[i].id < docs[j].id
    ensures var r := docs[..k] + docs[k + 1..];
      && (forall d :: d in r <==> d in docs && d.id != docs[k].id)
      && (forall i, j :: 0 <= i < j < |r| ==> r[i].id < r[j].id)
  {
    var r := docs[..k] + docs[k + 1..];
    assert forall i :: 0 <= i < |r| ==> r[i] == if i < k then docs[i] else docs[i + 1];
    forall d
      ensures d in r <==> d in docs && d.id != docs[k].id
    {
      if d in docs && d.id != docs[k].id {
        var i :| 0 <= i < |docs| && docs[i] == d;
        if i < k { assert r[i] == d; } else { assert r[i - 1] == d; }
      }
    }
  }
}

=== FILE: qdrant.dfy ===
/**
 * The vector-store manager (app/db/qdrant.py) over an in-memory point
 * store.  The Qdrant client's nearest-neighbour search and scroll are
 * oracles whose answers are constrained by predicates; upsert and delete
 * act on the store directly.
 */
module VectorStore {
  import opened Wrappers
  import opened Errors
  import opened Sorting

  type Vector = seq<real>

  const BATCH_SIZE: nat := 100
  const SCROLL_LIMIT: nat := 1000

  /** The payload values this service stores: integers and strings. */
  datatype Value = IntV(i: int) | StrV(s: string)

  type Payload = map<string, Value>

  datatype PointStruct = PointStruct(id: string, vector: Vector, payload: Payload)

  /** The four keys `add_documents` writes, with the kinds of value it writes. */
  predicate WellTyped(p: Payload) {
    && "document_id" in p && p["document_id"].IntV?
    && "chunk_index" in p && p["chunk_index"].IntV?
    && "text" in p && p["text"].StrV?
    && "chunk_length" in p && p["chunk_length"].IntV?
  }

  /** Caller metadata that overrides a reserved key keeps that key's kind of value. */
  predicate MetadataTyped(m: Payload) {
    && ("document_id" in m ==> m["document_id"].IntV?)
    && ("chunk_index" in m ==> m["chunk_index"].IntV?)
    && ("text" in m ==> m["text"].StrV?)
    && ("chunk_length" in m ==> m["chunk_length"].IntV?)
  }

  predicate Overrides(metadata: Option<Payload>, key: string) {
    metadata.Some? && key in metadata.value
  }

  /** Every stored point sits under its own id and carries a typed payload. */
  ghost predicate StoreValid(store: map<string, PointStruct>) {
    forall id :: id in store ==> store[id].id == id && WellTyped(store[id].payload)
  }

  /** Qdrant's `MatchValue` filter on `document_id`. */
  predicate BelongsTo(p: PointStruct, documentId: int) {
    "document_id" in p.payload && p.payload["document_id"] == IntV(documentId)
  }

  /** The ids of the stored points of one document. */
  ghost function DocIds(store: map<string, PointStruct>, documentId: int): set<string> {
    set id | id in store && BelongsTo(store[id], documentId)
  }

  // ---------------------------------------------------------------------
  // add_documents
  // ---------------------------------------------------------------------

  /**
   * The payload of chunk `idx`: the four reserved entries, then the caller's
   * metadata merged over them (it wins on a shared key).
   */
  function ChunkPayload(documentId: int, idx: nat, chunk: string, metadata: Option<Payload>): (p: Payload)
    ensures forall k :: k in p <==> k in {"document_id", "chunk_index", "text", "chunk_length"} || Overrides(metadata, k)
    ensures forall k :: Overrides(metadata, k) ==> p[k] == metadata.value[k]
    ensures !Overrides(metadata, "document_id") ==> p["document_id"] == IntV(documentId)
    ensures !Overrides(metadata, "chunk_index") ==> p["chunk_index"] == IntV(idx)
    ensures !Overrides(metadata, "text") ==> p["text"] == StrV(chunk)
    ensures !Overrides(metadata, "chunk_length") ==> p["chunk_length"] == IntV(|chunk|)
    ensures metadata.None? || MetadataTyped(metadata.value) ==> WellTyped(p)
  {
    var base := map["document_id" := IntV(documentId), "chunk_index" := IntV(idx),
                    "text" := StrV(chunk), "chunk_length" := IntV(|chunk|)];
    if metadata.Some? && metadata.value != map[] then base + metadata.value else base
  }

  /** The points `add_documents` builds, one per chunk, with the caller-supplied fresh ids. */
  function BuildPoints(documentId: int, chunks: seq<string>, embeddings: seq<Vector>,
                       metadata: Option<Payload>, ids: seq<string>): (pts: seq<PointStruct>)
    requires |embeddings| == |chunks| == |ids|
  {
    seq(|chunks|, i requires 0 <= i < |chunks| =>
      PointStruct(ids[i], embeddings[i], ChunkPayload(documentId, i, chunks[i], metadata)))
  }

  /** The consecutive slices of at most `BATCH_SIZE` points, from position `i` on. */
  function Batches(pts: seq<PointStruct>, i: nat): seq<seq<PointStruct>>
    decreases |pts| - i
  {
    if i >= |pts| then []
    else [pts[i..if i + BATCH_SIZE <= |pts| then i + BATCH_SIZE else |pts|]] + Batches(pts, i + BATCH_SIZE)
  }

  function Concat(bs: seq<seq<PointStruct>>): seq<PointStruct> {
    if bs == [] then [] else bs[0] + Concat(bs[1..])
  }

  /** The batches are non-empty, hold at most 100 points, and cover the points in order. */
  lemma {:induction false} BatchesCover(pts: seq<PointStruct>, i: nat)
    requires i <= |pts|
    ensures Concat(Batches(pts, i)) == pts[i..]
    ensures forall k :: 0 <= k < |Batches(pts, i)| ==> 0 < |Batches(pts, i)[k]| <= BATCH_SIZE
    decreases |pts| - i
  {
    if i < |pts| {
      if i + BATCH_SIZE <= |pts| {
        BatchesCover(pts, i + BATCH_SIZE);
        assert pts[i..] == pts[i..i + BATCH_SIZE] + pts[i + BATCH_SIZE..];
      } else {
        assert Batches(pts, i + BATCH_SIZE) == [];
      }
    }
  }

  /** The store after upserting `batch`, point by point (a later point replaces an equal id). */
  function Upserted(store: map<string, PointStruct>, batch: seq<PointStruct>): map<string, PointStruct>
    decreases |batch|
  {
    if batch == [] then store else Upserted(store[batch[0].id := batch[0]], batch[1..])
  }

  lemma {:induction false} UpsertedAppend(store: map<string, PointStruct>, a: seq<PointStruct>, b: seq<PointStruct>)
    ensures Upserted(store, a + b) == Upserted(Upserted(store, a), b)
    decreases |a|
  {
    if a != [] {
      assert (a + b)[1..] == a[1..] + b;
      UpsertedAppend(store[a[0].id := a[0]], a[1..], b);
    } else {
      assert a + b == b;
    }
  }

  /** Upserting points that sit under their ids and carry typed payloads keeps the store valid. */
  lemma {:induction false} UpsertedValid(store: map<string, PointStruct>, batch: seq<PointStruct>)
    requires StoreValid(store)
    requires forall i :: 0 <= i < |batch| ==> WellTyped(batch[i].payload)
    ensures StoreValid(Upserted(store, batch))
    decreases |batch|
  {
    if batch != [] {
      UpsertedValid(store[batch[0].id := batch[0]], batch[1..]);
    }
  }

  function IdsOf(batch: seq<PointStruct>): set<string> {
    set i | 0 <= i < |batch| :: batch[i].id
  }

  predicate DistinctIds(batch: seq<PointStruct>) {
    forall i, j :: 0 <= i < j < |batch| ==> batch[i].id != batch[j].id
  }

  /** Upserting points with distinct ids adds exactly them and keeps every other point. */
  lemma {:induction false} UpsertedContents(store: map<string, PointStruct>, batch: seq<PointStruct>)
    requires DistinctIds(batch)
    ensures Upserted(store, batch).Keys == store.Keys + IdsOf(batch)
    ensures forall i :: 0 <= i < |batch| ==> Upserted(store, batch)[batch[i].id] == batch[i]
    ensures forall id :: id in store && id !in IdsOf(batch) ==> Upserted(store, batch)[id] == store[id]
    decreases |batch|
  {
    if batch != [] {
      var rest := batch[1..];
      UpsertedContents(store[batch[0].id := batch[0]], rest);
      assert IdsOf(batch) == {batch[0].id} + IdsOf(rest) by {
        forall id | id in IdsOf(batch) ensures id in {batch[0].id} + IdsOf(rest) {
          var i :| 0 <= i < |batch| && batch[i].id == id;
          if i > 0 { assert rest[i - 1].id == id; }
        }
      }
      assert batch[0].id !in IdsOf(rest);
      forall i | 0 <= i < |batch|
        ensures Upserted(store, batch)[batch[i].id] == batch[i]
      {
        if i > 0 { assert rest[i - 1] == batch[i]; }
      }
    }
  }

  lemma {:induction false} IdsOfBound(batch: seq<PointStruct>)
    ensures |IdsOf(batch)| <= |batch|
  {
    if batch != [] {
      var init := batch[..|batch| - 1];
      IdsOfBound(init);
      assert IdsOf(batch) == IdsOf(init) + {batch[|batch| - 1].id} by {
        forall id | id in IdsOf(batch) ensures id in IdsOf(init) + {batch[|batch| - 1].id} {
          var i :| 0 <= i < |batch| && batch[i].id == id;
          if i < |batch| - 1 { assert init[i].id == id; }
        }
      }
    }
  }

  // ---------------------------------------------------------------------
  // search_similar and get_document_chunks
  // ---------------------------------------------------------------------

  /** `payload.get(key)`. */
  function Get(p: Payload, key: string): Option<Value> {
    if key in p then Some(p[key]) else None
  }

  /** The document filter is built only when `document_id` is truthy. */
  function SearchFilter(documentId: Option<int>): (filter: Option<int>)
    ensures filter.Some? <==> documentId.Some? && documentId.value != 0
    ensures filter.Some? ==> filter.value == documentId.value
  {
    if documentId.Some? && documentId.value != 0 then documentId else None
  }

  datatype ScoredPoint = ScoredPoint(id: string, score: real, payload: Payload)

  /** What the client promises about a search answer: limit, threshold and filter respected. */
  predicate SearchAnswer(found: seq<ScoredPoint>, limit: int, filter: Option<int>, threshold: real) {
    && |found| <= limit
    && (forall i :: 0 <= i < |found| ==> WellTyped(found[i].payload))
    && (forall i :: 0 <= i < |found| ==> found[i].score >= threshold)
    && (forall i :: 0 <= i < |found| ==> filter.Some? ==> Get(found[i].payload, "document_id") == Some(IntV(filter.value)))
  }

  datatype SearchHit = SearchHit(id: string, score: real, text: Option<Value>, documentId: Option<Value>,
                                 chunkIndex: Option<Value>, metadata: Payload)

  predicate Reserved(k: string) {
    k == "text" || k == "document_id" || k == "chunk_index"
  }

  /** One result of `search_similar`. */
  function ToHit(sp: ScoredPoint): SearchHit {
    SearchHit(sp.id, sp.score, Get(sp.payload, "text"), Get(sp.payload, "document_id"),
              Get(sp.payload, "chunk_index"), map k | k in sp.payload && !Reserved(k) :: sp.payload[k])
  }

  /** The payload a hit describes: its three named fields and its metadata. */
  function HitPayload(h: SearchHit): Payload {
    var named := (if h.text.Some? then map["text" := h.text.value] else map[])
      + (if h.documentId.Some? then map["document_id" := h.documentId.value] else map[])
      + (if h.chunkIndex.Some? then map["chunk_index" := h.chunkIndex.value] else map[]);
    h.metadata + named
  }

  /** Reshaping loses nothing: the payload can be rebuilt from the hit, and metadata holds no named key. */
  lemma HitKeepsPayload(sp: ScoredPoint)
    ensures HitPayload(ToHit(sp)) == sp.payload
    ensures forall k :: k in ToHit(sp).metadata ==> !Reserved(k)
  {
    var h := ToHit(sp);
    assert HitPayload(h).Keys == sp.payload.Keys;
  }

  /** A hit whose named fields hold the kinds of value `add_documents` stores. */
  predicate TypedHit(h: SearchHit) {
    && h.text.Some? && h.text.value.StrV?
    && h.documentId.Some? && h.documentId.value.IntV?
    && h.chunkIndex.Some? && h.chunkIndex.value.IntV?
  }

  /** The hits `search_similar` makes of the client's answer, one per point, in order. */
  function Hits(found: seq<ScoredPoint>): (hits: seq<SearchHit>)
    requires forall i :: 0 <= i < |found| ==> WellTyped(found[i].payload)
    ensures |hits| == |found|
    ensures forall i :: 0 <= i < |hits| ==> hits[i] == ToHit(found[i]) && TypedHit(hits[i])
  {
    var hits := seq(|found|, i requires 0 <= i < |found| => ToHit(found[i]));
    assert forall i :: 0 <= i < |hits| ==> TypedHit(hits[i]) by {
      forall i | 0 <= i < |hits|
        ensures TypedHit(hits[i])
      {
        var p := found[i].payload;
        assert WellTyped(p);
        assert hits[i] == ToHit(found[i]);
        assert Get(p, "text") == Some(p["text"]);
        assert Get(p, "document_id") == Some(p["document_id"]);
        assert Get(p, "chunk_index") == Some(p["chunk_index"]);
      }
    }
    hits
  }

  datatype ChunkRecord = ChunkRecord(id: string, text: string, chunkIndex: int, chunkLength: int)

  function ToRecord(p: PointStruct): ChunkRecord
    requires WellTyped(p.payload)
  {
    ChunkRecord(p.id, p.payload["text"].s, p.payload["chunk_index"].i, p.payload["chunk_length"].i)
  }

  function Records(pts: seq<PointStruct>): (rs: seq<ChunkRecord>)
    requires forall i :: 0 <= i < |pts| ==> WellTyped(pts[i].payload)
    ensures |rs| == |pts|
  {
    seq(|pts|, i requires 0 <= i < |pts| => ToRecord(pts[i]))
  }

  function ChunkKey(r: ChunkRecord): real {
    r.chunkIndex as real
  }

  /**
   * What the client's scroll with `limit=1000` promises: at most 1000 distinct
   * stored points of the document, and all of them when there are no more
   * than 1000, in an order of its choosing.
   */
  ghost predicate ScrollAnswer(store: map<string, PointStruct>, documentId: int, scrolled: seq<PointStruct>) {
    && |scrolled| <= SCROLL_LIMIT
    && DistinctIds(scrolled)
    && (forall i :: 0 <= i < |scrolled| ==>
          && scrolled[i].id in store && store[scrolled[i].id] == scrolled[i]
          && BelongsTo(scrolled[i], documentId) && WellTyped(scrolled[i].payload))
    && (|DocIds(store, documentId)| <= SCROLL_LIMIT ==>
          forall id :: id in DocIds(store, documentId) ==> id in IdsOf(scrolled))
    && (|DocIds(store, documentId)| > SCROLL_LIMIT ==> |scrolled| == SCROLL_LIMIT)
  }

  /** The client rejects one of the batches `add_documents` sends for `n` points. */
  predicate Rejects(rejected: Option<nat>, n: nat) {
    rejected.Some? && rejected.value * BATCH_SIZE < n
  }

  /** Upserting the next slice extends the upserted prefix. */
  lemma UpsertStep(store: map<string, PointStruct>, pts: seq<PointStruct>, i: nat, hi: nat)
    requires i <= hi <= |pts|
    ensures Upserted(Upserted(store, pts[..i]), pts[i..hi]) == Upserted(store, pts[..hi])
  {
    UpsertedAppend(store, pts[..i], pts[i..hi]);
    assert pts[..i] + pts[i..hi] == pts[..hi];
  }

  /** Upserting a slice of well-typed points keeps the store valid. */
  lemma UpsertedSliceValid(store: map<string, PointStruct>, pts: seq<PointStruct>, i: nat, hi: nat)
    requires StoreValid(store)
    requires forall k :: 0 <= k < |pts| ==> WellTyped(pts[k].payload)
    requires i <= hi <= |pts|
    ensures StoreValid(Upserted(store, pts[i..hi]))
  {
    var batch := pts[i..hi];
    assert forall k :: 0 <= k < |batch| ==> batch[k] == pts[i + k];
    UpsertedValid(store, batch);
  }

  /** Sending the next batch moves it from the batches still to send to the batches sent. */
  lemma BatchesStep(sent: seq<seq<PointStruct>>, pts: seq<PointStruct>, i: nat)
    requires i < |pts|
    ensures var batch := pts[i..if i + BATCH_SIZE <= |pts| then i + BATCH_SIZE else |pts|];
      (sent + [batch]) + Batches(pts, i + BATCH_SIZE) == sent + Batches(pts, i)
  {
  }

  /** The point-building loop of `add_documents`. */
  method MakePoints(documentId: int, chunks: seq<string>, embeddings: seq<Vector>,
                    metadata: Option<Payload>, ids: seq<string>) returns (pts: seq<PointStruct>)
    requires |embeddings| == |chunks| == |ids|
    ensures pts == BuildPoints(documentId, chunks, embeddings, metadata, ids)
  {
    pts := [];
    for idx := 0 to |chunks|
      invariant |pts| == idx
      invariant forall i :: 0 <= i < idx ==>
                  pts[i] == PointStruct(ids[i], embeddings[i], ChunkPayload(documentId, i, chunks[i], metadata))
    {
      var payload := ChunkPayload(documentId, idx, chunks[idx], metadata);
      pts := pts + [PointStruct(ids[idx], embeddings[idx], payload)];
    }
  }

  class QdrantManager {
    var points: map<string, PointStruct>
    /** Every batch the client's `upsert` accepted, in order. */
    ghost var upserts: seq<seq<PointStruct>>

    ghost predicate Valid()
      reads this
    {
      StoreValid(points)
    }

    constructor ()
      ensures Valid()
      ensures points == map[] && upserts == []
    {
      points := map[];
      upserts := [];
    }

    /**
     * `add_documents`: rejects mismatched lengths before touching the store,
     * otherwise upserts one point per chunk in batches of 100 and reports the
     * number of chunks.  `ids` stands for the `uuid4` ids; `rejected` is the
     * number of the batch whose `upsert` raises, if any: the batches before
     * it stay stored and the error propagates.
     */
    method AddDocuments(documentId: int, chunks: seq<string>, embeddings: seq<Vector>,
                        metadata: Option<Payload>, ids: seq<string>, rejected: Option<nat>)
        returns (r: Result<nat, Error>)
      requires Valid()
      requires |ids| == |chunks|
      requires metadata.Some? ==> MetadataTyped(metadata.value)
      modifies this
      ensures Valid()
      ensures |chunks| != |embeddings| ==>
                r == Failure(ValueError) && points == old(points) && upserts == old(upserts)
      ensures |chunks| == |embeddings| && !Rejects(rejected, |chunks|) ==>
                var pts := BuildPoints(documentId, chunks, embeddings, metadata, ids);
                && r == Success(|chunks|)
                && points == Upserted(old(points), pts)
                && upserts == old(upserts) + Batches(pts, 0)
      ensures |chunks| == |embeddings| && Rejects(rejected, |chunks|) ==>
                var pts := BuildPoints(documentId, chunks, embeddings, metadata, ids);
                var sent := rejected.value * BATCH_SIZE;
                && r == Failure(UpstreamError)
                && points == Upserted(old(points), pts[..sent])
                && upserts + Batches(pts, sent) == old(upserts) + Batches(pts, 0)
    {
      if |chunks| != |embeddings| {
        return Failure(ValueError);
      }
      var pts := MakePoints(documentId, chunks, embeddings, metadata, ids);
      assert forall k :: 0 <= k < |pts| ==> WellTyped(pts[k].payload);
      r := SendBatches(pts, rejected);
    }

    /**
     * The upsert loop of `add_documents`: one `upsert` per slice of
     * `BATCH_SIZE` points, stopping at the batch numbered `rejected`.
     */
    method SendBatches(pts: seq<PointStruct>, rejected: Option<nat>) returns (r: Result<nat, Error>)
      requires Valid()
      requires forall k :: 0 <= k < |pts| ==> WellTyped(pts[k].payload)
      modifies this
      ensures Valid()
      ensures !Rejects(rejected, |pts|) ==>
                && r == Success(|pts|)
                && points == Upserted(old(points), pts)
                && upserts == old(upserts) + Batches(pts, 0)
      ensures Rejects(rejected, |pts|) ==>
                var sent := rejected.value * BATCH_SIZE;
                && r == Failure(UpstreamError)
                && points == Upserted(old(points), pts[..sent])
                && upserts + Batches(pts, sent) == old(upserts) + Batches(pts, 0)
    {
      var i := 0;
      var batchNo := 0;
      while i < |pts|
        invariant Valid()
        invariant i == batchNo * BATCH_SIZE
        invariant rejected.Some? ==> batchNo <= rejected.value
        invariant points == Upserted(old(points), pts[..if i <= |pts| then i else |pts|])
        invariant upserts + Batches(pts, i) == old(upserts) + Batches(pts, 0)
        decreases |pts| - i
      {
        if rejected == Some(batchNo) {
          return Failure(UpstreamError);
        }
        var hi := if i + BATCH_SIZE <= |pts| then i + BATCH_SIZE else |pts|;
        var batch := pts[i..hi];
        UpsertStep(old(points), pts, i, hi);
        UpsertedSliceValid(points, pts, i, hi);
        BatchesStep(upserts, pts, i);
        points := Upserted(points, batch);
        upserts := upserts + [batch];
        i := i + BATCH_SIZE;
        batchNo := batchNo + 1;
      }
      assert pts[..|pts|] == pts;
      r := Success(|pts|);
    }

    /**
     * `search_similar`: reshapes the client's answer without reordering,
     * dropping or adding anything.  `found` is what the client returned for
     * the filter `SearchFilter(documentId)`.
     */
    method SearchSimilar(limit: int, documentId: Option<int>, scoreThreshold: real, found: seq<ScoredPoint>)
        returns (results: seq<SearchHit>)
      requires SearchAnswer(found, limit, SearchFilter(documentId), scoreThreshold)
      ensures results == Hits(found) && |results| <= limit
      ensures forall i :: 0 <= i < |results| ==> results[i] == ToHit(found[i]) && TypedHit(results[i])
      ensures forall i :: 0 <= i < |results| ==> results[i].score >= scoreThreshold
      ensures forall i :: 0 <= i < |results| && documentId.Some? && documentId.value != 0 ==>
                results[i].documentId == Some(IntV(documentId.value))
    {
      results := [];
      for k := 0 to |found|
        invariant |results| == k
        invariant forall i :: 0 <= i < k ==> results[i] == ToHit(found[i])
      {
        var sp := found[k];
        var meta := map key | key in sp.payload && !Reserved(key) :: sp.payload[key];
        results := results + [SearchHit(sp.id, sp.score, Get(sp.payload, "text"), Get(sp.payload, "document_id"),
                                        Get(sp.payload, "chunk_index"), meta)];
      }
    }

    /** `delete_document`: removes the document's points; a client failure is reported as `false`. */
    method DeleteDocument(documentId: int, clientFails: bool) returns (ok: bool)
      requires Valid()
      modifies this
      ensures Valid()
      ensures ok == !clientFails
      ensures clientFails ==> points == old(points)
      ensures !clientFails ==>
                points == map id | id in old(points) && !BelongsTo(old(points)[id], documentId) :: old(points)[id]
      ensures !clientFails ==> DocIds(points, documentId) == {}
      ensures upserts == old(upserts)
    {
      if clientFails {
        return false;
      }
      points := map id | id in points && !BelongsTo(points[id], documentId) :: points[id];
      return true;
    }

    /**
     * `get_document_chunks`: the scrolled points as records, sorted by
     * `chunk_index` (stable, so equal indices keep the scroll order).
     */
    method GetDocumentChunks(documentId: int, scrolled: seq<PointStruct>) returns (chunks: seq<ChunkRecord>)
      requires Valid()
      requires ScrollAnswer(points, documentId, scrolled)
      ensures chunks == SortBy(Records(scrolled), ChunkKey)
      ensures |chunks| <= SCROLL_LIMIT
      ensures SortedBy(chunks, ChunkKey)
      ensures multiset(chunks) == multiset(Records(scrolled))
    {
      var records: seq<ChunkRecord> := [];
      for k := 0 to |scrolled|
        invariant records == Records(scrolled[..k])
      {
        var p := scrolled[k];
        records := records + [ChunkRecord(p.id, p.payload["text"].s, p.payload["chunk_index"].i,
                                          p.payload["chunk_length"].i)];
      }
      assert scrolled[..|scrolled|] == scrolled;
      chunks := SortBy(records, ChunkKey);
      SortBySorted(records, ChunkKey);
    }
  }

  // ---------------------------------------------------------------------
  // Round trip: add_documents, then get_document_chunks
  // ---------------------------------------------------------------------

  /** The records of the freshly added points, in chunk order. */
  lemma AddedRecords(documentId: int, chunks: seq<string>, embeddings: seq<Vector>,
                     metadata: Option<Payload>, ids: seq<string>)
    requires |embeddings| == |chunks| == |ids|
    requires metadata.None? || MetadataTyped(metadata.value)
    requires !Overrides(metadata, "chunk_index") && !Overrides(metadata, "text")
    ensures var pts := BuildPoints(documentId, chunks, embeddings, metadata, ids);
      && (forall i :: 0 <= i < |pts| ==> WellTyped(pts[i].payload))
      && (forall i :: 0 <= i < |pts| ==> ToRecord(pts[i]).text == chunks[i] && ToRecord(pts[i]).chunkIndex == i)
  {
  }

  /** After adding fresh points for a document that had none, its points are exactly the added ones. */
  lemma AddedDocIds(before: map<string, PointStruct>, documentId: int, pts: seq<PointStruct>)
    requires DistinctIds(pts)
    requires forall i :: 0 <= i < |pts| ==> BelongsTo(pts[i], documentId)
    requires DocIds(before, documentId) == {}
    ensures DocIds(Upserted(before, pts), documentId) == IdsOf(pts)
    ensures forall i :: 0 <= i < |pts| ==> pts[i].id in Upserted(before, pts) && Upserted(before, pts)[pts[i].id] == pts[i]
  {
    var after := Upserted(before, pts);
    UpsertedContents(before, pts);
    forall id | id in after
      ensures BelongsTo(after[id], documentId) <==> id in IdsOf(pts)
    {
      if id in IdsOf(pts) {
        var i :| 0 <= i < |pts| && pts[i].id == id;
        assert after[id] == pts[i];
      } else {
        assert id !in DocIds(before, documentId);
      }
    }
  }

  /** A complete scroll of exactly the added points yields exactly their records. */
  lemma ScrolledAreAdded(store: map<string, PointStruct>, documentId: int, pts: seq<PointStruct>,
                         scrolled: seq<PointStruct>)
    requires forall i :: 0 <= i < |pts| ==> WellTyped(pts[i].payload)
    requires DocIds(store, documentId) == IdsOf(pts)
    requires forall i :: 0 <= i < |pts| ==> pts[i].id in store && store[pts[i].id] == pts[i]
    requires |IdsOf(pts)| <= SCROLL_LIMIT
    requires ScrollAnswer(store, documentId, scrolled)
    ensures forall x :: x in Records(scrolled) <==> x in Records(pts)
  {
    var got, expected := Records(scrolled), Records(pts);
    forall x
      ensures x in got <==> x in expected
    {
      if x in got {
        var j :| 0 <= j < |got| && got[j] == x;
        assert scrolled[j].id in DocIds(store, documentId);
        var i :| 0 <= i < |pts| && pts[i].id == scrolled[j].id;
        assert expected[i] == x;
      }
      if x in expected {
        var i :| 0 <= i < |expected| && expected[i] == x;
        assert pts[i].id in IdsOf(scrolled);
        var j :| 0 <= j < |scrolled| && scrolled[j].id == pts[i].id;
        assert got[j] == x;
      }
    }
  }

  /** Sorting a permutation of records with distinct chunk indices 0, 1, ... restores that order. */
  lemma SortRestoresOrder(got: seq<ChunkRecord>, expected: seq<ChunkRecord>)
    requires forall i :: 0 <= i < |expected| ==> expected[i].chunkIndex == i
    requires multiset(got) == multiset(expected)
    ensures SortBy(got, ChunkKey) == expected
  {
    var out := SortBy(got, ChunkKey);
    SortBySorted(got, ChunkKey);
    assert StrictlySortedBy(expected, ChunkKey);
    SortedUnique(out, expected, ChunkKey);
  }

  /** Points with distinct ids give distinct records. */
  lemma RecordsDistinct(pts: seq<PointStruct>)
    requires forall i :: 0 <= i < |pts| ==> WellTyped(pts[i].payload)
    requires DistinctIds(pts)
    ensures Distinct(Records(pts))
  {
    var rs := Records(pts);
    forall a, b | 0 <= a < b < |rs| ensures rs[a] != rs[b] {
      assert rs[a].id == pts[a].id;
    }
  }

  /**
   * Storing chunks and reading them back gives the chunks in their original
   * order, when the ids are fresh and distinct, the document had no points,
   * there are at most 1000 chunks, and the metadata leaves `document_id`,
   * `chunk_index` and `text` alone.
   */
  lemma AddThenReadBack(before: map<string, PointStruct>, documentId: int, chunks: seq<string>,
                        embeddings: seq<Vector>, metadata: Option<Payload>, ids: seq<string>,
                        scrolled: seq<PointStruct>)
    requires StoreValid(before)
    requires |embeddings| == |chunks| == |ids| && |chunks| <= SCROLL_LIMIT
    requires forall i, j :: 0 <= i < j < |ids| ==> ids[i] != ids[j]
    requires forall i :: 0 <= i < |ids| ==> ids[i] !in before
    requires metadata.None? || MetadataTyped(metadata.value)
    requires !Overrides(metadata, "document_id") && !Overrides(metadata, "chunk_index") && !Overrides(metadata, "text")
    requires DocIds(before, documentId) == {}
    requires ScrollAnswer(Upserted(before, BuildPoints(documentId, chunks, embeddings, metadata, ids)), documentId, scrolled)
    ensures var out := SortBy(Records(scrolled), ChunkKey);
      && |out| == |chunks|
      && forall i :: 0 <= i < |chunks| ==> out[i].text == chunks[i] && out[i].chunkIndex == i && out[i].id == ids[i]
  {
    var pts := BuildPoints(documentId, chunks, embeddings, metadata, ids);
    ScrolledAfterAdd(before, documentId, chunks, embeddings, metadata, ids, scrolled);
    AddedRecordsInOrder(documentId, chunks, embeddings, metadata, ids);
    SortRestoresOrder(Records(scrolled), Records(pts));
  }

  /** The record sequence of the freshly added points lists the chunks in order, under their ids. */
  lemma AddedRecordsInOrder(documentId: int, chunks: seq<string>, embeddings: seq<Vector>,
                            metadata: Option<Payload>, ids: seq<string>)
    requires |embeddings| == |chunks| == |ids|
    requires metadata.None? || MetadataTyped(metadata.value)
    requires !Overrides(metadata, "chunk_index") && !Overrides(metadata, "text")
    ensures var pts := BuildPoints(documentId, chunks, embeddings, metadata, ids);
      && (forall i :: 0 <= i < |pts| ==> WellTyped(pts[i].payload))
      && var rs := Records(pts);
         && |rs| == |chunks|
         && forall i :: 0 <= i < |rs| ==> rs[i].text == chunks[i] && rs[i].chunkIndex == i && rs[i].id == ids[i]
  {
    AddedRecords(documentId, chunks, embeddings, metadata, ids);
  }

  /** What the scroll reads back after the add is the added points' records, in some order. */
  lemma ScrolledAfterAdd(before: map<string, PointStruct>, documentId: int, chunks: seq<string>,
                         embeddings: seq<Vector>, metadata: Option<Payload>, ids: seq<string>,
                         scrolled: seq<PointStruct>)
    requires StoreValid(before)
    requires |embeddings| == |chunks| == |ids| && |chunks| <= SCROLL_LIMIT
    requires forall i, j :: 0 <= i < j < |ids| ==> ids[i] != ids[j]
    requires forall i :: 0 <= i < |ids| ==> ids[i] !in before
    requires metadata.None? || MetadataTyped(metadata.value)
    requires !Overrides(metadata, "document_id") && !Overrides(metadata, "chunk_index") && !Overrides(metadata, "text")
    requires DocIds(before, documentId) == {}
    requires ScrollAnswer(Upserted(before, BuildPoints(documentId, chunks, embeddings, metadata, ids)), documentId, scrolled)
    ensures multiset(Records(scrolled)) == multiset(Records(BuildPoints(documentId, chunks, embeddings, metadata, ids)))
  {
    var pts := BuildPoints(documentId, chunks, embeddings, metadata, ids);
    AddedRecords(documentId, chunks, embeddings, metadata, ids);
    AddedDocIds(before, documentId, pts);
    IdsOfBound(pts);
    ScrolledAreAdded(Upserted(before, pts), documentId, pts, scrolled);
    RecordsDistinct(scrolled);
    RecordsDistinct(pts);
    DistinctSameElements(Records(scrolled), Records(pts));
  }
}

=== FILE: requests.dfy ===
/**
 * The request bodies of the answer endpoints (app/models/answer.py).  The
 * validation library fills in defaults for absent fields and rejects a
 * body whose fields break their bounds with a 422.  A body is given as
 * its fields, each `None` when the client left it out.
 */
module Requests {
  import opened Wrappers
  import opened Errors

  const HTTP_422_UNPROCESSABLE_ENTITY: int := 422

  const QUESTION_MIN_LENGTH: nat := 1
  const QUESTION_MAX_LENGTH: nat := 1000
  const DEFAULT_TOP_K: int := 5
  const TOP_K_MIN: int := 1
  const TOP_K_MAX: int := 20
  const DEFAULT_SCORE_THRESHOLD: real := 0.3
  const DEFAULT_USE_FALLBACK: bool := true
  const MAX_TOKENS_MIN: int := 100
  const MAX_TOKENS_MAX: int := 4000
  const DEFAULT_TEMPERATURE: real := 0.7
  const TEMPERATURE_MAX: real := 2.0
  const DEFAULT_MAX_LENGTH: int := 200
  const MAX_LENGTH_MIN: int := 50
  const MAX_LENGTH_MAX: int := 1000

  // ---------------------------------------------------------------------
  // QuestionRequest
  // ---------------------------------------------------------------------

  datatype QuestionRequest = QuestionRequest(
    question: string,
    documentId: Option<int>,
    topK: int,
    scoreThreshold: real,
    useFallback: bool,
    maxTokens: Option<int>,
    temperature: real)

  /** A question body as sent; `question` is required, the rest may be absent. */
  datatype QuestionFields = QuestionFields(
    question: string,
    documentId: Option<int>,
    topK: Option<int>,
    scoreThreshold: Option<real>,
    useFallback: Option<bool>,
    maxTokens: Option<int>,
    temperature: Option<real>)

  predicate ValidTopK(k: int) { TOP_K_MIN <= k <= TOP_K_MAX }
  predicate ValidThreshold(t: real) { 0.0 <= t <= 1.0 }
  predicate ValidMaxTokens(m: Option<int>) { m.Some? ==> MAX_TOKENS_MIN <= m.value <= MAX_TOKENS_MAX }
  predicate ValidTemperature(t: real) { 0.0 <= t <= TEMPERATURE_MAX }

  /** The field bounds of a question request. */
  predicate ValidQuestion(q: QuestionRequest) {
    && QUESTION_MIN_LENGTH <= |q.question| <= QUESTION_MAX_LENGTH
    && ValidTopK(q.topK)
    && ValidThreshold(q.scoreThreshold)
    && ValidMaxTokens(q.maxTokens)
    && ValidTemperature(q.temperature)
  }

  function Or<T>(o: Option<T>, default: T): T {
    if o.Some? then o.value else default
  }

  /**
   * Building a `QuestionRequest`: absent fields take their defaults; the
   * body is accepted iff every field lies within its bounds.
   */
  function ParseQuestion(f: QuestionFields): (r: Result<QuestionRequest, Error>)
    ensures r.Success? <==>
      && QUESTION_MIN_LENGTH <= |f.question| <= QUESTION_MAX_LENGTH
      && (f.topK.Some? ==> ValidTopK(f.topK.value))
      && (f.scoreThreshold.Some? ==> ValidThreshold(f.scoreThreshold.value))
      && ValidMaxTokens(f.maxTokens)
      && (f.temperature.Some? ==> ValidTemperature(f.temperature.value))
    ensures r.Failure? ==> r.error == HttpException(HTTP_422_UNPROCESSABLE_ENTITY)
    ensures r.Success? ==> ValidQuestion(r.value)
    ensures r.Success? ==>
      && r.value.question == f.question && r.value.documentId == f.documentId
      && r.value.topK == (if f.topK.Some? then f.topK.value else DEFAULT_TOP_K)
      && r.value.scoreThreshold == (if f.scoreThreshold.Some? then f.scoreThreshold.value else DEFAULT_SCORE_THRESHOLD)
      && r.value.useFallback == (if f.useFallback.Some? then f.useFallback.value else DEFAULT_USE_FALLBACK)
      && r.value.maxTokens == f.maxTokens
      && r.value.temperature == (if f.temperature.Some? then f.temperature.value else DEFAULT_TEMPERATURE)
  {
    var q := QuestionRequest(f.question, f.documentId, Or(f.topK, DEFAULT_TOP_K),
                             Or(f.scoreThreshold, DEFAULT_SCORE_THRESHOLD), Or(f.useFallback, DEFAULT_USE_FALLBACK),
                             f.maxTokens, Or(f.temperature, DEFAULT_TEMPERATURE));
    if ValidQuestion(q) then Success(q) else Failure(HttpException(HTTP_422_UNPROCESSABLE_ENTITY))
  }

  /** The body that spells out every field of a request. */
  function QuestionBody(q: QuestionRequest): QuestionFields {
    QuestionFields(q.question, q.documentId, Some(q.topK), Some(q.scoreThreshold), Some(q.useFallback),
                   q.maxTokens, Some(q.temperature))
  }

  /** A request survives being sent with all its fields iff it is valid. */
  lemma QuestionRoundTrip(q: QuestionRequest)
    ensures ParseQuestion(QuestionBody(q)) == (if ValidQuestion(q) then Success(q)
                                               else Failure(HttpException(HTTP_422_UNPROCESSABLE_ENTITY)))
  {
  }

  /** A body with only a question of acceptable length gets the documented defaults. */
  lemma QuestionDefaults(question: string)
    requires QUESTION_MIN_LENGTH <= |question| <= QUESTION_MAX_LENGTH
    ensures ParseQuestion(QuestionFields(question, None, None, None, None, None, None))
         == Success(QuestionRequest(question, None, 5, 0.3, true, None, 0.7))
  {
  }

  /** The empty question is refused whatever the other fields say. */
  lemma EmptyQuestionRefused(f: QuestionFields)
    requires f.question == []
    ensures ParseQuestion(f) == Failure(HttpException(HTTP_422_UNPROCESSABLE_ENTITY))
  {
  }

  // ---------------------------------------------------------------------
  // DocumentSummaryRequest
  // ---------------------------------------------------------------------

  datatype DocumentSummaryRequest = DocumentSummaryRequest(documentId: int, maxLength: int)

  predicate ValidSummary(s: DocumentSummaryRequest) {
    MAX_LENGTH_MIN <= s.maxLength <= MAX_LENGTH_MAX
  }

  /** Building a `DocumentSummaryRequest`: `max_length` defaults to 200 and must lie in [50, 1000]. */
  function ParseSummary(documentId: int, maxLength: Option<int>): (r: Result<DocumentSummaryRequest, Error>)
    ensures r.Success? <==> (maxLength.Some? ==> MAX_LENGTH_MIN <= maxLength.value <= MAX_LENGTH_MAX)
    ensures r.Failure? ==> r.error == HttpException(HTTP_422_UNPROCESSABLE_ENTITY)
    ensures r.Success? ==> ValidSummary(r.value) && r.value.documentId == documentId
    ensures r.Success? ==> r.value.maxLength == if maxLength.Some? then maxLength.value else DEFAULT_MAX_LENGTH
  {
    var s := DocumentSummaryRequest(documentId, Or(maxLength, DEFAULT_MAX_LENGTH));
    if ValidSummary(s) then Success(s) else Failure(HttpException(HTTP_422_UNPROCESSABLE_ENTITY))
  }

  /** A summary request survives being sent with its length spelled out iff it is valid. */
  lemma SummaryRoundTrip(s: DocumentSummaryRequest)
    ensures ParseSummary(s.documentId, Some(s.maxLength)) == (if ValidSummary(s) then Success(s)
                                                             else Failure(HttpException(HTTP_422_UNPROCESSABLE_ENTITY)))
  {
  }
}

=== FILE: retrieval.dfy ===
/**
 * `RetrievalService` (app/services/retrieval.py): vector search enriched
 * with the metadata table, and a keyword fallback over the metadata table
 * and the stored chunks.
 *
 * The collaborators are observed through an `Env` snapshot: the rows of
 * the metadata table, whether the database answers, and what
 * `get_document_chunks` returns for a document id (`None` when the vector
 * store raises).  The outcome of embedding the question and calling
 * `search_similar` is a parameter.
 */
module Retrieval {
  import opened Wrappers
  import opened Errors
  import opened Text
  import opened Sorting
  import opened VectorStore
  import opened MetadataStore

  /** The score given to a document found by filename. */
  const FILENAME_MATCH_SCORE: real := 0.5
  /** Separator between chunks in the full document text. */
  const CHUNK_SEPARATOR: string := "\n\n"

  /** The "document" dictionary attached to a retrieved chunk. */
  datatype DocInfo = DocInfo(id: int, filename: string, fileType: string, uploadDate: Option<int>)

  datatype Retrieved = Retrieved(text: string, score: real, chunkIndex: int, document: DocInfo)

  datatype Env = Env(rows: seq<Document>, dbUp: bool, chunksOf: int -> Option<seq<ChunkRecord>>)

  /** Python's slice `s[:k]`, including a negative `k`. */
  function Take<T>(s: seq<T>, k: int): (r: seq<T>)
    ensures |r| <= |s|
    ensures k >= 0 ==> |r| == Min(k, |s|)
    ensures k < 0 ==> |r| == Max(|s| + k, 0)
    ensures r == s[..|r|]
  {
    if k >= 0 then (if k <= |s| then s[..k] else s)
    else if |s| + k >= 0 then s[..|s| + k]
    else []
  }

  function Min(a: int, b: int): int { if a <= b then a else b }
  function Max(a: int, b: int): int { if a >= b then a else b }

  function OrEmpty<T>(r: Result<seq<T>, Error>): seq<T> {
    if r.Success? then r.value else []
  }

  // ---------------------------------------------------------------------
  // Enrichment of vector hits
  // ---------------------------------------------------------------------

  /** One hit with the metadata of its document, or "Unknown" when the row is missing. */
  function EnrichOne(h: SearchHit, rows: seq<Document>): (x: Retrieved)
    requires TypedHit(h)
    ensures x.text == h.text.value.s && x.score == h.score
    ensures x.chunkIndex == h.chunkIndex.value.i && x.document.id == h.documentId.value.i
    ensures Lookup(rows, x.document.id).None? ==>
      x.document.filename == UNKNOWN && x.document.fileType == UNKNOWN && x.document.uploadDate.None?
    ensures Lookup(rows, x.document.id).Some? ==>
      var d := Lookup(rows, x.document.id).value;
      d in rows && d.id == x.document.id &&
      x.document.filename == d.filename && x.document.fileType == d.fileType &&
      x.document.uploadDate == Some(d.uploadDate)
  {
    var id := h.documentId.value.i;
    var info := match Lookup(rows, id)
      case None => DocInfo(id, UNKNOWN, UNKNOWN, None)
      case Some(d) => DocInfo(id, d.filename, d.fileType, Some(d.uploadDate));
    Retrieved(h.text.value.s, h.score, h.chunkIndex.value.i, info)
  }

  /** `_enrich_results`: an empty hit list never touches the database. */
  function EnrichSpec(hits: seq<SearchHit>, env: Env): (r: Result<seq<Retrieved>, Error>)
    requires forall i :: 0 <= i < |hits| ==> TypedHit(hits[i])
    ensures hits == [] ==> r == Success([])
    ensures hits != [] ==> (r.Success? <==> env.dbUp)
    ensures r.Success? ==> |r.value| == |hits|
    ensures r.Success? ==> forall i :: 0 <= i < |hits| ==> r.value[i] == EnrichOne(hits[i], env.rows)
  {
    if hits == [] then Success([])
    else if !env.dbUp then Failure(UpstreamError)
    else Success(seq(|hits|, i requires 0 <= i < |hits| => EnrichOne(hits[i], env.rows)))
  }

  method Enrich(hits: seq<SearchHit>, env: Env) returns (r: Result<seq<Retrieved>, Error>)
    requires forall i :: 0 <= i < |hits| ==> TypedHit(hits[i])
    ensures r == EnrichSpec(hits, env)
  {
    if hits == [] {
      return Success([]);
    }
    if !env.dbUp {
      return Failure(UpstreamError);
    }
    var enriched: seq<Retrieved> := [];
    for i := 0 to |hits|
      invariant |enriched| == i
      invariant forall k :: 0 <= k < i ==> enriched[k] == EnrichOne(hits[k], env.rows)
    {
      enriched := enriched + [EnrichOne(hits[i], env.rows)];
    }
    assert enriched == seq(|hits|, i requires 0 <= i < |hits| => EnrichOne(hits[i], env.rows));
    return Success(enriched);
  }

  /**
   * `_vector_search`: the hits of the client's answer, enriched.  `found`
   * is the outcome of embedding the question and searching with limit
   * `top_k`, the document filter and the score threshold; a failure of
   * either propagates.
   */
  function VectorSpec(topK: int, documentId: Option<int>, threshold: real,
                      found: Result<seq<ScoredPoint>, Error>, env: Env): (r: Result<seq<Retrieved>, Error>)
    requires found.Success? ==> SearchAnswer(found.value, topK, SearchFilter(documentId), threshold)
    ensures found.Failure? ==> r == Failure(found.error)
    ensures found.Success? ==> r == EnrichSpec(Hits(found.value), env)
    ensures r.Success? ==> |r.value| <= topK
    ensures r.Success? ==> forall x :: x in r.value ==> x.score >= threshold
    ensures r.Success? && SearchFilter(documentId).Some? ==> forall x :: x in r.value ==> x.document.id == documentId.value
  {
    match found
    case Failure(e) => Failure(e)
    case Success(points) =>
      var hits := Hits(points);
      assert forall i :: 0 <= i < |hits| && SearchFilter(documentId).Some? ==>
        hits[i].documentId == Some(IntV(documentId.value));
      EnrichSpec(hits, env)
  }

  method VectorSearch(qdrant: QdrantManager, topK: int, documentId: Option<int>, threshold: real,
                      found: Result<seq<ScoredPoint>, Error>, env: Env)
    returns (r: Result<seq<Retrieved>, Error>)
    requires found.Success? ==> SearchAnswer(found.value, topK, SearchFilter(documentId), threshold)
    ensures r == VectorSpec(topK, documentId, threshold, found, env)
  {
    if found.Failure? {
      return Failure(found.error);
    }
    var results := qdrant.SearchSimilar(topK, documentId, threshold, found.value);
    r := Enrich(results, env);
  }

  // ---------------------------------------------------------------------
  // Keyword fallback restricted to one document
  // ---------------------------------------------------------------------

  /** The positions of the question words longer than two characters that occur in the chunk text. */
  ghost function MatchPositions(words: seq<string>, chunkText: string): set<nat> {
    set k: nat | k < |words| && |words[k]| > 2 && IsSubstring(words[k], chunkText)
  }

  /** How many question words longer than two characters occur in the chunk text, repeats counted. */
  function MatchCount(words: seq<string>, chunkText: string): (n: nat)
    ensures n <= |words|
    ensures n > 0 <==> exists w :: w in words && |w| > 2 && IsSubstring(w, chunkText)
  {
    if words == [] then 0
    else
      var init, w := words[..|words| - 1], words[|words| - 1];
      assert forall v :: v in words <==> v == w || v in init;
      MatchCount(init, chunkText) + (if |w| > 2 && IsSubstring(w, chunkText) then 1 else 0)
  }

  /** The count is the number of positions holding a matching word. */
  lemma {:induction false} MatchCountIsPositions(words: seq<string>, chunkText: string)
    ensures MatchCount(words, chunkText) == |MatchPositions(words, chunkText)|
  {
    if words == [] {
      assert MatchPositions(words, chunkText) == {};
    } else {
      var last := |words| - 1;
      MatchCountIsPositions(words[..last], chunkText);
      MatchPositionsSnoc(words, chunkText, last);
    }
  }

  /** The matching positions of a list are those of its front, plus its last one if that matches. */
  lemma MatchPositionsSnoc(words: seq<string>, chunkText: string, last: nat)
    requires last == |words| - 1
    ensures last !in MatchPositions(words[..last], chunkText)
    ensures MatchPositions(words, chunkText)
         == MatchPositions(words[..last], chunkText)
            + if |words[last]| > 2 && IsSubstring(words[last], chunkText) then {last} else {}
  {
    var init := words[..last];
    forall k: nat
      ensures k in MatchPositions(words, chunkText)
          <==> k in MatchPositions(init, chunkText)
                || (k == last && |words[last]| > 2 && IsSubstring(words[last], chunkText))
    {
      if k < last {
        assert init[k] == words[k];
      }
    }
  }

  /** `matching_words / len(words)` as a true division. */
  function Fraction(n: nat, m: nat): (f: real)
    requires 0 < n <= m
    ensures f == n as real / m as real
    ensures 0.0 < f <= 1.0
  {
    var f := n as real / m as real;
    assert f * (m as real) == n as real;
    assert f > 1.0 ==> f * (m as real) > m as real;
    f
  }

  /** A chunk in which some question word occurs. */
  predicate Relevant(words: seq<string>, c: ChunkRecord) {
    MatchCount(words, Lower(c.text)) > 0
  }

  predicate FromChunk(x: Retrieved, c: ChunkRecord) {
    x.text == c.text && x.chunkIndex == c.chunkIndex
  }

  /** The entry for a chunk in which `n > 0` question words occur. */
  function ScoreOne(words: seq<string>, c: ChunkRecord, documentId: int, doc: Document): (x: Retrieved)
    requires Relevant(words, c)
    ensures FromChunk(x, c) && 0.0 < x.score <= 1.0
    ensures x.score == MatchCount(words, Lower(c.text)) as real / |words| as real
    ensures x.document == DocInfo(documentId, doc.filename, doc.fileType, None)
  {
    var n := MatchCount(words, Lower(c.text));
    var f := Fraction(n, |words|);
    Retrieved(c.text, f, c.chunkIndex, DocInfo(documentId, doc.filename, doc.fileType, None))
  }

  /** The chunks with at least one matching word, scored by the fraction of question words that match. */
  function ScoreChunks(chunks: seq<ChunkRecord>, words: seq<string>, documentId: int, doc: Document): (r: seq<Retrieved>)
    ensures |r| <= |chunks|
    ensures forall x :: x in r ==> 0.0 < x.score <= 1.0
    ensures forall x :: x in r ==> |words| > 0 && x.score == MatchCount(words, Lower(x.text)) as real / |words| as real
    ensures forall x :: x in r ==> x.document == DocInfo(documentId, doc.filename, doc.fileType, None)
  {
    if chunks == [] then []
    else
      var init, c := chunks[..|chunks| - 1], chunks[|chunks| - 1];
      ScoreChunks(init, words, documentId, doc) + (if Relevant(words, c) then [ScoreOne(words, c, documentId, doc)] else [])
  }

  /** Every scored entry comes from a chunk in which a question word occurs. */
  lemma {:induction false} ScoreChunksSound(chunks: seq<ChunkRecord>, words: seq<string>, documentId: int, doc: Document)
    ensures forall x :: x in ScoreChunks(chunks, words, documentId, doc) ==>
      exists c :: c in chunks && FromChunk(x, c) && Relevant(words, c)
  {
    if chunks != [] {
      var init, c := chunks[..|chunks| - 1], chunks[|chunks| - 1];
      var ri := ScoreChunks(init, words, documentId, doc);
      ScoreChunksSound(init, words, documentId, doc);
      forall x | x in ScoreChunks(chunks, words, documentId, doc)
        ensures exists e :: e in chunks && FromChunk(x, e) && Relevant(words, e)
      {
        if x in ri {
          var e :| e in init && FromChunk(x, e) && Relevant(words, e);
          assert e in chunks;
        } else {
          assert c in chunks && FromChunk(x, c);
        }
      }
    }
  }

  /** Every chunk in which a question word occurs gets an entry. */
  lemma {:induction false} ScoreChunksComplete(chunks: seq<ChunkRecord>, words: seq<string>, documentId: int, doc: Document)
    ensures forall c :: c in chunks && Relevant(words, c) ==>
      exists x :: x in ScoreChunks(chunks, words, documentId, doc) && FromChunk(x, c)
  {
    if chunks != [] {
      var init, c := chunks[..|chunks| - 1], chunks[|chunks| - 1];
      var r := ScoreChunks(chunks, words, documentId, doc);
      var ri := ScoreChunks(init, words, documentId, doc);
      var tail := if Relevant(words, c) then [ScoreOne(words, c, documentId, doc)] else [];
      assert r == ri + tail;
      assert chunks == init + [c];
      ScoreChunksComplete(init, words, documentId, doc);
      forall e | e in chunks && Relevant(words, e)
        ensures exists x :: x in r && FromChunk(x, e)
      {
        if e in init {
          var x :| x in ri && FromChunk(x, e);
          assert x in ri + tail;
        } else {
          assert e == c;
          assert ScoreOne(words, c, documentId, doc) in ri + tail;
        }
      }
    }
  }

  function NegScore(x: Retrieved): real { -x.score }

  /** `matched.sort(key=score, reverse=True)` followed by `[:top_k]`. */
  function TopScored(matched: seq<Retrieved>, topK: int): seq<Retrieved> {
    Take(SortBy(matched, NegScore), topK)
  }

  /** The `if document_id:` branch of `_postgres_fallback`. */
  function ByDocumentSpec(question: string, topK: int, documentId: int, env: Env): (r: Result<seq<Retrieved>, Error>)
    ensures r.Failure? <==> !env.dbUp || (Lookup(env.rows, documentId).Some? && env.chunksOf(documentId).None?)
    ensures env.dbUp && Lookup(env.rows, documentId).None? ==> r == Success([])
  {
    if !env.dbUp then Failure(UpstreamError)
    else match Lookup(env.rows, documentId)
      case None => Success([])
      case Some(d) =>
        match env.chunksOf(documentId)
        case None => Failure(UpstreamError)
        case Some(chunks) =>
          var matched := ScoreChunks(Take(chunks, topK), Words(Lower(question)), documentId, d);
          Success(TopScored(matched, topK))
  }

  /** A document found by filename contributes its first chunk with the fixed score. */
  function FirstHit(doc: Document, c: ChunkRecord): Retrieved {
    Retrieved(c.text, FILENAME_MATCH_SCORE, 0, DocInfo(doc.id, doc.filename, doc.fileType, None))
  }

  /** Prefixes the successful outcome of the rest of a loop with what is already collected. */
  function Prepend<T>(acc: seq<T>, r: Result<seq<T>, Error>): Result<seq<T>, Error> {
    if r.Failure? then r else Success(acc + r.value)
  }

  /** The first chunk of every listed document that has chunks, in list order. */
  function FirstChunks(docs: seq<Document>, chunksOf: int -> Option<seq<ChunkRecord>>): (r: Result<seq<Retrieved>, Error>)
    ensures r.Failure? <==> exists d :: d in docs && chunksOf(d.id).None?
    ensures r.Success? ==> |r.value| <= |docs|
    ensures r.Success? ==> forall x :: x in r.value ==> x.score == FILENAME_MATCH_SCORE && x.chunkIndex == 0
  {
    if docs == [] then Success([])
    else
      assert forall e :: e in docs <==> e == docs[0] || e in docs[1..];
      match chunksOf(docs[0].id)
      case None => Failure(UpstreamError)
      case Some(cs) =>
        match FirstChunks(docs[1..], chunksOf)
        case Failure(e) => Failure(e)
        case Success(rest) => Success((if cs != [] then [FirstHit(docs[0], cs[0])] else []) + rest)
  }

  predicate HasChunks(d: Document, chunksOf: int -> Option<seq<ChunkRecord>>) {
    chunksOf(d.id).Some? && chunksOf(d.id).value != []
  }

  /** Exactly the listed documents that have chunks contribute, each with its first chunk. */
  lemma {:induction false} FirstChunksMembers(docs: seq<Document>, chunksOf: int -> Option<seq<ChunkRecord>>)
    requires FirstChunks(docs, chunksOf).Success?
    ensures var r := FirstChunks(docs, chunksOf).value;
      forall d :: d in docs && HasChunks(d, chunksOf) ==> FirstHit(d, chunksOf(d.id).value[0]) in r
    ensures var r := FirstChunks(docs, chunksOf).value;
      forall x :: x in r ==> exists d :: d in docs && HasChunks(d, chunksOf) && x == FirstHit(d, chunksOf(d.id).value[0])
  {
    if docs != [] {
      assert docs == [docs[0]] + docs[1..];
      FirstChunksMembers(docs[1..], chunksOf);
    }
  }

  /** The `else` branch of `_postgres_fallback`: documents whose filename contains the question. */
  function FilenameSpec(question: string, topK: int, env: Env): (r: Result<seq<Retrieved>, Error>)
    ensures !env.dbUp ==> r.Failure?
  {
    if !env.dbUp then Failure(UpstreamError)
    else FirstChunks(Take(SearchRows(env.rows, question), topK), env.chunksOf)
  }

  /** `_postgres_fallback`: `if document_id:` treats 0 like no document. */
  function FallbackSpec(question: string, topK: int, documentId: Option<int>, env: Env): Result<seq<Retrieved>, Error> {
    if documentId.Some? && documentId.value != 0 then ByDocumentSpec(question, topK, documentId.value, env)
    else FilenameSpec(question, topK, env)
  }

  /** The scoring loop over the first `top_k` chunks. */
  method MatchChunks(window: seq<ChunkRecord>, question: string, documentId: int, doc: Document)
    returns (matched: seq<Retrieved>)
    ensures matched == ScoreChunks(window, Words(Lower(question)), documentId, doc)
  {
    var questionLower := Lower(question);
    var words := Words(questionLower);
    matched := [];
    for i := 0 to |window|
      invariant matched == ScoreChunks(window[..i], words, documentId, doc)
    {
      var chunk := window[i];
      var matchingWords := MatchCount(words, Lower(chunk.text));
      assert window[..i + 1][..i] == window[..i];
      if matchingWords > 0 {
        matched := matched + [Retrieved(chunk.text, Fraction(matchingWords, |words|), chunk.chunkIndex,
                                        DocInfo(documentId, doc.filename, doc.fileType, None))];
        assert matched[|matched| - 1] == ScoreOne(words, chunk, documentId, doc);
      }
    }
    assert window[..|window|] == window;
  }

  /** The loop over the documents found by filename. */
  method CollectFirstChunks(docs: seq<Document>, chunksOf: int -> Option<seq<ChunkRecord>>)
    returns (r: Result<seq<Retrieved>, Error>)
    ensures r == FirstChunks(docs, chunksOf)
  {
    var results: seq<Retrieved> := [];
    assert docs[0..] == docs;
    if FirstChunks(docs, chunksOf).Success? {
      assert [] + FirstChunks(docs, chunksOf).value == FirstChunks(docs, chunksOf).value;
    }
    for i := 0 to |docs|
      invariant Prepend(results, FirstChunks(docs[i..], chunksOf)) == FirstChunks(docs, chunksOf)
    {
      var doc := docs[i];
      assert docs[i..][1..] == docs[i + 1..];
      var chunks := chunksOf(doc.id);
      if chunks.None? {
        return Failure(UpstreamError);
      }
      if chunks.value != [] {
        var next := results + [FirstHit(doc, chunks.value[0])];
        if FirstChunks(docs[i + 1..], chunksOf).Success? {
          assert next + FirstChunks(docs[i + 1..], chunksOf).value
              == results + ([FirstHit(doc, chunks.value[0])] + FirstChunks(docs[i + 1..], chunksOf).value);
        }
        results := next;
      } else if FirstChunks(docs[i + 1..], chunksOf).Success? {
        assert [] + FirstChunks(docs[i + 1..], chunksOf).value == FirstChunks(docs[i + 1..], chunksOf).value;
      }
    }
    assert docs[|docs|..] == [];
    assert results + [] == results;
    return Success(results);
  }

  method PostgresFallback(question: string, topK: int, documentId: Option<int>, env: Env)
    returns (r: Result<seq<Retrieved>, Error>)
    ensures r == FallbackSpec(question, topK, documentId, env)
  {
    if !env.dbUp {
      return Failure(UpstreamError);
    }
    if documentId.Some? && documentId.value != 0 {
      var document := Lookup(env.rows, documentId.value);
      if document.None? {
        return Success([]);
      }
      var chunks := env.chunksOf(documentId.value);
      if chunks.None? {
        return Failure(UpstreamError);
      }
      var matched := MatchChunks(Take(chunks.value, topK), question, documentId.value, document.value);
      var sorted := SortBy(matched, NegScore);
      return Success(Take(sorted, topK));
    } else {
      var documents := SearchRows(env.rows, question);
      r := CollectFirstChunks(Take(documents, topK), env.chunksOf);
    }
  }

  // ---------------------------------------------------------------------
  // retrieve_context
  // ---------------------------------------------------------------------

  /** The chunks `retrieve_context` returns, case by case. */
  function RetrieveSpec(question: string, topK: int, threshold: real, documentId: Option<int>, useFallback: bool,
                        found: Result<seq<ScoredPoint>, Error>, inTry: Env, inExcept: Env): seq<Retrieved>
    requires found.Success? ==> SearchAnswer(found.value, topK, SearchFilter(documentId), threshold)
  {
    var v := VectorSpec(topK, documentId, threshold, found, inTry);
    if v.Success? && v.value != [] then v.value
    else if !useFallback then OrEmpty(v)
    else if v.Success? && FallbackSpec(question, topK, documentId, inTry).Success? then
      FallbackSpec(question, topK, documentId, inTry).value
    else OrEmpty(FallbackSpec(question, topK, documentId, inExcept))
  }

  /**
   * `retrieve_context`.  `found` is the outcome of embedding the question
   * and asking the client for the closest points; `inTry` is what the
   * collaborators show to the `try` block, `inExcept` what they show to
   * the fallback in the `except` block; `fallbacks` records the snapshots
   * the fallback ran on.  It never fails.
   */
  method RetrieveContext(qdrant: QdrantManager, question: string, topK: int, threshold: real,
                         documentId: Option<int>, useFallback: bool,
                         found: Result<seq<ScoredPoint>, Error>, inTry: Env, inExcept: Env)
    returns (results: seq<Retrieved>, ghost fallbacks: seq<Env>)
    requires found.Success? ==> SearchAnswer(found.value, topK, SearchFilter(documentId), threshold)
    ensures results == RetrieveSpec(question, topK, threshold, documentId, useFallback, found, inTry, inExcept)
    ensures var v := VectorSpec(topK, documentId, threshold, found, inTry);
      v.Success? && v.value != [] ==> results == v.value && fallbacks == []
    ensures var v := VectorSpec(topK, documentId, threshold, found, inTry);
      !useFallback ==> results == OrEmpty(v) && fallbacks == []
    ensures var v := VectorSpec(topK, documentId, threshold, found, inTry);
      var f := FallbackSpec(question, topK, documentId, inTry);
      useFallback && v == Success([]) && f.Success? ==> results == f.value && fallbacks == [inTry]
    ensures var v := VectorSpec(topK, documentId, threshold, found, inTry);
      var f := FallbackSpec(question, topK, documentId, inTry);
      useFallback && v == Success([]) && f.Failure? ==>
        results == OrEmpty(FallbackSpec(question, topK, documentId, inExcept)) && fallbacks == [inTry, inExcept]
    ensures var v := VectorSpec(topK, documentId, threshold, found, inTry);
      useFallback && v.Failure? ==>
        results == OrEmpty(FallbackSpec(question, topK, documentId, inExcept)) && fallbacks == [inExcept]
  {
    fallbacks := [];
    var v := VectorSearch(qdrant, topK, documentId, threshold, found, inTry);
    var failed := v.Failure?;
    if !failed {
      results := v.value;
      if results == [] && useFallback {
        fallbacks := fallbacks + [inTry];
        var f := PostgresFallback(question, topK, documentId, inTry);
        if f.Success? {
          return f.value, fallbacks;
        }
        failed := true;
      } else {
        return results, fallbacks;
      }
    }
    // The except block.
    if useFallback {
      fallbacks := fallbacks + [inExcept];
      var f := PostgresFallback(question, topK, documentId, inExcept);
      results := OrEmpty(f);
    } else {
      results := [];
    }
  }

  // ---------------------------------------------------------------------
  // Properties of the fallback
  // ---------------------------------------------------------------------

  /**
   * The best `top_k` of the scored chunks: as many as there are, up to
   * `top_k`; best score first; drawn from the scored chunks; none left
   * out scores higher than one kept; and equal scores keep their order.
   */
  lemma RankedPrefix(matched: seq<Retrieved>, topK: int)
    ensures topK >= 0 ==> |TopScored(matched, topK)| == Min(topK, |matched|)
    ensures var r := TopScored(matched, topK);
      forall i, j :: 0 <= i < j < |r| ==> r[i].score >= r[j].score
    ensures multiset(TopScored(matched, topK)) <= multiset(matched)
    ensures var r := TopScored(matched, topK);
      forall x, y :: x in r && y in multiset(matched) - multiset(r) ==> y.score <= x.score
    ensures forall v :: WithKey(TopScored(matched, topK), NegScore, v) <= WithKey(matched, NegScore, v)
  {
    var r := Take(SortBy(matched, NegScore), topK);
    PrefixOfRanked(matched, |r|);
    forall v ensures WithKey(r, NegScore, v) <= WithKey(matched, NegScore, v) {
      RankedPrefixStable(matched, |r|, v);
    }
  }

  /** A prefix of the ranking keeps its order, and nothing left out of it scores higher. */
  lemma PrefixOfRanked(matched: seq<Retrieved>, n: nat)
    requires n <= |matched|
    ensures var r := SortBy(matched, NegScore)[..n];
      forall i, j :: 0 <= i < j < n ==> r[i].score >= r[j].score
    ensures multiset(SortBy(matched, NegScore)[..n]) <= multiset(matched)
    ensures var r := SortBy(matched, NegScore)[..n];
      forall x, y :: x in r && y in multiset(matched) - multiset(r) ==> y.score <= x.score
  {
    var sorted := SortBy(matched, NegScore);
    MultisetCut(sorted, n);
    RankedOrder(sorted, n) by { SortBySorted(matched, NegScore); }
  }

  /** Cutting a list at `n`: what the prefix leaves out is exactly what follows the cut. */
  lemma MultisetCut<T>(s: seq<T>, n: nat)
    requires n <= |s|
    ensures multiset(s[..n]) <= multiset(s)
    ensures multiset(s) - multiset(s[..n]) == multiset(s[n..])
  {
    assert s == s[..n] + s[n..];
  }

  /** In a list ranked best first, the first `n` keep that order and score at least as much as the rest. */
  lemma RankedOrder(sorted: seq<Retrieved>, n: nat)
    requires n <= |sorted| && SortedBy(sorted, NegScore)
    ensures forall i, j :: 0 <= i < j < n ==> sorted[..n][i].score >= sorted[..n][j].score
    ensures forall x, y :: x in sorted[..n] && y in multiset(sorted[n..]) ==> y.score <= x.score
  {
    forall x: Retrieved, y: Retrieved | x in sorted[..n] && y in multiset(sorted[n..])
      ensures y.score <= x.score
    {
      var i :| 0 <= i < n && sorted[i] == x;
      var j :| n <= j < |sorted| && sorted[j] == y;
      assert NegScore(sorted[i]) <= NegScore(sorted[j]);
    }
  }

  /** Among entries of equal score, a prefix of the ranking keeps their original order. */
  lemma RankedPrefixStable(matched: seq<Retrieved>, n: nat, v: real)
    requires n <= |matched|
    ensures WithKey(SortBy(matched, NegScore)[..n], NegScore, v) <= WithKey(matched, NegScore, v)
  {
    var sorted := SortBy(matched, NegScore);
    assert sorted == sorted[..n] + sorted[n..];
    SortByStable(matched, NegScore, v);
    WithKeyAppend(sorted[..n], sorted[n..], NegScore, v);
  }

  /** Scoring a list chunk by chunk: the entries keep the order of their chunks. */
  lemma {:induction false} ScoreChunksAppend(a: seq<ChunkRecord>, b: seq<ChunkRecord>, words: seq<string>,
                                             documentId: int, doc: Document)
    ensures ScoreChunks(a + b, words, documentId, doc)
         == ScoreChunks(a, words, documentId, doc) + ScoreChunks(b, words, documentId, doc)
    decreases |b|
  {
    if b == [] {
      assert a + b == a;
    } else {
      var init, c := b[..|b| - 1], b[|b| - 1];
      var tail := if Relevant(words, c) then [ScoreOne(words, c, documentId, doc)] else [];
      assert (a + b)[..|a + b| - 1] == a + init && (a + b)[|a + b| - 1] == c;
      ScoreChunksAppend(a, init, words, documentId, doc);
      AppendAssoc(ScoreChunks(a, words, documentId, doc), ScoreChunks(init, words, documentId, doc), tail);
    }
  }

  /**
   * The by-document fallback, for a known document: the best `top_k` of
   * the scored chunks among its first `top_k` stored chunks, each
   * labelled with the document, scored by the fraction of question words
   * it contains, and taken from a chunk where a question word occurs.
   */
  lemma ByDocumentResults(question: string, topK: int, documentId: int, env: Env, d: Document,
                          chunks: seq<ChunkRecord>)
    requires env.dbUp && Lookup(env.rows, documentId) == Some(d) && env.chunksOf(documentId) == Some(chunks)
    ensures ByDocumentSpec(question, topK, documentId, env)
         == Success(TopScored(ScoreChunks(Take(chunks, topK), Words(Lower(question)), documentId, d), topK))
    ensures var r := ByDocumentSpec(question, topK, documentId, env).value;
      forall x :: x in r ==> x.document == DocInfo(documentId, d.filename, d.fileType, None)
    ensures var r := ByDocumentSpec(question, topK, documentId, env).value;
      var words := Words(Lower(question));
      forall x :: x in r ==> |words| > 0 && x.score == MatchCount(words, Lower(x.text)) as real / |words| as real
    ensures var r := ByDocumentSpec(question, topK, documentId, env).value;
      var words := Words(Lower(question));
      forall x :: x in r ==> exists c :: c in Take(chunks, topK) && FromChunk(x, c) && Relevant(words, c)
  {
    var window := Take(chunks, topK);
    var words := Words(Lower(question));
    var matched := ScoreChunks(window, words, documentId, d);
    var r := TopScored(matched, topK);
    ScoreChunksSound(window, words, documentId, d);
    RankedPrefix(matched, topK);
    forall x | x in r ensures x in matched {
      assert x in multiset(r);
    }
  }

  /** Collecting first chunks list by list: one list's entries come before the next one's. */
  lemma {:induction false} FirstChunksAppend(a: seq<Document>, b: seq<Document>,
                                             chunksOf: int -> Option<seq<ChunkRecord>>)
    ensures FirstChunks(a + b, chunksOf)
         == if FirstChunks(a, chunksOf).Failure? then FirstChunks(a, chunksOf)
            else Prepend(FirstChunks(a, chunksOf).value, FirstChunks(b, chunksOf))
  {
    if a == [] {
      assert a + b == b;
      if FirstChunks(b, chunksOf).Success? {
        assert [] + FirstChunks(b, chunksOf).value == FirstChunks(b, chunksOf).value;
      }
    } else {
      assert (a + b)[0] == a[0] && (a + b)[1..] == a[1..] + b;
      FirstChunksAppend(a[1..], b, chunksOf);
      if chunksOf(a[0].id).Some? && FirstChunks(a, chunksOf).Success? && FirstChunks(b, chunksOf).Success? {
        var cs := chunksOf(a[0].id).value;
        var head := if cs != [] then [FirstHit(a[0], cs[0])] else [];
        AppendAssoc(head, FirstChunks(a[1..], chunksOf).value, FirstChunks(b, chunksOf).value);
      }
    }
  }

  /**
   * The filename fallback: the first chunk of each of the first `top_k`
   * documents whose filename contains the question (ignoring case), in
   * the newest-first order of the search, for exactly those of them that
   * have chunks, each with index 0 and score 0.5.
   */
  lemma FilenameResults(question: string, topK: int, env: Env)
    requires FilenameSpec(question, topK, env).Success?
    ensures env.dbUp
    ensures FilenameSpec(question, topK, env)
         == FirstChunks(Take(SearchRows(env.rows, question), topK), env.chunksOf)
    ensures var r := FilenameSpec(question, topK, env).value;
      && (topK >= 0 ==> |r| <= topK)
      && (forall x :: x in r ==> x.score == FILENAME_MATCH_SCORE && x.chunkIndex == 0)
      && (forall x :: x in r ==> MatchesFilename(question, x.document.filename))
    ensures var r := FilenameSpec(question, topK, env).value;
      var docs := Take(SearchRows(env.rows, question), topK);
      forall d :: d in docs && HasChunks(d, env.chunksOf) ==> FirstHit(d, env.chunksOf(d.id).value[0]) in r
    ensures var r := FilenameSpec(question, topK, env).value;
      var docs := Take(SearchRows(env.rows, question), topK);
      forall x :: x in r ==> exists d :: d in docs && HasChunks(d, env.chunksOf) && x == FirstHit(d, env.chunksOf(d.id).value[0])
  {
    var docs := Take(SearchRows(env.rows, question), topK);
    var r := FirstChunks(docs, env.chunksOf).value;
    FirstChunksMembers(docs, env.chunksOf);
    forall x | x in r ensures MatchesFilename(question, x.document.filename) {
      var d :| d in docs && HasChunks(d, env.chunksOf) && x == FirstHit(d, env.chunksOf(d.id).value[0]);
      assert d in SearchRows(env.rows, question);
    }
  }

  /** Whatever path it takes, `retrieve_context` returns at most `top_k` chunks. */
  lemma RetrieveBounded(question: string, topK: int, threshold: real, documentId: Option<int>, env: Env,
                        found: Result<seq<ScoredPoint>, Error>)
    requires topK >= 0
    requires found.Success? ==> SearchAnswer(found.value, topK, SearchFilter(documentId), threshold)
    ensures |OrEmpty(VectorSpec(topK, documentId, threshold, found, env))| <= topK
    ensures |OrEmpty(FallbackSpec(question, topK, documentId, env))| <= topK
  {
    var f := FallbackSpec(question, topK, documentId, env);
    if f.Success? {
      if documentId.Some? && documentId.value != 0 {
        var id := documentId.value;
        if Lookup(env.rows, id).Some? {
          var d := Lookup(env.rows, id).value;
          var chunks := env.chunksOf(id).value;
          ByDocumentResults(question, topK, id, env, d, chunks);
          RankedPrefix(ScoreChunks(Take(chunks, topK), Words(Lower(question)), id, d), topK);
        }
      } else {
        FilenameResults(question, topK, env);
      }
    }
  }

  /** `retrieve_context` returns at most `top_k` chunks whatever path it takes. */
  lemma RetrieveContextBounded(question: string, topK: int, threshold: real, documentId: Option<int>,
                               useFallback: bool, found: Result<seq<ScoredPoint>, Error>, inTry: Env, inExcept: Env)
    requires topK >= 0
    requires found.Success? ==> SearchAnswer(found.value, topK, SearchFilter(documentId), threshold)
    ensures |RetrieveSpec(question, topK, threshold, documentId, useFallback, found, inTry, inExcept)| <= topK
  {
    RetrieveBounded(question, topK, threshold, documentId, inTry, found);
    RetrieveBounded(question, topK, threshold, documentId, inExcept, found);
  }

  // ---------------------------------------------------------------------
  // get_full_document_context
  // ---------------------------------------------------------------------

  datatype FullContext = FullContext(documentId: int, filename: string, fileType: string, fullText: string,
                                     chunks: seq<ChunkRecord>, uploadDate: int, fileSize: int, numChunks: nat)

  function Texts(cs: seq<ChunkRecord>): (ts: seq<string>)
    ensures |ts| == |cs| && forall i :: 0 <= i < |cs| ==> ts[i] == cs[i].text
  {
    seq(|cs|, i requires 0 <= i < |cs| => cs[i].text)
  }

  /** `get_full_document_context`: `None` for an unknown document. */
  function FullDocumentContext(documentId: int, env: Env): (r: Result<Option<FullContext>, Error>)
    ensures r.Failure? <==> !env.dbUp || (Lookup(env.rows, documentId).Some? && env.chunksOf(documentId).None?)
    ensures r.Success? ==> (r.value.None? <==> Lookup(env.rows, documentId).None?)
    ensures r.Success? && r.value.Some? ==> r.value.value.fullText == Join(Texts(r.value.value.chunks), CHUNK_SEPARATOR)
    ensures r.Success? && r.value.Some? ==>
      var c := r.value.value;
      var d := Lookup(env.rows, documentId).value;
      c.documentId == documentId && c.filename == d.filename && c.fileType == d.fileType &&
      c.chunks == env.chunksOf(documentId).value && c.numChunks == |c.chunks| &&
      c.uploadDate == d.uploadDate && c.fileSize == d.fileSize
  {
    if !env.dbUp then Failure(UpstreamError)
    else match Lookup(env.rows, documentId)
      case None => Success(None)
      case Some(d) =>
        match env.chunksOf(documentId)
        case None => Failure(UpstreamError)
        case Some(cs) =>
          Success(Some(FullContext(documentId, d.filename, d.fileType, Join(Texts(cs), CHUNK_SEPARATOR),
                                   cs, d.uploadDate, d.fileSize, |cs|)))
  }

  /** Every chunk of the document occurs in its full text. */
  lemma FullTextHasEveryChunk(documentId: int, env: Env, k: nat)
    requires FullDocumentContext(documentId, env).Success?
    requires FullDocumentContext(documentId, env).value.Some?
    requires k < |FullDocumentContext(documentId, env).value.value.chunks|
    ensures var c := FullDocumentContext(documentId, env).value.value;
      IsSubstring(c.chunks[k].text, c.fullText)
  {
    var c := FullDocumentContext(documentId, env).value.value;
    JoinContains(Texts(c.chunks), CHUNK_SEPARATOR, k);
  }
}

=== FILE: sorting.dfy ===
/**
 * Python's `list.sort(key=...)`: a stable sort.  `reverse=True` keeps
 * stability, so a descending sort on `k` is the ascending sort on `-k`.
 * The sort is modelled as insertion sort, which is stable by construction.
 */
module Sorting {

  ghost predicate SortedBy<T>(s: seq<T>, key: T -> real) {
    forall i, j :: 0 <= i < j < |s| ==> key(s[i]) <= key(s[j])
  }

  /** Puts `x` after every element whose key is at most `key(x)`. */
  function Insert<T>(x: T, s: seq<T>, key: T -> real): (r: seq<T>)
    ensures |r| == |s| + 1
  {
    if s == [] then [x]
    else if key(x) < key(s[0]) then [x] + s
    else [s[0]] + Insert(x, s[1..], key)
  }

  /** Inserting adds exactly the one element. */
  lemma {:induction false} InsertPermutation<T>(x: T, s: seq<T>, key: T -> real)
    ensures multiset(Insert(x, s, key)) == multiset(s) + multiset{x}
  {
    if s != [] && key(x) >= key(s[0]) {
      InsertPermutation(x, s[1..], key);
      assert s == [s[0]] + s[1..];
    }
  }

  /** The result of the stable sort of `s` by `key`. */
  function SortBy<T>(s: seq<T>, key: T -> real): (r: seq<T>)
    ensures |r| == |s|
    ensures multiset(r) == multiset(s)
  {
    if s == [] then []
    else
      var init := s[..|s| - 1];
      assert s == init + [s[|s| - 1]];
      InsertPermutation(s[|s| - 1], SortBy(init, key), key);
      Insert(s[|s| - 1], SortBy(init, key), key)
  }

  /** The elements of `s` whose key is `v`, in their order in `s`. */
  function WithKey<T>(s: seq<T>, key: T -> real, v: real): seq<T>
  {
    if s == [] then []
    else (if key(s[0]) == v then [s[0]] else []) + WithKey(s[1..], key, v)
  }

  lemma {:induction false} WithKeyAppend<T>(a: seq<T>, b: seq<T>, key: T -> real, v: real)
    ensures WithKey(a + b, key, v) == WithKey(a, key, v) + WithKey(b, key, v)
  {
    if a == [] {
      assert a + b == b;
    } else {
      var head := if key(a[0]) == v then [a[0]] else [];
      assert (a + b)[0] == a[0];
      assert (a + b)[1..] == a[1..] + b;
      assert WithKey(a + b, key, v) == head + WithKey(a[1..] + b, key, v);
      WithKeyAppend(a[1..], b, key, v);
      assert WithKey(a, key, v) == head + WithKey(a[1..], key, v);
    }
  }

  lemma {:induction false} WithKeyNone<T>(s: seq<T>, key: T -> real, v: real)
    requires forall i :: 0 <= i < |s| ==> key(s[i]) > v
    ensures WithKey(s, key, v) == []
  {
    if s != [] {
      WithKeyNone(s[1..], key, v);
    }
  }

  /** Inserting an element with key at least `b` into elements with keys at least `b` keeps that bound. */
  lemma {:induction false} InsertBounded<T>(x: T, s: seq<T>, key: T -> real, b: real)
    requires key(x) >= b
    requires forall i :: 0 <= i < |s| ==> key(s[i]) >= b
    ensures forall i :: 0 <= i < |Insert(x, s, key)| ==> key(Insert(x, s, key)[i]) >= b
  {
    if s != [] && key(x) >= key(s[0]) {
      var r := Insert(x, s[1..], key);
      InsertBounded(x, s[1..], key, b);
      assert Insert(x, s, key) == [s[0]] + r;
      forall i | 0 < i < |r| + 1
        ensures key(([s[0]] + r)[i]) >= b
      {
        assert ([s[0]] + r)[i] == r[i - 1];
      }
    }
  }

  lemma {:induction false} InsertSorted<T>(x: T, s: seq<T>, key: T -> real)
    requires SortedBy(s, key)
    ensures SortedBy(Insert(x, s, key), key)
  {
    if s != [] && key(x) >= key(s[0]) {
      var r := Insert(x, s[1..], key);
      assert Insert(x, s, key) == [s[0]] + r;
      InsertSorted(x, s[1..], key);
      InsertBounded(x, s[1..], key, key(s[0]));
      forall i, j | 0 <= i < j < |r| + 1
        ensures key(([s[0]] + r)[i]) <= key(([s[0]] + r)[j])
      {
        assert ([s[0]] + r)[j] == r[j - 1];
        if i > 0 {
          assert ([s[0]] + r)[i] == r[i - 1];
        }
      }
    }
  }

  lemma {:induction false} InsertWithKey<T>(x: T, s: seq<T>, key: T -> real, v: real)
    requires SortedBy(s, key)
    ensures WithKey(Insert(x, s, key), key, v)
         == WithKey(s, key, v) + (if key(x) == v then [x] else [])
  {
    var mine := if key(x) == v then [x] else [];
    if s == [] {
    } else if key(x) < key(s[0]) {
      assert WithKey(Insert(x, s, key), key, v) == mine + WithKey(s, key, v) by {
        assert Insert(x, s, key) == [x] + s;
        assert ([x] + s)[1..] == s;
      }
      if key(x) == v {
        WithKeyNone(s, key, v);
      }
    } else {
      var head := if key(s[0]) == v then [s[0]] else [];
      var r := Insert(x, s[1..], key);
      assert WithKey(Insert(x, s, key), key, v) == head + WithKey(r, key, v) by {
        assert Insert(x, s, key) == [s[0]] + r;
        assert ([s[0]] + r)[1..] == r;
      }
      assert WithKey(r, key, v) == WithKey(s[1..], key, v) + mine by {
        InsertWithKey(x, s[1..], key, v);
      }
    }
  }

  lemma {:induction false} SortBySorted<T>(s: seq<T>, key: T -> real)
    ensures SortedBy(SortBy(s, key), key)
  {
    if s != [] {
      SortBySorted(s[..|s| - 1], key);
      InsertSorted(s[|s| - 1], SortBy(s[..|s| - 1], key), key);
    }
  }

  /** Stability: for every key value, the elements with that key keep their relative order. */
  lemma {:induction false} SortByStable<T>(s: seq<T>, key: T -> real, v: real)
    ensures WithKey(SortBy(s, key), key, v) == WithKey(s, key, v)
  {
    if s != [] {
      var init, last := s[..|s| - 1], s[|s| - 1];
      var tail := if key(last) == v then [last] else [];
      assert WithKey(SortBy(s, key), key, v) == WithKey(init, key, v) + tail by {
        var sorted := SortBy(init, key);
        assert SortBy(s, key) == Insert(last, sorted, key);
        SortBySorted(init, key);
        InsertWithKey(last, sorted, key, v);
        SortByStable(init, key, v);
      }
      assert WithKey(s, key, v) == WithKey(init, key, v) + tail by {
        assert s == init + [last];
        WithKeyAppend(init, [last], key, v);
        assert [last][1..] == [];
      }
    }
  }

  ghost predicate StrictlySortedBy<T>(s: seq<T>, key: T -> real) {
    forall i, j :: 0 <= i < j < |s| ==> key(s[i]) < key(s[j])
  }

  /** A sorted arrangement of the elements of a strictly sorted sequence starts with the same element. */
  lemma SortedSameHead<T>(a: seq<T>, b: seq<T>, key: T -> real)
    requires a != [] && SortedBy(a, key) && StrictlySortedBy(b, key)
    requires multiset(a) == multiset(b)
    ensures b != [] && a[0] == b[0]
  {
    assert a[0] in multiset(b);
    var j :| 0 <= j < |b| && b[j] == a[0];
    assert b[0] in multiset(a);
    var i :| 0 <= i < |a| && a[i] == b[0];
    assert key(a[0]) <= key(a[i]);
  }

  /** Removing the same first element from two permutations leaves permutations. */
  lemma SameTails<T>(a: seq<T>, b: seq<T>)
    requires a != [] && b != [] && a[0] == b[0]
    requires multiset(a) == multiset(b)
    ensures multiset(a[1..]) == multiset(b[1..])
  {
    assert a == [a[0]] + a[1..];
    assert b == [b[0]] + b[1..];
    assert multiset(a[1..]) == multiset(a) - multiset{a[0]};
    assert multiset(b[1..]) == multiset(b) - multiset{a[0]};
  }

  /**
   * A sorted arrangement of the elements of a strictly sorted sequence is
   * that sequence: the sort result is unique when keys are distinct.
   */
  lemma {:induction false} SortedUnique<T>(a: seq<T>, b: seq<T>, key: T -> real)
    requires SortedBy(a, key) && StrictlySortedBy(b, key)
    requires multiset(a) == multiset(b)
    ensures a == b
  {
    if a == [] {
      assert |b| == |multiset(b)| == 0;
    } else {
      SortedSameHead(a, b, key);
      SameTails(a, b);
      SortedUnique(a[1..], b[1..], key);
      assert a == [a[0]] + a[1..];
      assert b == [b[0]] + b[1..];
    }
  }

  predicate Distinct<T(==)>(s: seq<T>) {
    forall i, j :: 0 <= i < j < |s| ==> s[i] != s[j]
  }

  /** In a sequence without repeats every element occurs once. */
  lemma {:induction false} DistinctCount<T>(s: seq<T>, x: T)
    requires Distinct(s)
    ensures multiset(s)[x] == if x in s then 1 else 0
  {
    if s != [] {
      assert s == [s[0]] + s[1..];
      DistinctCount(s[1..], x);
      if x == s[0] {
        assert x !in s[1..];
      }
    }
  }

  /** Two repeat-free sequences with the same elements are permutations of each other. */
  lemma DistinctSameElements<T>(a: seq<T>, b: seq<T>)
    requires Distinct(a) && Distinct(b)
    requires forall x :: x in a <==> x in b
    ensures multiset(a) == multiset(b)
  {
    forall x
      ensures multiset(a)[x] == multiset(b)[x]
    {
      DistinctCount(a, x);
      DistinctCount(b, x);
    }
  }
}

=== FILE: text.dfy ===
/**
 * The Python string primitives the service relies on: the `\s` class of its
 * regular expressions, `str.strip`, `str.lower`, `str.split()`, the `in`
 * substring test and `str.join`.  Whitespace is Python's `str.isspace`
 * set; case mapping covers the ASCII letters only.
 */
module Text {

  /**
   * A character matched by `\s`, removed by `str.strip()` and separating the
   * words of `str.split()`: the characters `str.isspace` accepts.
   */
  predicate IsSpace(c: char) {
    || c == ' ' || '\t' <= c <= '\r' || '\U{001C}' <= c <= '\U{001F}'
    || c == '\U{0085}' || c == '\U{00A0}' || c == '\U{1680}' || '\U{2000}' <= c <= '\U{200A}'
    || c == '\U{2028}' || c == '\U{2029}' || c == '\U{202F}' || c == '\U{205F}' || c == '\U{3000}'
  }

  predicate AllSpace(s: string) {
    forall i :: 0 <= i < |s| ==> IsSpace(s[i])
  }

  /** No whitespace at either end (what `str.strip()` produces). */
  predicate IsStripped(s: string) {
    s == [] || (!IsSpace(s[0]) && !IsSpace(s[|s| - 1]))
  }

  /** Number of whitespace characters at the front of `s`. */
  function LeadingSpaces(s: string): (n: nat)
    ensures n <= |s|
    ensures AllSpace(s[..n])
    ensures n < |s| ==> !IsSpace(s[n])
  {
    if s != [] && IsSpace(s[0]) then
      var m := LeadingSpaces(s[1..]);
      assert s[..1 + m] == [s[0]] + s[1..][..m];
      1 + m
    else 0
  }

  /** Number of whitespace characters at the back of `s`. */
  function TrailingSpaces(s: string): (n: nat)
    ensures n <= |s|
    ensures AllSpace(s[|s| - n..])
    ensures n < |s| ==> !IsSpace(s[|s| - 1 - n])
  {
    if s != [] && IsSpace(s[|s| - 1]) then
      var m := TrailingSpaces(s[..|s| - 1]);
      var tail := s[|s| - (1 + m)..];
      assert AllSpace(tail) by {
        forall k | 0 <= k < |tail|
          ensures IsSpace(tail[k])
        {
          if k < m {
            assert tail[k] == s[..|s| - 1][|s| - 1 - m..][k];
          }
        }
      }
      1 + m
    else 0
  }

  /** Python's `str.strip()`. */
  function Strip(s: string): (r: string)
    ensures IsStripped(r)
    ensures r == [] <==> AllSpace(s)
    ensures LeadingSpaces(s) + |r| <= |s|
    ensures r == s[LeadingSpaces(s)..LeadingSpaces(s) + |r|]
    ensures LeadingSpaces(s) + |r| + TrailingSpaces(s[LeadingSpaces(s)..]) == |s|
  {
    var a := LeadingSpaces(s);
    var t := s[a..];
    var b := TrailingSpaces(t);
    var r := t[..|t| - b];
    assert r == s[a..a + |r|];
    assert a < |s| ==> t[0] == s[a];
    assert b == |t| ==> t[|t| - b..] == t;
    assert a == |s| ==> s[..a] == s;
    r
  }

  /** Everything after the stripped text is whitespace. */
  lemma StripTail(s: string)
    ensures AllSpace(s[LeadingSpaces(s) + |Strip(s)|..])
  {
    var a, n := LeadingSpaces(s), |Strip(s)|;
    var t := s[a..];
    var b := TrailingSpaces(t);
    var tail := s[a + n..];
    assert a + n == |s| - b && |tail| == b;
    forall i | 0 <= i < |tail|
      ensures IsSpace(tail[i])
    {
      assert tail[i] == t[|t| - b..][i];
    }
  }

  lemma StrippedIsFixpoint(s: string)
    requires IsStripped(s)
    ensures Strip(s) == s
  {
    if s != [] {
      assert LeadingSpaces(s) == 0;
      assert TrailingSpaces(s) == 0;
    }
  }

  /** Python's `str.lower()` on one character. */
  function LowerChar(c: char): char {
    if 'A' <= c <= 'Z' then (c as int + 32) as char else c
  }

  /** Python's `str.lower()`. */
  function Lower(s: string): (r: string)
    ensures |r| == |s|
    ensures forall i :: 0 <= i < |s| ==> r[i] == LowerChar(s[i])
  {
    seq(|s|, i requires 0 <= i < |s| => LowerChar(s[i]))
  }

  /** A string without upper-case letters is its own lower case. */
  lemma LowerOfLowercase(s: string)
    requires forall i :: 0 <= i < |s| ==> !('A' <= s[i] <= 'Z')
    ensures Lower(s) == s
  {
    assert forall i :: 0 <= i < |s| ==> Lower(s)[i] == s[i];
  }

  /** Python's `w in t` for strings. */
  predicate IsSubstring(w: string, t: string) {
    exists i :: 0 <= i <= |t| - |w| && OccursAt(w, t, i)
  }

  predicate OccursAt(w: string, t: string, i: int) {
    0 <= i <= |t| - |w| && t[i..i + |w|] == w
  }

  /** Length of the run of non-whitespace characters at the front of `t`. */
  function WordLength(t: string): (n: nat)
    ensures n <= |t|
    ensures t != [] && !IsSpace(t[0]) ==> n >= 1
    ensures forall j :: 0 <= j < n ==> !IsSpace(t[j])
    ensures n < |t| ==> IsSpace(t[n])
  {
    if t != [] && !IsSpace(t[0]) then 1 + WordLength(t[1..]) else 0
  }

  /** Python's `str.split()` without arguments: the maximal runs of non-whitespace. */
  function Words(s: string): seq<string>
    decreases |s|
  {
    var t := s[LeadingSpaces(s)..];
    if t == [] then []
    else
      var n := WordLength(t);
      [t[..n]] + Words(t[n..])
  }

  /** Every word is non-empty and free of whitespace. */
  lemma {:induction false} WordsShape(s: string)
    ensures forall k :: 0 <= k < |Words(s)| ==> Words(s)[k] != []
    ensures forall k, j :: 0 <= k < |Words(s)| && 0 <= j < |Words(s)[k]| ==> !IsSpace(Words(s)[k][j])
    decreases |s|
  {
    var t := s[LeadingSpaces(s)..];
    if t != [] {
      var n := WordLength(t);
      WordsShape(t[n..]);
      WordsCons(t[..n], Words(t[n..]));
    }
  }

  /** A word in front of words gives words. */
  lemma WordsCons(w: string, rest: seq<string>)
    requires w != [] && forall j :: 0 <= j < |w| ==> !IsSpace(w[j])
    requires forall k :: 0 <= k < |rest| ==> rest[k] != []
    requires forall k, j :: 0 <= k < |rest| && 0 <= j < |rest[k]| ==> !IsSpace(rest[k][j])
    ensures forall k :: 0 <= k < |[w] + rest| ==> ([w] + rest)[k] != []
    ensures forall k, j :: 0 <= k < |[w] + rest| && 0 <= j < |([w] + rest)[k]| ==> !IsSpace(([w] + rest)[k][j])
  {
    forall k | 0 < k < |[w] + rest|
      ensures ([w] + rest)[k] == rest[k - 1]
    {
    }
  }

  /** `LeadingSpaces` is the one count whose prefix is whitespace and is followed by none. */
  lemma {:induction false} LeadingSpacesUnique(s: string, n: nat)
    requires n <= |s| && AllSpace(s[..n]) && (n < |s| ==> !IsSpace(s[n]))
    ensures LeadingSpaces(s) == n
  {
  }

  /** `WordLength` is the one length whose prefix has no whitespace and is followed by some. */
  lemma {:induction false} WordLengthUnique(t: string, n: nat)
    requires n <= |t| && (forall j :: 0 <= j < n ==> !IsSpace(t[j])) && (n < |t| ==> IsSpace(t[n]))
    ensures WordLength(t) == n
  {
  }

  /** Only the text after the leading whitespace decides the words. */
  lemma {:induction false} WordsFromStart(s: string)
    ensures Words(s) == Words(s[LeadingSpaces(s)..])
  {
    var t := s[LeadingSpaces(s)..];
    LeadingSpacesUnique(t, 0);
    assert t[0..] == t;
  }

  /** Whitespace alone has no words. */
  lemma {:induction false} WordsOfSpaces(s: string)
    requires AllSpace(s)
    ensures Words(s) == []
  {
    LeadingSpacesUnique(s, |s|);
    assert s[..|s|] == s;
  }

  /** There are no words exactly when the text is all whitespace. */
  lemma {:induction false} WordsEmpty(s: string)
    ensures Words(s) == [] <==> AllSpace(s)
  {
    if AllSpace(s) {
      WordsOfSpaces(s);
    } else {
      assert LeadingSpaces(s) < |s|;
    }
  }

  /** A single run of non-whitespace is one word. */
  lemma {:induction false} WordsOfWord(w: string)
    requires w != [] && forall j :: 0 <= j < |w| ==> !IsSpace(w[j])
    ensures Words(w) == [w]
  {
    LeadingSpacesUnique(w, 0);
    WordLengthUnique(w, |w|);
    assert w[0..] == w && w[..|w|] == w;
    WordsOfSpaces(w[|w|..]);
  }

  /** Leading whitespace adds no words. */
  lemma {:induction false} WordsAfterSpaces(a: string, b: string)
    requires AllSpace(a)
    ensures Words(a + b) == Words(b)
  {
    assert (a + b)[..|a|] == a && (a + b)[|a|..] == b;
    WordsSkip(a + b, |a|);
  }

  /** Skipping a whitespace prefix does not change the words. */
  lemma {:induction false} WordsSkip(s: string, l: nat)
    requires l <= |s| && AllSpace(s[..l])
    ensures Words(s) == Words(s[l..])
  {
    var m := LeadingSpaces(s[l..]);
    assert s[..l + m] == s[..l] + s[l..][..m];
    assert l + m < |s| ==> s[l + m] == s[l..][m];
    LeadingSpacesUnique(s, l + m);
    assert s[l..][m..] == s[l + m..];
    WordsFromStart(s);
    WordsFromStart(s[l..]);
  }

  /** A string that starts with a word splits into that word and the words of the rest. */
  lemma {:induction false} FirstWord(t: string)
    requires t != [] && !IsSpace(t[0])
    ensures Words(t) == [t[..WordLength(t)]] + Words(t[WordLength(t)..])
  {
    LeadingSpacesUnique(t, 0);
    assert t[0..] == t;
  }

  /** The first word of `t + b` is the first word of `t` when `b` cannot extend it. */
  lemma {:induction false} FirstWordAppend(t: string, b: string)
    requires t != [] && !IsSpace(t[0])
    requires WordLength(t) < |t| || b == [] || IsSpace(b[0])
    ensures WordLength(t + b) == WordLength(t)
    ensures Words(t + b) == [t[..WordLength(t)]] + Words(t[WordLength(t)..] + b)
  {
    var n := WordLength(t);
    assert forall j :: 0 <= j < n ==> (t + b)[j] == t[j];
    assert n < |t| ==> (t + b)[n] == t[n];
    WordLengthUnique(t + b, n);
    LeadingSpacesUnique(t + b, 0);
    assert (t + b)[0..] == t + b;
    assert (t + b)[..n] == t[..n];
    assert (t + b)[n..] == t[n..] + b;
  }

  /**
   * Splitting between two strings that do not glue a word together splits
   * their words: a string's words are its maximal runs of non-whitespace.
   */
  lemma {:induction false} WordsAppend(a: string, b: string)
    requires a == [] || b == [] || IsSpace(a[|a| - 1]) || IsSpace(b[0])
    ensures Words(a + b) == Words(a) + Words(b)
    decreases |a|
  {
    var l := LeadingSpaces(a);
    if l == |a| {
      assert a[..l] == a;
      WordsOfSpaces(a);
      WordsAfterSpaces(a, b);
    } else {
      WordsAppendWord(a, b, l);
    }
  }

  /** The inductive step of `WordsAppend`, when `a` holds a word. */
  lemma {:induction false} WordsAppendWord(a: string, b: string, l: nat)
    requires a == [] || b == [] || IsSpace(a[|a| - 1]) || IsSpace(b[0])
    requires l == LeadingSpaces(a) < |a|
    ensures Words(a + b) == Words(a) + Words(b)
    decreases |a|, 0
  {
    var t := a[l..];
    var n := WordLength(t);
    assert t[|t| - 1] == a[|a| - 1];
    WordsPastSpaces(a, b, l);
    FirstWordOfBoth(t, b, a[|a| - 1], n);
    assert |t[n..]| < |a|;
    calc {
      Words(a + b);
      Words(t + b);
      [t[..n]] + Words(t[n..] + b);
      { WordsAppend(t[n..], b); }
      [t[..n]] + (Words(t[n..]) + Words(b));
      { ConsAppend(t[..n], Words(t[n..]), Words(b)); }
      ([t[..n]] + Words(t[n..])) + Words(b);
      Words(t) + Words(b);
      Words(a) + Words(b);
    }
  }

  /** Skipping the leading whitespace of `a` changes neither `Words(a)` nor `Words(a + b)`. */
  lemma {:induction false} WordsPastSpaces(a: string, b: string, l: nat)
    requires l == LeadingSpaces(a) <= |a|
    ensures Words(a + b) == Words(a[l..] + b) && Words(a) == Words(a[l..])
  {
    assert (a + b)[..l] == a[..l] && (a + b)[l..] == a[l..] + b;
    WordsSkip(a + b, l);
    WordsSkip(a, l);
  }

  /** `t` and `t + b` start with the same word when `b` cannot extend it. */
  lemma {:induction false} FirstWordOfBoth(t: string, b: string, last: char, n: nat)
    requires t != [] && !IsSpace(t[0]) && t[|t| - 1] == last
    requires b == [] || IsSpace(last) || IsSpace(b[0])
    requires n == WordLength(t)
    ensures Words(t + b) == [t[..n]] + Words(t[n..] + b)
    ensures Words(t) == [t[..n]] + Words(t[n..])
    ensures t[n..] == [] || t[n..][|t[n..]| - 1] == last
  {
    FirstWordNoGlue(t, b, last, n);
    FirstWordAppend(t, b);
    FirstWord(t);
  }

  /** The first word of `t` cannot glue onto `b`, and what follows it still ends with `last`. */
  lemma {:induction false} FirstWordNoGlue(t: string, b: string, last: char, n: nat)
    requires t != [] && !IsSpace(t[0]) && t[|t| - 1] == last
    requires b == [] || IsSpace(last) || IsSpace(b[0])
    requires n == WordLength(t)
    ensures n < |t| || b == [] || IsSpace(b[0])
    ensures t[n..] == [] || t[n..][|t[n..]| - 1] == last
  {
    if n == |t| {
      assert !IsSpace(t[n - 1]);
    }
    var rest := t[n..];
    if rest != [] {
      assert rest[|rest| - 1] == t[|t| - 1];
    }
  }

  lemma AppendAssoc<T>(a: seq<T>, b: seq<T>, c: seq<T>)
    ensures a + (b + c) == (a + b) + c
  {
  }

  lemma ConsAppend<T>(x: T, s: seq<T>, t: seq<T>)
    ensures [x] + (s + t) == ([x] + s) + t
  {
  }

  /** Stripping keeps the words. */
  lemma {:induction false} WordsOfStrip(s: string)
    ensures Words(Strip(s)) == Words(s)
  {
    var l, r := LeadingSpaces(s), Strip(s);
    var tail := s[l + |r|..];
    StripTail(s);
    assert s[l..] == r + tail;
    assert tail == [] || IsSpace(tail[0]);
    WordsSkip(s, l);
    WordsAppend(r, tail);
    WordsOfSpaces(tail);
    assert Words(r) + [] == Words(r);
  }

  /** Python's `sep.join(parts)`. */
  function Join(parts: seq<string>, sep: string): string
  {
    if |parts| == 0 then ""
    else if |parts| == 1 then parts[0]
    else parts[0] + sep + Join(parts[1..], sep)
  }

  /** Where part `k` starts in `Join(parts, sep)`: the earlier parts, each followed by `sep`. */
  function Offset(parts: seq<string>, sep: string, k: nat): nat
    requires k <= |parts|
  {
    if k == 0 then 0 else |parts[0]| + |sep| + Offset(parts[1..], sep, k - 1)
  }

  /** Part `k` sits at its offset. */
  lemma {:induction false} JoinPartAt(parts: seq<string>, sep: string, k: nat)
    requires k < |parts|
    ensures OccursAt(parts[k], Join(parts, sep), Offset(parts, sep, k))
    decreases k
  {
    var t := Join(parts, sep);
    if |parts| == 1 {
      assert t[0..|parts[0]|] == parts[0];
    } else {
      var rest := Join(parts[1..], sep);
      assert t == parts[0] + sep + rest;
      if k == 0 {
        assert t[0..|parts[0]|] == parts[0];
      } else {
        var off := |parts[0]| + |sep|;
        var i := Offset(parts[1..], sep, k - 1);
        JoinPartAt(parts[1..], sep, k - 1);
        assert t[off + i..off + i + |parts[k]|] == rest[i..i + |parts[k]|];
      }
    }
  }

  /** A separator follows every part but the last. */
  lemma {:induction false} JoinSepAt(parts: seq<string>, sep: string, k: nat)
    requires k + 1 < |parts|
    ensures OccursAt(sep, Join(parts, sep), Offset(parts, sep, k) + |parts[k]|)
    decreases k
  {
    var t := Join(parts, sep);
    var rest := Join(parts[1..], sep);
    assert t == parts[0] + sep + rest;
    if k == 0 {
      assert t[|parts[0]|..|parts[0]| + |sep|] == sep;
    } else {
      var off := |parts[0]| + |sep|;
      assert parts[1..][k - 1] == parts[k];
      var i := Offset(parts[1..], sep, k - 1) + |parts[k]|;
      JoinSepAt(parts[1..], sep, k - 1);
      assert OccursAt(sep, rest, i);
      assert off + i == Offset(parts, sep, k) + |parts[k]|;
      assert t[off + i..off + i + |sep|] == rest[i..i + |sep|];
    }
  }

  /** The joined string ends with the last part. */
  lemma {:induction false} JoinLength(parts: seq<string>, sep: string)
    requires parts != []
    ensures |Join(parts, sep)| == Offset(parts, sep, |parts| - 1) + |parts[|parts| - 1]|
  {
    if |parts| > 1 {
      JoinLength(parts[1..], sep);
    }
  }

  /**
   * The joined string is the parts, in order, each at its offset, with
   * `sep` after every part but the last, and nothing else.
   */
  lemma JoinLayout(parts: seq<string>, sep: string)
    ensures parts == [] ==> Join(parts, sep) == []
    ensures parts != [] ==> |Join(parts, sep)| == Offset(parts, sep, |parts| - 1) + |parts[|parts| - 1]|
    ensures forall k :: 0 <= k < |parts| ==> OccursAt(parts[k], Join(parts, sep), Offset(parts, sep, k))
    ensures forall k :: 0 <= k < |parts| - 1 ==> OccursAt(sep, Join(parts, sep), Offset(parts, sep, k) + |parts[k]|)
  {
    if parts != [] {
      JoinLength(parts, sep);
    }
    forall k | 0 <= k < |parts| {
      JoinPartAt(parts, sep, k);
    }
    forall k | 0 <= k < |parts| - 1 {
      JoinSepAt(parts, sep, k);
    }
  }

  /** Every part occurs in the joined string. */
  lemma {:induction false} JoinContains(parts: seq<string>, sep: string, k: nat)
    requires k < |parts|
    ensures IsSubstring(parts[k], Join(parts, sep))
  {
    var t := Join(parts, sep);
    if |parts| == 1 {
      assert OccursAt(parts[0], t, 0);
    } else if k == 0 {
      assert t[..|parts[0]|] == parts[0];
      assert OccursAt(parts[0], t, 0);
    } else {
      var rest := Join(parts[1..], sep);
      JoinContains(parts[1..], sep, k - 1);
      var i :| 0 <= i <= |rest| - |parts[k]| && OccursAt(parts[k], rest, i);
      var off := |parts[0]| + |sep|;
      assert t == (parts[0] + sep) + rest;
      assert t[off + i..off + i + |parts[k]|] == rest[i..i + |parts[k]|];
      assert OccursAt(parts[k], t, off + i);
    }
  }

  function DigitChar(d: nat): char
    requires d < 10
  {
    "0123456789"[d]
  }

  /** Python's `str(n)` for a non-negative integer. */
  function NatToString(n: nat): (r: string)
    ensures r != []
    ensures forall i :: 0 <= i < |r| ==> '0' <= r[i] <= '9'
    ensures n < 10 <==> |r| == 1
  {
    if n < 10 then [DigitChar(n)] else NatToString(n / 10) + [DigitChar(n % 10)]
  }

  /** Python's `str(n)` for any integer. */
  function IntToString(n: int): (r: string)
    ensures r != [] && (n < 0 <==> r[0] == '-')
    ensures n >= 0 ==> r == NatToString(n)
    ensures n < 0 ==> r[1..] == NatToString(-n)
  {
    if n < 0 then "-" + NatToString(-n) else NatToString(n)
  }

  /** The value of a string of decimal digits. */
  function DigitsValue(s: string): nat
    requires forall i :: 0 <= i < |s| ==> '0' <= s[i] <= '9'
  {
    if s == [] then 0 else 10 * DigitsValue(s[..|s| - 1]) + (s[|s| - 1] as int - '0' as int)
  }

  /** Reading the digits back gives the number. */
  lemma {:induction false} NatToStringRoundTrip(n: nat)
    ensures DigitsValue(NatToString(n)) == n
  {
    var r := NatToString(n);
    if n < 10 {
      assert r[..0] == [];
    } else {
      NatToStringRoundTrip(n / 10);
      assert r[..|r| - 1] == NatToString(n / 10);
    }
  }

  lemma SubstringTrans(a: string, b: string, c: string)
    requires IsSubstring(a, b) && IsSubstring(b, c)
    ensures IsSubstring(a, c)
  {
    var i :| 0 <= i <= |b| - |a| && OccursAt(a, b, i);
    var j :| 0 <= j <= |c| - |b| && OccursAt(b, c, j);
    forall k | 0 <= k < |a| ensures c[j + i + k] == a[k] {
      assert c[j..j + |b|][i + k] == b[i + k];
    }
    assert c[j + i..j + i + |a|] == a;
    assert OccursAt(a, c, j + i);
  }
}
